=== FILE: README.md ===
# Collection directory codec — a Dafny model

This project models `lib/commands/dir-utils.js`, the module that converts a nested
collection document (folders holding requests, each with an ordered list of event
scripts) into a directory tree and back, and edits such a tree in place:

- **Names.** `sanitizePathName` replaces every `/` with `_slash_`. `traverse` refuses a
  name holding `/` unless `substituteSlashes` is set. A sibling whose name was already
  handed out gets `-copy` appended, once.
- **Export (`traverse`).** It writes the document to disk in pre-order. Every folder
  gets a directory and a `.meta.json` holding `childrenOrder` (and the description).
  The root also gets the `.variable.json`, `.info.json` and `.auth.json` sidecars.
  Every request gets a directory with `request.json`, its events and `response.json`.
  Every event list becomes one `event.<listen>.js` per event plus an
  `.event.meta.json` holding `eventOrder`. A JSON raw body is stored parsed, under
  `raw_json_formatted`.
- **Import (`walkDirTree`, `checkAndCreateEventEntry`).** They rebuild the document
  from a typed directory listing. At depth 1 they hoist the sidecar keys. They turn
  event files back into events and restore the raw body. They re-order children by
  `childrenOrder` and events by `eventOrder`.
- **Folder commands.** `createPostmanFolder` and `removePostmanFolder` add or remove one
  sub-folder. Each read-modify-writes the parent's `childrenOrder`.
- **Guards.** The `assert*` functions check a path before a command runs. When a check
  fails, the source calls `process.exit(-1)`; here that is a failed outcome.

The filesystem is a map from paths (sequences of segments, `[]` being the working
directory) to directories and files. The class `FileStore.FileSystem` holds it, and
`createDir`, `createFile` and `fs.rmSync` are its methods. Every step-by-step
operation is a method that works on such an object. Each one is proved equal to a
function that says what it does to the map. The properties are then proved about those functions.

JSON values are a datatype. `JSON.parse`, `JSON.stringify(v, null, 2)` and
`JSON.stringify(v)` are the uninterpreted function fields of a `Codec`. Round trips
assume `Lawful(c)`: parsing what was stringified gives the value back.

Modules, in dependency order:
- `Base`: options, results, paths, errors.
- `Json`
- `FileStore`
- `Names`
- `Events`
- `Body`
- `Ordering`: the stable sort standing in for `Array.prototype.sort`.
- `Exporter` and `ExportProperties`
- `Importer` and `ImportProperties`
- `Folders` and `FolderProperties`
- `RoundTrip`: export followed by import, for a folder of folders and requests.

## Model

| member | source | states |
|---|---|---|
| FileStore.Mkdir | lib/commands/dir-utils.js:56-64 | fails with "already exists" exactly when the path exists, and otherwise succeeds exactly when no ancestor is a file; on success the path is a directory, every old entry is kept, and every new entry is an ancestor of the path (`recursive: true`); a failure changes nothing |
| FileStore.WriteFile | lib/commands/dir-utils.js:67-70 | succeeds exactly when the parent is a directory and the path is not a directory, and then sets the path to a file with that text; a failure changes nothing |
| FileStore.Remove | lib/commands/dir-utils.js:394 | `rmSync(p, {recursive, force})`: an entry survives exactly when it was there and is not at or below `p`, unchanged |
| FileStore.ReadFile | lib/commands/dir-utils.js:103 | reading succeeds exactly on a file and gives its content |
| FileStore.MkdirKeepsWellFormed | lib/commands/dir-utils.js:62 | making directories keeps every entry inside a directory |
| FileStore.WriteKeepsWellFormed | lib/commands/dir-utils.js:69 | writing a file keeps every entry inside a directory |
| FileStore.RemoveKeepsWellFormed | lib/commands/dir-utils.js:394 | removing a subtree keeps every entry inside a directory |
| FileStore.FileSystem.CreateDir | lib/commands/dir-utils.js:56-64 | `createDir` on the held filesystem: new state and outcome are those of `Mkdir`, well-formedness kept |
| FileStore.FileSystem.CreateFile | lib/commands/dir-utils.js:67-70 | `createFile`: writes the content plus a newline unless `skipTrailingNewLine`, well-formedness kept |
| FileStore.FileSystem.RemoveTree | lib/commands/dir-utils.js:394 | `fs.rmSync`: the new state is `Remove` of the old, well-formedness kept |
| Json.Truthy | lib/commands/dir-utils.js:215 | JavaScript truthiness of a possibly-undefined value (no contract) |
| Json.Prop | lib/commands/dir-utils.js:131-134 | a property read that throws on `undefined` or `null`, as `thing.info.name` and `JSON.parse(...)[item]` do; the read is a TypeError exactly on those |
| Json.ToText | lib/commands/dir-utils.js:217 | `String(v)`, the text `JSON.parse` reads when handed a value that is not a string (no contract) |
| Names.NextName | lib/commands/dir-utils.js:179-181 | one step of the `elementMap` test (no contract; `FinalNameAt` states it) |
| Names.Sanitize | lib/commands/dir-utils.js:73-75 | the result holds no '/', a name without '/' is returned unchanged, and the result is never shorter |
| Names.SanitizeIdempotent | lib/commands/dir-utils.js:73-75 | sanitizing twice equals sanitizing once |
| Names.SanitizeAppend | lib/commands/dir-utils.js:73-75 | sanitizing distributes over concatenation, so a `-copy` suffix survives it |
| Names.SanitizeNotInjective | lib/commands/dir-utils.js:73-75 | "a/b" and "a_slash_b" get the same directory name |
| Names.FinalNames | lib/commands/dir-utils.js:177-182 | one final name per sibling |
| Names.FinalNamesPrefix | lib/commands/dir-utils.js:177-182 | the names of the first `i` siblings do not depend on later siblings |
| Names.FinalNameAt | lib/commands/dir-utils.js:177-182 | a sibling keeps its name exactly when no earlier sibling ended up with it and it is not an inherited property name; otherwise it gets `-copy` exactly once |
| Names.DistinctNamesKept | lib/commands/dir-utils.js:177-182 | pairwise distinct, non-inherited sibling names are all kept as they are |
| Names.ThirdSiblingCollides | lib/commands/dir-utils.js:177-182 | of three same-named siblings the second and third both become `name-copy`, and the first keeps `name` |
| Names.InheritedNameRenamed | lib/commands/dir-utils.js:179-180 | a lone sibling named `constructor` is renamed `constructor-copy`, because `elementMap` inherits that property |
| Events.Join | lib/commands/dir-utils.js:87 | joining one line gives that line |
| Events.Split | lib/commands/dir-utils.js:107 | splitting gives at least one piece and no piece holds a newline |
| Events.JoinSplit | lib/commands/dir-utils.js:87-107 | joining the pieces of a split gives the text back |
| Events.SplitLine | lib/commands/dir-utils.js:107 | a newline-free line followed by a newline splits off as the first piece |
| Events.SplitJoin | lib/commands/dir-utils.js:87-107 | splitting the join of a non-empty list of newline-free lines gives the list back |
| Events.EmptyScriptGainsALine | lib/commands/dir-utils.js:87-107 | an empty `exec` comes back as one empty line |
| Events.MatchEventNameIff | lib/commands/dir-utils.js:98 | the pattern `^event\.([^.]+)\.js$` captures `listen` exactly when the name is `event.<listen>.js` with `listen` non-empty and free of '.' |
| Events.EventNamesMentionEvent | lib/commands/dir-utils.js:331 | a name the event pattern accepts also matches `/event/` |
| Events.CheckAndCreateEventEntry | lib/commands/dir-utils.js:97-114 | a non-matching name gives `{}` without reading; a matching name whose path is a file gives `{listen, script: {exec: split lines, type: 'text/javascript'}}`; a matching name with no readable file is an error |
| Events.Lines | lib/commands/dir-utils.js:87 | one written line per entry of `exec`, each coerced as `join` coerces it: `null` gives an empty line, any other value its `String()` form |
| Events.LineText | lib/commands/dir-utils.js:87 | how `join` writes one entry: `null` as the empty text, anything else as `String()` does (no contract; `Lines` and `NullLineWritten` state it) |
| Events.TriggerText | lib/commands/dir-utils.js:83 | how the template literal writes the trigger: a missing `listen` as `undefined`, anything else as `String()` does (no contract; `MissingTriggerWritten` states it) |
| Events.NullLineWritten | lib/commands/dir-utils.js:83-87 | the event `{listen: "test", script: {exec: ["a", null]}}` is written to `event.test.js` holding `a` and an empty second line |
| Events.MissingTriggerWritten | lib/commands/dir-utils.js:83-87 | an event without `listen` is written to `event.undefined.js` |
| Events.LinesOfStrs | lib/commands/dir-utils.js:87 | a list of strings gives back exactly those lines |
| Events.EventFileOf | lib/commands/dir-utils.js:83-87 | an event whose `listen` and `exec` are strings is written to `event.<listen>.js` holding the lines joined by newline; when `listen` holds '/' that name runs through a directory that is never made, and `SlashedTriggerRefused` shows the write failing |
| Events.EventFileName | lib/commands/dir-utils.js:83 | names the file of an event: `event.<listen>.js` (no contract; `MatchEventNameIff` inverts it) |
| Events.MatchEventName | lib/commands/dir-utils.js:98 | the pattern `^event\.([^.]+)\.js$` and its capture (no contract; `MatchEventNameIff` states what it accepts) |
| Events.EventEntry | lib/commands/dir-utils.js:101-109 | the event object built from a name and a text (no contract; `CheckAndCreateEventEntry` and `EventFileRoundTrip` state it) |
| Events.EventFile | lib/commands/dir-utils.js:83-87 | the file name and text written for one event: it succeeds exactly when the event has a `script` that is not `null` and whose `exec` is an array, and every failure (a `null` event, a missing or `null` script, an `exec` without `join`) is a TypeError; a trigger or line that is no string is coerced, not refused (`EventFileOf`, `NullLineWritten` and `MissingTriggerWritten` give the written file) |
| Events.EventsWritten | lib/commands/dir-utils.js:82-88 | the event files written one after the other, `eventOrder` so far, and the failed write of a trigger holding '/' (no contract; `EventsWrittenOrder`, `EventsWrittenLast`, `EventsWrittenFile` and `SlashedTriggerRefused` state it) |
| Events.CreateEventFiles | lib/commands/dir-utils.js:78-95 | `createEventFiles`: the event files, then `.event.meta.json` (no contract; `EventFilesGrow`, `EventMetaWritten` and `SlashedTriggerRefused` state it) |
| Events.EventRoundTrip | lib/commands/dir-utils.js:83-110 | for a non-empty, '.'-free trigger and newline-free lines, the file name parses back to the trigger and the text splits back into the lines |
| Events.EventsWrittenOrder | lib/commands/dir-utils.js:82-88 | when all event files are written, `eventOrder` has one entry per event, in event order, each that event's file name, and none of them holds '/' |
| Events.EventsWrittenLast | lib/commands/dir-utils.js:82-88 | the last event's file is written last, over what the earlier events left |
| Events.EventsWrittenFile | lib/commands/dir-utils.js:82-88 | the file of an event whose name no later event reuses holds that event's joined script, with no trailing newline |
| Body.JsonHeaderIndex | lib/commands/dir-utils.js:207-209 | `findIndex` over the headers: a `null` entry reached before any match throws a TypeError, and that is the only failure; otherwise -1 exactly when no header is `Content-Type: application/json`, and else the first such index |
| Body.WantsReformat | lib/commands/dir-utils.js:207-215 | the condition on line 215 under which export tries the reformat (no contract; `FormatBodyIff` states it) |
| Body.RawText | lib/commands/dir-utils.js:217 | the text `JSON.parse` is handed: `String(raw)` (no contract) |
| Body.FormatBody | lib/commands/dir-utils.js:206-223 | the request as `request.json` holds it (no contract; `FormatBodyIff` states exactly when and how it differs from the request) |
| Body.FormatBodyIff | lib/commands/dir-utils.js:207-223 | export rewrites the request exactly when a JSON content type is declared (header or `options.raw.language`), `body.raw` is truthy and its `String()` text parses; then `raw` is gone, `raw_json_formatted` is the parsed value, and nothing else in the request or body changes |
| Body.FalsyBodyLosesRaw | lib/commands/dir-utils.js:276-279 | as written, a body whose parsed raw value is falsy is left with `raw_json_formatted` and no `raw` on import: the restore as written returns the exported request unchanged |
| Body.RestoreBodyAsWritten | lib/commands/dir-utils.js:273-279 | the restore of line 276 as written (no contract; `RestoreAgrees`, `FalsyBodyLosesRaw` and `BodyRoundTripAsWritten` state it) |
| Body.RestoreBody | lib/commands/dir-utils.js:276-279 | the corrected restore, taken whenever `raw_json_formatted` is present (no contract; `BodyRoundTrip` states it) |
| Body.RestoreAgrees | lib/commands/dir-utils.js:276-279 | the restore as written and the corrected one agree exactly on the requests that do not hold a falsy `raw_json_formatted` |
| Body.BodyRoundTrip | lib/commands/dir-utils.js:207-279 | with a lawful codec, for a body not already holding `raw_json_formatted`, export then the corrected import gives the request back, the raw body compared by parsed value |
| Body.BodyRoundTripAsWritten | lib/commands/dir-utils.js:207-279 | the same round trip through the restore as written holds for every such request whose exported body does not hold a falsy `raw_json_formatted` |
| Ordering.IndexOf | lib/commands/dir-utils.js:312 | `findIndex`: -1 exactly when absent, otherwise the first index holding the value |
| Ordering.Insert | lib/commands/dir-utils.js:310-317 | inserting adds exactly that element |
| Ordering.InsertKeys | lib/commands/dir-utils.js:310-317 | inserting adds exactly that element's key |
| Ordering.InsertSorted | lib/commands/dir-utils.js:310-317 | inserting into a key-sorted list keeps it sorted |
| Ordering.SortBy | lib/commands/dir-utils.js:310-317 | the sort is a permutation of its input |
| Ordering.SortBySorted | lib/commands/dir-utils.js:310-317 | the sort puts entries in non-decreasing key order |
| Ordering.SortByKeys | lib/commands/dir-utils.js:310-317 | the sort keeps the multiset of keys |
| Ordering.SortedKeysIncrease | lib/commands/dir-utils.js:310-317 | with pairwise distinct keys, keys increase strictly after the sort |
| Ordering.SortPlacesByKey | lib/commands/dir-utils.js:310-317 | entries with distinct keys in `[0, n)` land at the position equal to their key |
| Ordering.SortRecoversOrder | lib/commands/dir-utils.js:310-317 | entries with distinct names, each listed once in the order list, come out in that list's order |
| Ordering.FilterSortBy | lib/commands/dir-utils.js:310-317 | the sort is stable: sorting and then keeping the entries that satisfy a test equals keeping them and then sorting |
| Ordering.FilterInsert | lib/commands/dir-utils.js:310-317 | inserting into a sorted list and then filtering equals filtering and then inserting (when the entry passes the filter) |
| Exporter.RootName | lib/commands/dir-utils.js:131-134 | the root's name is `info.name`, and it exists exactly when that is a string |
| Exporter.Export | lib/commands/dir-utils.js:122-237 | `traverse(thing, ancestors, options)`: the filesystem after it and how it ended (no contract; `ExportNeverOverwrites`, `NodeMakesDir` and `SlashRejected` state it) |
| Exporter.ExportNode | lib/commands/dir-utils.js:140-236 | one node under the name it is exported with: the '/' test, the folder part, then the request part (no contract; `NodeGrows`, `NodeMakesDir`, `NodeRefusesExisting` and `DotNameRefused` state it) |
| Exporter.CreateItemDir | lib/commands/dir-utils.js:146-151 | `createDir(itemDir)`, with a name `""`, `.` or `..` naming a directory that already exists (no contract; `DotNameRefused` states it) |
| Exporter.Sidecar | lib/commands/dir-utils.js:157-164 | one root sidecar `.<key>.json` holding `{key: thing[key]}` when that value is truthy (no contract; `SidecarsGrow` and `SidecarRoundTrip` state it) |
| Exporter.RootFiles | lib/commands/dir-utils.js:155-170 | the root's three sidecars, then its events (no contract; `RootFilesGrow` states it) |
| Exporter.FolderMeta | lib/commands/dir-utils.js:188-194 | the contents of a folder's `.meta.json` (no contract; `FolderMetaFields` states it) |
| Exporter.ExportFolder | lib/commands/dir-utils.js:150-198 | a folder: its directory, the root files, its items, its `.meta.json` (no contract; `FolderGrows`, `FolderMakesDir`, `FolderMetaWritten` and `FolderChildrenDistinct` state it) |
| Exporter.ExportItems | lib/commands/dir-utils.js:173-186 | the loop over the first `n` items with `elementMap` and `elementOrder` (no contract; `ItemsStuck`, `ItemsGrow`, `ItemsOrder` and `ItemDirsDistinct` state it) |
| Exporter.ExportRequest | lib/commands/dir-utils.js:200-236 | a request: its directory, `request.json`, its events, `response.json` (no contract; `RequestGrows` and `RequestMakesDir` state it) |
| Exporter.ItemsStuck | lib/commands/dir-utils.js:177-186 | a thrown error ends the loop over items: later items change nothing |
| Exporter.SidecarsStuck | lib/commands/dir-utils.js:156-164 | a failed sidecar write ends the root's sidecar loop |
| Exporter.EventsStuck | lib/commands/dir-utils.js:82-88 | a failed event ends `createEventFiles`' loop |
| Exporter.WriteEventFiles | lib/commands/dir-utils.js:78-95 | `createEventFiles` step by step equals `CreateEventFiles`: every event file is written in event order, a trigger holding '/' fails the write, and `.event.meta.json` follows |
| Exporter.WriteRootFiles | lib/commands/dir-utils.js:155-170 | the root's sidecars and events step by step equal `RootFiles` |
| Exporter.Traverse | lib/commands/dir-utils.js:122-237 | `traverse` step by step equals `Export`; what that export does is stated by `ExportNeverOverwrites`, `NodeMakesDir`, `FolderMetaWritten` and `FolderOrderRoundTrip` |
| Exporter.TraverseNode | lib/commands/dir-utils.js:140-236 | the body of `traverse` once the name is known equals `ExportNode`, which refuses a '/' without `substituteSlashes` and refuses a name `""`, `.` or `..` as an existing directory (`DotNameRefused`) |
| Exporter.TraverseFolder | lib/commands/dir-utils.js:150-198 | a folder step by step equals `ExportFolder` |
| Exporter.MakeItemDir | lib/commands/dir-utils.js:146-151 | `createDir(itemDir)` on the held filesystem: new state and outcome are those of `CreateItemDir`, well-formedness kept |
| Exporter.TraverseItems | lib/commands/dir-utils.js:173-186 | the loop over items, with `elementMap` and `elementOrder` as local state, equals `ExportItems` |
| Exporter.TraverseItem | lib/commands/dir-utils.js:179-185 | one round of the loop advances `ExportItems` by one item |
| Exporter.TraverseRequest | lib/commands/dir-utils.js:200-236 | a request step by step equals `ExportRequest`: its directory, `request.json` with the body reformatted as `FormatBodyIff` states, its events, then `response.json` |
| ExportProperties.WriteGrows | lib/commands/dir-utils.js:67-70 | writing a file inside a fresh directory keeps every directory and every entry of the tree before the export |
| ExportProperties.EventsWrittenGrow | lib/commands/dir-utils.js:82-88 | the event files keep directories and earlier entries |
| ExportProperties.EventFilesGrow | lib/commands/dir-utils.js:78-95 | `createEventFiles` keeps directories and earlier entries |
| ExportProperties.SidecarsGrow | lib/commands/dir-utils.js:156-164 | the sidecars keep directories and earlier entries |
| ExportProperties.RootFilesGrow | lib/commands/dir-utils.js:155-170 | the root files keep directories and earlier entries |
| ExportProperties.FreshDir | lib/commands/dir-utils.js:56-64 | a directory `createDir` could make was not part of the tree before |
| ExportProperties.MkdirGrows | lib/commands/dir-utils.js:56-64 | `createDir` keeps directories and earlier entries |
| ExportProperties.RequestGrows | lib/commands/dir-utils.js:200-236 | a request's export keeps directories and earlier entries |
| ExportProperties.RequestTailGrows | lib/commands/dir-utils.js:206-236 | the files written into a fresh request directory keep directories and earlier entries |
| ExportProperties.NodeGrows | lib/commands/dir-utils.js:122-237 | exporting any node keeps directories and earlier entries |
| ExportProperties.FolderGrows | lib/commands/dir-utils.js:150-198 | a folder's export keeps directories and earlier entries |
| ExportProperties.FolderGrowsIntact | lib/commands/dir-utils.js:150-198 | the same, while the earlier tree is still intact |
| ExportProperties.ItemsGrow | lib/commands/dir-utils.js:177-186 | the loop over items keeps directories and earlier entries |
| ExportProperties.ItemGrows | lib/commands/dir-utils.js:177-186 | one round of the loop keeps directories and earlier entries |
| ExportProperties.ExportNeverOverwrites | lib/commands/dir-utils.js:122-237 | an export never changes or removes an entry that was there before; it only adds |
| ExportProperties.FolderMakesDir | lib/commands/dir-utils.js:150-152 | a folder exported without error has its directory |
| ExportProperties.RequestMakesDir | lib/commands/dir-utils.js:200-205 | a request exported without error has its directory |
| ExportProperties.NodeMakesDir | lib/commands/dir-utils.js:140-205 | a folder or request exported without error has the directory named by its sanitized name, holding no '/'; a node that is both folder and request never succeeds, because its directory is made twice |
| ExportProperties.NoSilentOverwrite | lib/commands/dir-utils.js:56-64 | a node whose directory already exists is refused with "already exists" and nothing is written |
| ExportProperties.NodeRefusesExisting | lib/commands/dir-utils.js:146-205 | once its name passes the '/' test, a folder or request whose directory already exists is refused with "already exists" and nothing is written |
| ExportProperties.DotNameRefused | lib/commands/dir-utils.js:146-151 | a folder or request named `""`, `.` or `..` is refused with "already exists" and nothing is written, since `itemDir` then names the parent or the grandparent |
| ExportProperties.NodeDirWasFresh | lib/commands/dir-utils.js:56-64 | a folder or request exported without error made its directory: nothing was at that path before |
| ExportProperties.SlashRejected | lib/commands/dir-utils.js:140-144 | a name holding '/' is refused before anything is written unless `substituteSlashes` is set; with it set the refusal never happens |
| ExportProperties.SlashNeverReported | lib/commands/dir-utils.js:140-146 | with `substituteSlashes` no export anywhere in the tree fails for a '/' |
| ExportProperties.ItemsOrder | lib/commands/dir-utils.js:177-186 | a loop over items that got through them all named every item with a string, `elementMap` holds the final names and `elementOrder` lists those names sanitized, in item order |
| ExportProperties.ThreeSameNamedRequestsFail | lib/commands/dir-utils.js:177-205 | three same-named sibling requests: once the first two are written, the third is refused because `name-copy` exists; the folder's loop fails either way |
| ExportProperties.ChildSlashFails | lib/commands/dir-utils.js:140-185 | a child whose name holds '/' makes the folder's loop fail without `substituteSlashes` |
| ExportProperties.ChildrenOrder | lib/commands/dir-utils.js:184 | one entry per child, the sanitized final name |
| ExportProperties.FolderMetaWritten | lib/commands/dir-utils.js:188-197 | a folder exported without error has a `.meta.json` holding `childrenOrder` = the children's directory names in item order, plus the description when truthy, with a trailing newline |
| ExportProperties.FolderMetaFields | lib/commands/dir-utils.js:188-194 | the folder meta holds `childrenOrder`, holds `description` exactly when it is truthy, and nothing else |
| ExportProperties.EventMetaWritten | lib/commands/dir-utils.js:86-94 | events written without error leave an `.event.meta.json` whose `eventOrder` lists each event's file name in event order |
| ExportProperties.SlashedTriggerRefused | lib/commands/dir-utils.js:83-87 | an event whose trigger holds '/' fails `createEventFiles` at its write: the events before it stay written, and no later event and no `.event.meta.json` is written |
| ExportProperties.ItemDirsDistinct | lib/commands/dir-utils.js:177-185 | a loop over items that are all folders or requests and got through them gave them pairwise different directory names, each of which is a directory |
| ExportProperties.FolderChildrenDistinct | lib/commands/dir-utils.js:150-198 | a folder of folders and requests exported without error has one directory per child, named as `childrenOrder` lists it, no two alike |
| Importer.TopLevelKey | lib/commands/dir-utils.js:254-256 | a name is hoisted at depth 1 exactly when it ends with `.<key>.json` for one of the own keys of `topLevelFileKeys` (`variable`, `info`, `auth`), and that key is the one given |
| Importer.TopLevelFile | lib/commands/dir-utils.js:256-261 | a sidecar reads back as an object with at most its own key; `SidecarRoundTrip` states that a written sidecar reads back as `{key: v}` |
| Importer.WalkFile | lib/commands/dir-utils.js:266-290 | every file reads back as an object; `RequestFileRoundTrip`, `RequestFileKeepsFalsyBody` and `EventFileWalk` state what `request.json` and event files read back as |
| Importer.Walk | lib/commands/dir-utils.js:239-263 | every entry of the listing reads back as an object; `SidecarRoundTrip`, `DirNameKept` and `ChildrenOrderRecovered` state what sidecars and directories read back as |
| Importer.ChildOrder | lib/commands/dir-utils.js:300-326 | the children are only re-ordered, and a missing `.meta.json` leaves the listing order and no description, without error |
| Importer.Collect | lib/commands/dir-utils.js:330-343 | one child's output put where it belongs: events, `others` or `items` (no contract; `FileOutputKeys`, `OthersKeys` and `GatherItems` state it) |
| Importer.Gather | lib/commands/dir-utils.js:327-344 | the loop over the sorted children (no contract; `GatherStuck`, `GatherItems` and `OthersKeys` state it) |
| Importer.EventKeyName | lib/commands/dir-utils.js:357-358 | `event.${a.listen}.js` of an event entry, `event.undefined.js` without `listen` (no contract; `EventOrderRecovered` states the order it gives) |
| Importer.EventOrder | lib/commands/dir-utils.js:347-353 | `eventOrder` can be read only from an existing `.event.meta.json` file |
| Importer.SortEvents | lib/commands/dir-utils.js:346-363 | no events gives no events; events with no `.event.meta.json` file is an error; sorted events are a permutation of the events |
| Importer.WalkDir | lib/commands/dir-utils.js:291-370 | a directory reads back as an object |
| Importer.Assemble | lib/commands/dir-utils.js:297-369 | the directory's `result` before `Object.assign(result, others)` (no contract; `AssembledItems` and `EmptyFolderKeepsOnlyName` state it) |
| Importer.GatherStuck | lib/commands/dir-utils.js:327-344 | a failing child ends the loop over the children |
| Importer.WalkDirTree | lib/commands/dir-utils.js:239-376 | `walkDirTree` step by step equals `Walk`, which restores the body by the truthiness test of line 276 as written |
| Importer.WalkDirectory | lib/commands/dir-utils.js:291-370 | a directory, with the loop accumulating `result.event`, `items` and `others`, equals `WalkDir` |
| ImportProperties.SidecarRoundTrip | lib/commands/dir-utils.js:254-261 | a sidecar `.<key>.json` written at the root reads back at depth 1 as `{key: v}` |
| ImportProperties.SidecarName | lib/commands/dir-utils.js:254-256 | the sidecar file of a key is taken for that key |
| ImportProperties.ScriptIsNoSidecar | lib/commands/dir-utils.js:254-256 | no `.js` name is taken for a sidecar |
| ImportProperties.RequestFileRoundTrip | lib/commands/dir-utils.js:272-279 | `request.json` as export wrote it reads back as `{request}` equal to the original up to the raw body's text, unless its raw text parsed to a falsy value |
| ImportProperties.RequestFileKeepsFalsyBody | lib/commands/dir-utils.js:272-279 | a request whose raw text parses to a falsy value reads back from `request.json` exactly as exported, with `raw_json_formatted` and without `raw` |
| ImportProperties.EventFileRoundTrip | lib/commands/dir-utils.js:286-288 | an event file as export wrote it reads back as the event with the same trigger and lines; export would write it to the same file again, and its name puts it among the events |
| ImportProperties.EventFileWalk | lib/commands/dir-utils.js:286-288 | an `event.<listen>.js` file reads back as the event entry for its text |
| ImportProperties.EmptyFolderKeepsOnlyName | lib/commands/dir-utils.js:297-300 | a directory without children reads back as its name alone |
| ImportProperties.FileOutputKeys | lib/commands/dir-utils.js:330-339 | a file not mentioning "event" adds only `request`, `response` or sidecar keys |
| ImportProperties.OthersKeys | lib/commands/dir-utils.js:327-344 | `others` only ever holds `request`, `response` or sidecar keys |
| ImportProperties.DirNameKept | lib/commands/dir-utils.js:297-299 | a directory below the root reads back with its own name |
| ImportProperties.GatherDirs | lib/commands/dir-utils.js:341-343 | children that are all directories give no events, nothing in `others`, and one item per child in walk order |
| ImportProperties.ChildOrderSorted | lib/commands/dir-utils.js:310-317 | after sorting, a child comes before another only if its `childrenOrder` index is not larger; unlisted children come before listed ones |
| ImportProperties.ChildrenOrderRecovered | lib/commands/dir-utils.js:300-367 | provided the walk succeeds (assumed, not proved), a directory whose sub-directories are listed exactly once each in `childrenOrder` reads back with `item` in `childrenOrder`'s order, whatever the listing order |
| ImportProperties.SortedDirNames | lib/commands/dir-utils.js:310-317 | sorted by `childrenOrder`, the sub-directories of a listing that lists them exactly carry `childrenOrder`'s names in its order |
| ImportProperties.GatherItems | lib/commands/dir-utils.js:327-344 | the loop over the children gives one item per sub-directory, in the order walked, each the walk of that sub-directory |
| ImportProperties.ItemsNamedAfterChildren | lib/commands/dir-utils.js:341-367 | with only directory children, `item` holds one entry per sorted child, named after it |
| ImportProperties.EventOrderRecovered | lib/commands/dir-utils.js:346-362 | events with distinct file names, each listed once in `eventOrder`, come out in `eventOrder`'s order |
| RoundTrip.FolderOrderRoundTrip | lib/commands/dir-utils.js:150-198 | a folder of folders and requests exported without error, walked through a listing whose sub-directories are its children's directories, gives one `item` per child in item order, each named by its `childrenOrder` entry, provided the walk succeeds (assumed, not proved) |
| RoundTrip.FolderNamesRoundTrip | lib/commands/dir-utils.js:177-198 | when the siblings' names are pairwise different, hold no '/' and are no inherited property names, a successful walk of the folder (assumed, not proved) gives back its items' names in item order |
| Folders.AssertDirectoryExistence | lib/commands/dir-utils.js:6-14 | passes exactly on a directory; otherwise the error says not a directory or missing |
| Folders.AssertDirectoryAbsence | lib/commands/dir-utils.js:16-26 | passes exactly when the path is not a directory, so a file in the way passes |
| Folders.AssertFileExistence | lib/commands/dir-utils.js:28-36 | passes exactly when something exists at the path, a directory included |
| Folders.AssertCollectionDir | lib/commands/dir-utils.js:38-53 | passes exactly on a directory holding a `.meta.json` |
| Folders.AppendIfAbsent | lib/commands/dir-utils.js:413-415 | the result holds the name and exactly the old entries besides, keeps the old list as its prefix, and grows by at most one |
| Folders.RemoveAll | lib/commands/dir-utils.js:467 | the name is gone, every other entry is kept, and the list does not grow |
| Folders.AddChild | lib/commands/dir-utils.js:411-416 | an array gains the name unless listed; a string that already includes it is kept; anything else is a TypeError |
| Folders.DropChild | lib/commands/dir-utils.js:465-467 | succeeds exactly on an array, removing the name and keeping every other entry |
| Folders.OrderMeta | lib/commands/dir-utils.js:417-419 | the rewritten meta holds `childrenOrder` and no other key, so the description is dropped |
| Folders.ReadMeta | lib/commands/dir-utils.js:409-410 | reading the meta succeeds exactly when `.meta.json` is a file that parses, and gives the parsed value |
| Folders.ReadChildrenOrder | lib/commands/dir-utils.js:410-411 | `childrenOrder` is the property of the parsed meta |
| Folders.GrownMeta | lib/commands/dir-utils.js:409-419 | the parent's `.meta.json` with the new folder listed (no contract; `CreatedParentMeta` and `GrownAgain` state it) |
| Folders.ShrunkMeta | lib/commands/dir-utils.js:463-471 | the parent's `.meta.json` with the removed folder dropped (no contract; `RemovedMetaContents` and `ShrunkAfterGrown` state it) |
| Folders.CreateFolder | lib/commands/dir-utils.js:386-442 | `createPostmanFolder`: clear the path, the guard, then make and list the folder (no contract; `CreateFolderEffect`, `CreateFolderIdempotent` and `CreateFailureLeavesNoFolder` state it) |
| Folders.MakeFolder | lib/commands/dir-utils.js:399-405 | `createDir(folder)`, a failure ending the command (no contract; `CreateFolderEffect` states it) |
| Folders.ListFolder | lib/commands/dir-utils.js:407-441 | the two meta writes, a failure removing the folder again (no contract; `CreateFolderEffect` and `CreatedMetaFiles` state it) |
| Folders.RemoveFolder | lib/commands/dir-utils.js:444-480 | `removePostmanFolder`: the guard, `rmSync`, the filtered rewrite (no contract; `RemoveFolderEffect`, `RemovedMetaContents` and `CreateThenRemoveRestoresOrder` state it) |
| Folders.CreatePostmanFolder | lib/commands/dir-utils.js:386-442 | `createPostmanFolder` step by step equals `CreateFolder`, well-formedness kept |
| Folders.RemovePostmanFolder | lib/commands/dir-utils.js:444-480 | `removePostmanFolder` step by step equals `RemoveFolder`, well-formedness kept |
| FolderProperties.RemoveAllConcat | lib/commands/dir-utils.js:467 | filtering distributes over concatenation |
| FolderProperties.RemoveAllUnchanged | lib/commands/dir-utils.js:467 | filtering changes the list exactly when the name is in it |
| FolderProperties.RemoveAfterAppend | lib/commands/dir-utils.js:413-467 | removing the name after appending it equals removing it |
| FolderProperties.AppendIdempotent | lib/commands/dir-utils.js:413-415 | appending twice equals appending once |
| FolderProperties.AddChildTwice | lib/commands/dir-utils.js:411-416 | a `childrenOrder` that `AddChild` accepted is left as it is by a second `AddChild` |
| FolderProperties.MkdirChild | lib/commands/dir-utils.js:400 | making a missing folder inside a directory adds exactly that folder |
| FolderProperties.CreateFolderEffect | lib/commands/dir-utils.js:386-442 | a successful creation had a collection-directory parent and a folder not named `.meta.json`; it left the old tree with the folder's path cleared, the folder made, the parent meta rewritten and an empty meta in the folder |
| FolderProperties.CreatedMetaFiles | lib/commands/dir-utils.js:417-435 | after a successful creation both `.meta.json` files hold the stringified metas with a trailing newline |
| FolderProperties.CreatedParentMeta | lib/commands/dir-utils.js:407-422 | with a lawful codec the parent meta reads back as `{childrenOrder}` with the name appended only if absent, the description gone |
| FolderProperties.CreatedFolderMeta | lib/commands/dir-utils.js:429-436 | with a lawful codec the new folder's meta reads back as `{childrenOrder: []}` |
| FolderProperties.CreateFolderIdempotent | lib/commands/dir-utils.js:386-442 | creating a folder twice equals creating it once |
| FolderProperties.RecreateClears | lib/commands/dir-utils.js:394 | clearing the path after a creation gives back the cleared old tree plus the rewritten parent meta |
| FolderProperties.GrownAgain | lib/commands/dir-utils.js:410-416 | a parent meta already grown by a creation grows to the same value again |
| FolderProperties.CreateFailureLeavesNoFolder | lib/commands/dir-utils.js:423-441 | a failed creation leaves nothing at or under the folder's path |
| FolderProperties.RemoveFolderEffect | lib/commands/dir-utils.js:444-480 | once the guard passes, nothing is left at or under the folder, and on success only the parent meta changed besides |
| FolderProperties.RemovedMetaContents | lib/commands/dir-utils.js:462-473 | with a lawful codec and an array `childrenOrder`, removal succeeds and the parent meta reads back as `{childrenOrder}` with the name filtered out |
| FolderProperties.NotCollectionDirRefused | lib/commands/dir-utils.js:394-450 | both commands stop at the guard when the parent is no collection directory: creation after clearing the path, removal with nothing changed |
| FolderProperties.CreateThenRemove | lib/commands/dir-utils.js:386-480 | removing a folder just created succeeds and leaves the old tree with the folder's path cleared and the parent meta rewritten with the name filtered out |
| FolderProperties.CreateThenRemoveRestoresOrder | lib/commands/dir-utils.js:413-473 | for a name not listed before, create then remove gives back the parent's `childrenOrder` exactly |
| FolderProperties.ShrunkAfterGrown | lib/commands/dir-utils.js:464-471 | shrinking a parent meta that was grown by the name gives the old `childrenOrder` with the name filtered out |

## Findings

| source | as written | input that shows it | evidently intended | confidence | as-written member | corrected member |
|---|---|---|---|---|---|---|
| lib/commands/dir-utils.js:276 | import restores `raw` only when `raw_json_formatted` is truthy | a request with header `Content-Type: application/json` and body `{raw: "0"}` (or `"false"`, `"null"`, `"\"\""`): export stores `raw_json_formatted: 0` and drops `raw`, and import leaves it that way | restore `raw` whenever `raw_json_formatted` is present | not executed | Body.FalsyBodyLosesRaw | Body.BodyRoundTrip |

`Body.RestoreBodyAsWritten` models line 276 as written, and the importer
(`Importer.WalkFile`) uses it, so the import is the source's own.
`ImportProperties.RequestFileKeepsFalsyBody` shows the loss on a walked `request.json`.
`Body.RestoreBody` is the corrected test. `Body.BodyRoundTrip` proves the round trip for
it, and `Body.RestoreAgrees` shows the two restores differ on exactly the falsy case.

## Left out

- Ordering.SortBy: `Array.prototype.sort` with the source's comparator is not modelled. That comparator never returns 0, and when both names are unlisted it answers "after" in both directions, so it is no valid order. A stable insertion sort by `findIndex` (-1 when absent) stands in for it. Ordering guarantees are stated only for entries that appear in the order list.
- Exporter.Traverse: `traverse` changes the caller's document in place: `element.name += '-copy'` (line 180) and the body rewrite (lines 217-218). Those changes are not returned; only the files written are modelled.
- Exporter.ExportItems: a sibling whose `name` is not a string fails with a TypeError. JavaScript would coerce it to a string `-copy` name when that string form was already handed out. Likewise, `undefined + '-copy'` becomes a TypeError. The coercions of an event's trigger and script lines are modelled (`Events.TriggerText`, `Events.LineText`).
- Names.NextName: `elementMap` inherits the properties of `Object.prototype`. Only their standard names are listed (`InheritedKeys`).
- Folders.CreatePostmanFolder: paths are segment sequences. The trailing-slash trimming of line 388 and the `path.dirname`/`basename` edge cases are not modelled. An empty folder path is refused with `EmptyPath`.
- Folders.RemovePostmanFolder: the `rmSync` failure of lines 456-459 (permissions) is not modelled; removal of a present path always succeeds.
- FileStore.Mkdir: permissions and the `force`/`recursive` flags beyond what the source relies on are not modelled.
- Importer.TopLevelKey: `topLevelFileKeys` (line 116) is a plain object, so the test on line 256 is also truthy for names it inherits from `Object.prototype` (`toString`, `constructor`, `__proto__` and the like). The source hoists a file such as `a.toString.json` at depth 1; the model does not, and walks it as an ordinary file.
- Importer.TopLevelFile: a parsed sidecar without its key gives `{}`. In JavaScript the key holds `undefined`. `JSON.stringify` later drops that key, but before that `Object.assign(result, others)` lets the `undefined` overwrite the value an earlier sidecar gave the same key. The model's `{}` leaves that earlier value in place.
- Json.Truthy: JSON numbers are integers (`JNum(n: int)`). Fractional numbers, `-0`, `NaN` and double-precision rounding are not modelled, so the truthiness of a parsed fractional value is left to the uninterpreted codec.
- Importer.Walk: the listing is an input `Tree`. The `directory-tree` library and `dirTreeToCollectionJson` (lines 378-384), which builds the listing and excludes `.meta.json` files from it, are not part of this model. Keys that only `Object.prototype` holds are not treated as sidecar keys.
- ImportProperties.EmptyFolderKeepsOnlyName: a folder with an empty `item` list is exported with a `.meta.json`, but reads back as its name alone. The description and the empty `item` list are lost; this is proved, not corrected.
- RoundTrip.FolderOrderRoundTrip: the listing that is walked is a hypothesis (`ListsExactly`), not derived from the filesystem, because the listing library is not part of this model. It requires sub-directories named exactly by `childrenOrder` and files named otherwise, and it covers folders whose items are all folders or requests. The whole document, `walkDirTree(traverse(D))`, is not one theorem; its parts are proved separately: sidecars (`SidecarRoundTrip`), `request.json` (`RequestFileRoundTrip`), event files (`EventFileRoundTrip`), the order of children (`FolderOrderRoundTrip`) and the order of events (`EventOrderRecovered`).
- RoundTrip.FolderOrderRoundTrip: that the walk of the exported folder succeeds is assumed, not proved. The listing is not tied to the filesystem, so the walk fails when a listed file is missing from it. It also fails when a listed file's name mentions "event" (such as `x-event.txt`) in a folder without `.event.meta.json`: that file is routed to the events, and sorting them needs `.event.meta.json`, which export writes only beside event files.
- RoundTrip.FolderNamesRoundTrip: the same success hypothesis as `FolderOrderRoundTrip`, assumed and not proved, for the same listings.
- ImportProperties.ChildrenOrderRecovered: that the walk of the directory succeeds is assumed (`requires Walk(...).Ok?`), not proved. The walk fails when a listed file is missing from the filesystem, and when a file whose name mentions "event" (such as `x-event.txt`) sits in a directory without `.event.meta.json`: that file is routed to the events, and sorting them needs `.event.meta.json`. Files beside the sub-directories are covered only on a walk that succeeds. Also, at depth 1 a folder whose name ends in `.variable.json`, `.info.json` or `.auth.json` is read as a sidecar, not as an item; the lemma assumes that no top-level folder is named so.
- `JSON.parse` and `JSON.stringify` are uninterpreted. Their text syntax and formatting are not modelled; round trips assume `Lawful`.
- `console.error`/`console.warn` output is not modelled. `process.exit(-1)` and thrown errors become failed outcomes. The filesystem keeps what was done up to the failure.
- `createTempDir` (lines 482-484) is left out. Its only contract is uniqueness from `fs.mkdtempSync`.
- The command-line wiring (`bin/newman.js`) and the request runner (`src/runners/CollectionRunner.js`) are not part of this model.

=== FILE: base.dfy ===
/** Shared vocabulary: optional values, results, paths and the error conditions of the
    directory codec (the thrown `Error`s, TypeErrors and `process.exit(-1)` paths). */
module Base {

  /** A path is a sequence of segments; `[]` is the working directory. */
  type Path = seq<string>

  datatype Option<+T> = None | Some(value: T)

  /** Why an operation stopped. */
  datatype Error =
    | AlreadyExists(path: Path)       // createDir on an occupied path
    | NotADirectory(path: Path)       // an ancestor of a new directory is a file
    | IsADirectory(path: Path)        // a file operation aimed at a directory
    | NoSuchFile(path: Path)          // nothing readable at the path, or no directory to write into
    | SlashInName(name: string)       // traverse refuses a name containing '/'
    | TypeError(what: string)         // a JavaScript TypeError (wrong shape of a value)
    | ParseError(path: Path)          // JSON.parse rejected a file's text
    | EmptyPath                       // a folder path without a base name

  datatype Result<+T> = Ok(value: T) | Err(error: Error) {
    predicate IsFailure() { Err? }
    function PropagateFailure<U>(): Result<U> requires Err? { Err(error) }
    function Extract(): T requires Ok? { value }
  }

  /** The outcome of an operation whose only product is its effect on the filesystem. */
  datatype Outcome = Done | Failed(error: Error)
}

=== FILE: body.dfy ===
/** The one transform `request.json` undergoes: a JSON raw body is stored parsed, under
    `raw_json_formatted` (export, lines 206-223), and turned back into text on import
    (lines 273-279). */
module Body {
  import opened Base
  import opened Json

  /** `header.findIndex(h => h.key === 'Content-Type' && h.value === 'application/json')`;
      a `null` entry before the first match throws. */
  function JsonHeaderIndex(headers: seq<Json>): (r: Result<int>)
    ensures r.Ok? ==> -1 <= r.value < |headers|
    ensures r.Ok? && r.value >= 0 ==> IsJsonHeader(headers[r.value])
    ensures r.Ok? && r.value >= 0 ==> forall i :: 0 <= i < r.value ==> !IsJsonHeader(headers[i])
    ensures r == Ok(-1) ==> forall i :: 0 <= i < |headers| ==> !IsJsonHeader(headers[i])
    ensures r.Err? <==> exists i :: 0 <= i < |headers| && headers[i].JNull? &&
                                    forall j :: 0 <= j < i ==> !IsJsonHeader(headers[j])
  {
    if headers == [] then Ok(-1)
    else if headers[0].JNull? then Err(TypeError("header entry is null"))
    else if IsJsonHeader(headers[0]) then Ok(0)
    else
      var k :- JsonHeaderIndex(headers[1..]);
      if k < 0 then Ok(-1) else Ok(k + 1)
  }

  predicate IsJsonHeader(h: Json) {
    Get(h, "key") == Some(JStr("Content-Type")) && Get(h, "value") == Some(JStr("application/json"))
  }

  /** `contentTypeJsonHeaderIndex > -1`: a missing header list counts as no match. */
  function HasJsonHeader(request: Json): Result<bool> {
    var header := Get(request, "header");
    if !Truthy(header) then Ok(false)
    else if !header.value.JArr? then Err(TypeError("header has no findIndex"))
    else
      var k :- JsonHeaderIndex(header.value.elems);
      Ok(k > -1)
  }

  /** `isBodyLangJson`: `body.options.raw.language === 'json'`, each step truthy. */
  predicate BodyLangJson(request: Json) {
    var body := Get(request, "body");
    Truthy(body) &&
    var options := Get(body.value, "options");
    Truthy(options) &&
    var raw := Get(options.value, "raw");
    Truthy(raw) && Get(raw.value, "language") == Some(JStr("json"))
  }

  /** The condition under which export tries to reformat the body. */
  predicate WantsReformat(request: Json, jsonHeader: bool) {
    (jsonHeader || BodyLangJson(request)) &&
    Truthy(Get(request, "body")) && Truthy(Get(request.fields["body"], "raw"))
  }

  /** The text `JSON.parse` is handed for the body: `String(raw)`. */
  function RawText(request: Json): string
    requires Truthy(Get(request, "body")) && Truthy(Get(request.fields["body"], "raw"))
  {
    ToText(request.fields["body"].fields["raw"])
  }

  /** The request as export writes it to `request.json`. `raw` is coerced to text and
      parsed; when that text does not parse, the error is caught and reported, and the
      request is written as it is. */
  function FormatBody(request: Json, c: Codec): (r: Result<Json>)
  {
    var jsonHeader :- HasJsonHeader(request);
    if !WantsReformat(request, jsonHeader) then Ok(request)
    else
      var body := request.fields["body"];
      var parsed := c.parse(RawText(request));
      if parsed.Some? then
        var formatted := body.fields["raw_json_formatted" := parsed.value] - {"raw"};
        Ok(JObj(request.fields["body" := JObj(formatted)]))
      else Ok(request)
  }

  /** Export rewrites the body exactly when a JSON content type is declared, `raw` is
      truthy and its text parses; then `raw` is gone and `raw_json_formatted` holds the
      parsed value, and nothing else in the request changes. */
  lemma FormatBodyIff(request: Json, c: Codec)
    requires FormatBody(request, c).Ok?
    ensures var r := FormatBody(request, c).value;
            var jsonHeader := HasJsonHeader(request).value;
            (r != request <==>
               WantsReformat(request, jsonHeader) && c.parse(RawText(request)).Some?)
    ensures var r := FormatBody(request, c).value;
            r != request ==>
              var body := request.fields["body"];
              r.JObj? && r.fields - {"body"} == request.fields - {"body"} &&
              "body" in r.fields && r.fields["body"].JObj? &&
              var body' := r.fields["body"].fields;
              "raw" !in body' && "raw_json_formatted" in body' &&
              Some(body'["raw_json_formatted"]) == c.parse(RawText(request)) &&
              body' - {"raw_json_formatted"} == body.fields - {"raw", "raw_json_formatted"}
  {
    var r := FormatBody(request, c).value;
    var jsonHeader := HasJsonHeader(request).value;
    if WantsReformat(request, jsonHeader) {
      var body := request.fields["body"];
      var parsed := c.parse(RawText(request));
      if parsed.Some? {
        var formatted := body.fields["raw_json_formatted" := parsed.value] - {"raw"};
        assert "raw" in body.fields && "raw" !in formatted;
        assert JObj(formatted) != body;
        assert r.fields["body"] == JObj(formatted);
        assert request.fields["body"] == body;
      }
    }
  }

  /** Import, as written: `raw` is restored only when `raw_json_formatted` is truthy. */
  function RestoreBodyAsWritten(request: Json, c: Codec): (r: Result<Json>)
  {
    var body :- Prop(Some(request), "body");
    if Truthy(body) && Truthy(Get(body.value, "raw_json_formatted")) then
      var formatted := body.value.fields["raw_json_formatted"];
      Ok(JObj(request.fields["body" := JObj(body.value.fields["raw" := JStr(c.compact(formatted))] - {"raw_json_formatted"})]))
    else Ok(request)
  }

  /** A request whose body holds a falsy `raw_json_formatted`: the one case the test on
      line 276 skips. */
  predicate HoldsFalsyFormatted(request: Json) {
    var body := Get(request, "body");
    Truthy(body) && body.value.JObj? && "raw_json_formatted" in body.value.fields &&
    !Truthy(Some(body.value.fields["raw_json_formatted"]))
  }

  /** A raw JSON body whose value is falsy (`0`, `false`, `null`, `""`) is exported as
      `raw_json_formatted` and, as written, never turned back into `raw`: the body text is
      lost on import. */
  lemma FalsyBodyLosesRaw(request: Json, c: Codec)
    requires FormatBody(request, c).Ok? && FormatBody(request, c).value != request
    requires !Truthy(c.parse(RawText(request)))
    ensures HoldsFalsyFormatted(FormatBody(request, c).value)
    ensures RestoreBodyAsWritten(FormatBody(request, c).value, c) == Ok(FormatBody(request, c).value)
    ensures var b := FormatBody(request, c).value.fields["body"].fields;
            "raw" !in b && "raw_json_formatted" in b
  {
    FormatBodyIff(request, c);
  }

  /** Import, corrected: `raw` is restored whenever `raw_json_formatted` is present. */
  function RestoreBody(request: Json, c: Codec): (r: Result<Json>)
  {
    var body :- Prop(Some(request), "body");
    if Truthy(body) && body.value.JObj? && "raw_json_formatted" in body.value.fields then
      var formatted := body.value.fields["raw_json_formatted"];
      Ok(JObj(request.fields["body" := JObj(body.value.fields["raw" := JStr(c.compact(formatted))] - {"raw_json_formatted"})]))
    else Ok(request)
  }

  /** The restore as written and the corrected one differ on exactly the requests that
      hold a falsy `raw_json_formatted`. */
  lemma RestoreAgrees(request: Json, c: Codec)
    ensures RestoreBodyAsWritten(request, c) == RestoreBody(request, c) <==> !HoldsFalsyFormatted(request)
  {
    if HoldsFalsyFormatted(request) {
      var body := request.fields["body"];
      var restored := RestoreBody(request, c).value;
      assert "raw_json_formatted" !in restored.fields["body"].fields;
      assert restored.fields["body"] != body;
    }
  }

  /** Equal requests, except that the body's `raw` values may differ as long as their
      texts parse to the same value. */
  ghost predicate SameUpToRawText(a: Json, b: Json, c: Codec) {
    a == b ||
    (a.JObj? && b.JObj? && a.fields - {"body"} == b.fields - {"body"} &&
     "body" in a.fields && "body" in b.fields &&
     a.fields["body"].JObj? && b.fields["body"].JObj? &&
     var ab := a.fields["body"].fields;
     var bb := b.fields["body"].fields;
     ab - {"raw"} == bb - {"raw"} && "raw" in ab && "raw" in bb &&
     c.parse(ToText(ab["raw"])) == c.parse(ToText(bb["raw"])))
  }

  /** Round trip of `request.json`'s body: exporting and importing (with the corrected
      restore) gives the request back, the raw body compared by parsed value. */
  lemma BodyRoundTrip(request: Json, c: Codec)
    requires Lawful(c)
    requires !request.JNull?
    requires FormatBody(request, c).Ok?
    requires !(Truthy(Get(request, "body")) && request.fields["body"].JObj? &&
               "raw_json_formatted" in request.fields["body"].fields)
    ensures RestoreBody(FormatBody(request, c).value, c).Ok?
    ensures SameUpToRawText(request, RestoreBody(FormatBody(request, c).value, c).value, c)
  {
    FormatBodyIff(request, c);
    var r := FormatBody(request, c).value;
    if r != request {
      var body := request.fields["body"];
      var v := c.parse(RawText(request)).value;
      var back := RestoreBody(r, c).value;
      var bb := r.fields["body"].fields["raw" := JStr(c.compact(v))] - {"raw_json_formatted"};
      assert back == JObj(r.fields["body" := JObj(bb)]);
      assert c.parse(c.compact(v)) == Some(v);
      assert bb - {"raw"} == body.fields - {"raw"};
      assert back.fields - {"body"} == request.fields - {"body"};
    }
  }

  /** The same round trip with the restore as written: it holds for every request except
      those whose body text parses to a falsy value (see `FalsyBodyLosesRaw`). */
  lemma BodyRoundTripAsWritten(request: Json, c: Codec)
    requires Lawful(c)
    requires !request.JNull?
    requires FormatBody(request, c).Ok?
    requires !(Truthy(Get(request, "body")) && request.fields["body"].JObj? &&
               "raw_json_formatted" in request.fields["body"].fields)
    requires !HoldsFalsyFormatted(FormatBody(request, c).value)
    ensures RestoreBodyAsWritten(FormatBody(request, c).value, c).Ok?
    ensures SameUpToRawText(request, RestoreBodyAsWritten(FormatBody(request, c).value, c).value, c)
  {
    BodyRoundTrip(request, c);
    RestoreAgrees(FormatBody(request, c).value, c);
  }
}

=== FILE: events.dfy ===
/** Event scripts on disk: `createEventFiles` (lines 77-95) writes one `event.<listen>.js`
    per event and an `.event.meta.json`; `checkAndCreateEventEntry` (lines 97-114) turns such
    a file back into an event object. */
module Events {
  import opened Base
  import opened Json
  import opened FileStore

  /** `lines.join('\n')`. */
  function Join(lines: seq<string>): (r: string)
    ensures |lines| == 1 ==> r == lines[0]
  {
    if lines == [] then ""
    else if |lines| == 1 then lines[0]
    else lines[0] + "\n" + Join(lines[1..])
  }

  /** `s.split('\n')`: always at least one piece, none holding a newline. */
  function Split(s: string): (r: seq<string>)
    ensures |r| >= 1
    ensures forall i :: 0 <= i < |r| ==> '\n' !in r[i]
  {
    if s == [] then [""]
    else
      var rest := Split(s[1..]);
      if s[0] == '\n' then [""] + rest
      else [[s[0]] + rest[0]] + rest[1..]
  }

  /** Joining the pieces of a split gives the text back. */
  lemma {:induction false} JoinSplit(s: string)
    ensures Join(Split(s)) == s
  {
    if s != [] {
      var rest := Split(s[1..]);
      JoinSplit(s[1..]);
      if s[0] == '\n' {
        assert Split(s) == [""] + rest;
        assert Split(s)[1..] == rest;
        if |rest| == 1 {
          assert Join(Split(s)) == "" + "\n" + rest[0];
        }
      } else {
        var r := Split(s);
        assert r == [[s[0]] + rest[0]] + rest[1..];
        assert r[1..] == rest[1..];
        if |rest| == 1 {
          assert Join(r) == [s[0]] + rest[0];
        } else {
          assert Join(rest) == rest[0] + "\n" + Join(rest[1..]);
        }
        assert s == [s[0]] + s[1..];
      }
    }
  }

  /** A text without newline followed by a newline splits into that text and the rest. */
  lemma {:induction false} SplitLine(a: string, t: string)
    requires '\n' !in a
    ensures Split(a + "\n" + t) == [a] + Split(t)
    ensures Split(a) == [a]
  {
    if a == [] {
      assert a + "\n" + t == "\n" + t;
      assert ("\n" + t)[1..] == t;
    } else {
      SplitLine(a[1..], t);
      assert (a + "\n" + t)[1..] == a[1..] + "\n" + t;
      assert [a[0]] + a[1..] == a;
    }
  }

  /** Splitting a join gives back a non-empty list of newline-free lines. */
  lemma {:induction false} SplitJoin(lines: seq<string>)
    requires |lines| >= 1
    requires forall i :: 0 <= i < |lines| ==> '\n' !in lines[i]
    ensures Split(Join(lines)) == lines
  {
    SplitLine(lines[0], "");
    if |lines| > 1 {
      SplitJoin(lines[1..]);
      SplitLine(lines[0], Join(lines[1..]));
      assert [lines[0]] + lines[1..] == lines;
    }
  }

  /** An empty script comes back as one empty line. */
  lemma EmptyScriptGainsALine()
    ensures Split(Join([])) == [""]
  {
  }

  /** The file an event with trigger `listen` is written to. */
  function EventFileName(listen: string): string {
    "event." + listen + ".js"
  }

  /** The regular expression `^event\.([^.]+)\.js$`, giving its captured group. */
  function MatchEventName(name: string): (r: Option<string>)
  {
    if |name| >= 10 && name[..6] == "event." && name[|name| - 3..] == ".js" && '.' !in name[6..|name| - 3]
    then Some(name[6..|name| - 3])
    else None
  }

  /** The pattern accepts exactly the names `EventFileName` produces for a non-empty
      trigger without '.', and captures that trigger. */
  lemma MatchEventNameIff(name: string, listen: string)
    ensures MatchEventName(name) == Some(listen) <==> name == EventFileName(listen) && listen != "" && '.' !in listen
  {
    if name == EventFileName(listen) {
      assert name[..6] == "event.";
      assert name[6..|name| - 3] == listen;
      assert name[|name| - 3..] == ".js";
    }
    if MatchEventName(name) == Some(listen) {
      assert name == name[..6] + name[6..|name| - 3] + name[|name| - 3..];
    }
  }

  /** The regular expression `/event/`: the name mentions "event" somewhere. */
  predicate MentionsEvent(name: string) {
    exists i :: 0 <= i <= |name| && EventAt(name, i)
  }

  predicate EventAt(name: string, i: nat) {
    i + 5 <= |name| && name[i..i + 5] == "event"
  }

  lemma EventNamesMentionEvent(name: string)
    requires MatchEventName(name).Some?
    ensures MentionsEvent(name)
  {
    assert name[0..5] == "event";
    assert EventAt(name, 0);
  }

  /** The event object `checkAndCreateEventEntry` builds from a file's name and text. */
  function EventEntry(listen: string, text: string): Json {
    JObj(map["listen" := JStr(listen),
             "script" := JObj(map["exec" := Strs(Split(text)), "type" := JStr("text/javascript")])])
  }

  /** `checkAndCreateEventEntry`: a name matching the event pattern is read and becomes an
      event; any other name gives `{}` without reading anything. */
  function CheckAndCreateEventEntry(m: Entries, name: string, path: Path): (r: Result<Json>)
    ensures MatchEventName(name).None? ==> r == Ok(JObj(map[]))
    ensures MatchEventName(name).Some? && path in m && m[path].File? ==>
              r == Ok(EventEntry(MatchEventName(name).value, m[path].content))
    ensures MatchEventName(name).Some? && !(path in m && m[path].File?) ==> r.Err?
  {
    match MatchEventName(name)
    case None => Ok(JObj(map[]))
    case Some(listen) =>
      var text :- ReadFile(m, path);
      Ok(EventEntry(listen, text))
  }

  /** A line of `exec` as `join('\n')` writes it: `null` gives the empty text, any other
      value its `String()` form. */
  function LineText(e: Json): string {
    if e.JNull? then "" else ToText(e)
  }

  /** The script lines of `exec`, coerced as `join` coerces them. */
  function Lines(exec: seq<Json>): (r: seq<string>)
    ensures |r| == |exec|
    ensures forall i :: 0 <= i < |exec| ==> r[i] == LineText(exec[i])
  {
    if exec == [] then [] else [LineText(exec[0])] + Lines(exec[1..])
  }

  /** The trigger as the template literal `${element.listen}` writes it: a missing one
      gives "undefined", any other value its `String()` form. */
  function TriggerText(listen: Option<Json>): string {
    if listen.None? then "undefined" else ToText(listen.value)
  }

  /** The file name and text `createEventFiles` writes for one event
      (`event.${element.listen}.js` holding `element.script.exec.join('\n')`). A `null`
      event, a missing `script` and an `exec` that is no array are TypeErrors. */
  function EventFile(e: Json): (r: Result<(string, string)>)
    ensures r.Ok? <==> Get(e, "script").Some? && !e.fields["script"].JNull? &&
                       Get(e.fields["script"], "exec").Some? && e.fields["script"].fields["exec"].JArr?
    ensures r.Err? ==> r.error.TypeError?
  {
    if e.JNull? then Err(TypeError("event is null"))
    else
      var exec :- Prop(Get(e, "script"), "exec");
      if exec.None? || !exec.value.JArr? then Err(TypeError("exec has no join"))
      else Ok((EventFileName(TriggerText(Get(e, "listen"))), Join(Lines(exec.value.elems))))
  }

  /** Script lines that are all strings are written as they are. */
  lemma LinesOfStrs(lines: seq<string>)
    ensures Lines(Strs(lines).elems) == lines
  {
  }

  /** A `null` script line is written as an empty line, and the event is still written. */
  lemma NullLineWritten(e: Json)
    requires e == JObj(map["listen" := JStr("test"), "script" := JObj(map["exec" := JArr([JStr("a"), JNull])])])
    ensures EventFile(e) == Ok(("event.test.js", "a\n"))
  {
    var exec := [JStr("a"), JNull];
    assert Prop(Get(e, "script"), "exec") == Ok(Some(JArr(exec)));
    assert TriggerText(Get(e, "listen")) == "test";
    assert Lines(exec) == ["a", ""];
    assert Join(["a", ""]) == "a" + "\n" + Join([""]);
    assert Join([""]) == "";
    assert Join(Lines(exec)) == "a\n";
    assert EventFileName("test") == "event.test.js";
  }

  /** An event without a trigger is written to `event.undefined.js`. */
  lemma MissingTriggerWritten(e: Json, lines: seq<string>)
    requires e.JObj? && "listen" !in e.fields
    requires Get(e, "script").Some? && Get(e.fields["script"], "exec") == Some(Strs(lines))
    ensures EventFile(e) == Ok(("event.undefined.js", Join(lines)))
  {
    LinesOfStrs(lines);
    assert Prop(Get(e, "script"), "exec") == Ok(Some(Strs(lines)));
    assert TriggerText(Get(e, "listen")) == "undefined";
    assert EventFileName("undefined") == "event.undefined.js";
  }

  /** The file `createEventFiles` writes for an event whose trigger is a string and
      whose script lines are strings. */
  lemma EventFileOf(e: Json, listen: string, lines: seq<string>)
    requires e.JObj? && Get(e, "listen") == Some(JStr(listen))
    requires Get(e, "script").Some? && Get(e.fields["script"], "exec") == Some(Strs(lines))
    ensures EventFile(e) == Ok((EventFileName(listen), Join(lines)))
  {
    LinesOfStrs(lines);
    assert Prop(Get(e, "script"), "exec") == Ok(Some(Strs(lines)));
  }

  /** An event written by `createEventFiles` reads back with the same trigger and script
      lines, when the trigger is non-empty without '.', and the script has at least one
      line and no line holds a newline. */
  lemma EventRoundTrip(e: Json, listen: string, lines: seq<string>)
    requires e.JObj? && Get(e, "listen") == Some(JStr(listen))
    requires Get(e, "script").Some? && Get(e.fields["script"], "exec") == Some(Strs(lines))
    requires listen != "" && '.' !in listen
    requires |lines| >= 1 && forall i :: 0 <= i < |lines| ==> '\n' !in lines[i]
    ensures EventFile(e) == Ok((EventFileName(listen), Join(lines)))
    ensures MatchEventName(EventFileName(listen)) == Some(listen) && Split(Join(lines)) == lines
  {
    EventFileOf(e, listen, lines);
    SplitJoin(lines);
    MatchEventNameIff(EventFileName(listen), listen);
  }

  /** The filesystem after writing the first events one by one, and the `eventOrder`
      list so far. A trigger holding '/' makes the file's path run through a directory
      `event.<prefix>` that is never created, so that write fails. */
  function EventsWritten(m: Entries, dir: Path, events: seq<Json>): (r: (Entries, Result<seq<string>>))
    decreases |events|
  {
    if events == [] then (m, Ok([]))
    else
      var (m1, r1) := EventsWritten(m, dir, events[..|events| - 1]);
      if r1.Err? then (m1, r1)
      else
        match EventFile(events[|events| - 1])
        case Err(e) => (m1, Err(e))
        case Ok((name, text)) =>
          if '/' in name then (m1, Err(NoSuchFile(dir + [name])))
          else
          var (m2, o) := CreateFileAt(m1, dir + [name], text, true);
          if o.Failed? then (m2, Err(o.error)) else (m2, Ok(r1.value + [name]))
  }

  /** `createEventFiles(itemDir, event)`: the event files, then `.event.meta.json`. */
  function CreateEventFiles(m: Entries, dir: Path, event: Json, c: Codec): (r: (Entries, Outcome))
  {
    if !event.JArr? then (m, Failed(TypeError("event has no forEach")))
    else
      var (m1, r1) := EventsWritten(m, dir, event.elems);
      if r1.Err? then (m1, Failed(r1.error))
      else CreateFileAt(m1, dir + [".event.meta.json"], c.pretty(Single("eventOrder", Strs(r1.value))), false)
  }

  /** On success every event has its file and `eventOrder` lists those files in event
      order. */
  lemma {:induction false} EventsWrittenOrder(m: Entries, dir: Path, events: seq<Json>)
    requires EventsWritten(m, dir, events).1.Ok?
    ensures var order := EventsWritten(m, dir, events).1.value;
            |order| == |events| &&
            forall i :: 0 <= i < |events| ==> EventFile(events[i]).Ok? && order[i] == EventFile(events[i]).value.0
    ensures var order := EventsWritten(m, dir, events).1.value;
            forall i :: 0 <= i < |order| ==> '/' !in order[i]
    decreases |events|
  {
    if events != [] {
      var pre := events[..|events| - 1];
      EventsWrittenOrder(m, dir, pre);
      forall i | 0 <= i < |events| - 1 ensures events[i] == pre[i] { }
    }
  }

  /** On success the last event's file is the last one written, over what the others
      left. */
  lemma EventsWrittenLast(m: Entries, dir: Path, events: seq<Json>)
    requires events != [] && EventsWritten(m, dir, events).1.Ok?
    ensures EventsWritten(m, dir, events[..|events| - 1]).1.Ok?
    ensures EventFile(events[|events| - 1]).Ok?
    ensures EventsWritten(m, dir, events).0 ==
            EventsWritten(m, dir, events[..|events| - 1]).0[dir + [EventFile(events[|events| - 1]).value.0] :=
                                                          File(EventFile(events[|events| - 1]).value.1)]
  {
    var text := EventFile(events[|events| - 1]).value.1;
    assert text + "" == text;
  }

  /** On success the file of an event whose name no later event reuses holds that
      event's script. */
  lemma {:induction false} EventsWrittenFile(m: Entries, dir: Path, events: seq<Json>, i: nat)
    requires EventsWritten(m, dir, events).1.Ok?
    requires i < |events| && EventFile(events[i]).Ok?
    requires forall j :: i < j < |events| ==> !(EventFile(events[j]).Ok? && EventFile(events[j]).value.0 == EventFile(events[i]).value.0)
    ensures var m' := EventsWritten(m, dir, events).0;
            dir + [EventFile(events[i]).value.0] in m' && m'[dir + [EventFile(events[i]).value.0]] == File(EventFile(events[i]).value.1)
    decreases |events|
  {
    var n := |events|;
    var pre := events[..n - 1];
    EventsWrittenLast(m, dir, events);
    var name := EventFile(events[n - 1]).value.0;
    if i < n - 1 {
      assert pre[i] == events[i];
      forall j | i < j < |pre| ensures !(EventFile(pre[j]).Ok? && EventFile(pre[j]).value.0 == EventFile(pre[i]).value.0) {
        assert pre[j] == events[j];
      }
      EventsWrittenFile(m, dir, pre, i);
      var mine := EventFile(events[i]).value.0;
      assert dir + [name] != dir + [mine] by {
        assert (dir + [name])[|dir|] == name;
        assert (dir + [mine])[|dir|] == mine;
      }
    }
  }
}

=== FILE: export_props.dfy ===
/** What `traverse` promises about the tree it writes. */
module ExportProperties {
  import opened Base
  import opened Json
  import opened FileStore
  import opened Names
  import opened Events
  import opened Exporter

  lemma WriteGrows(m0: Entries, m: Entries, dir: Path, name: string, text: string, skip: bool)
    requires WellFormed(m0) ==> dir != [] && dir !in m0
    ensures Grows(m0, m, CreateFileAt(m, dir + [name], text, skip).0)
  {
    var p := dir + [name];
    assert Parent(p) == dir;
    assert WellFormed(m0) ==> (p in m0 ==> IsDir(m0, Parent(p)));
  }

  lemma {:induction false} EventsWrittenGrow(m0: Entries, m: Entries, dir: Path, events: seq<Json>)
    requires WellFormed(m0) ==> dir != [] && dir !in m0
    ensures Grows(m0, m, EventsWritten(m, dir, events).0)
    decreases |events|
  {
    if events != [] {
      var pre := events[..|events| - 1];
      EventsWrittenGrow(m0, m, dir, pre);
      var (m1, r1) := EventsWritten(m, dir, pre);
      if r1.Ok? && EventFile(events[|events| - 1]).Ok? {
        var (name, text) := EventFile(events[|events| - 1]).value;
        WriteGrows(m0, m1, dir, name, text, true);
      }
    }
  }

  lemma EventFilesGrow(m0: Entries, m: Entries, dir: Path, event: Json, c: Codec)
    requires WellFormed(m0) ==> dir != [] && dir !in m0
    ensures Grows(m0, m, CreateEventFiles(m, dir, event, c).0)
  {
    if event.JArr? {
      EventsWrittenGrow(m0, m, dir, event.elems);
      var (m1, r1) := EventsWritten(m, dir, event.elems);
      if r1.Ok? {
        WriteGrows(m0, m1, dir, ".event.meta.json", c.pretty(Single("eventOrder", Strs(r1.value))), false);
      }
    }
  }

  lemma {:induction false} SidecarsGrow(m0: Entries, m: Entries, thing: Json, dir: Path, keys: seq<string>, c: Codec)
    requires WellFormed(m0) ==> dir != [] && dir !in m0
    ensures Grows(m0, m, SidecarsWritten(m, thing, dir, keys, c).0)
    decreases |keys|
  {
    if keys != [] {
      var pre := keys[..|keys| - 1];
      SidecarsGrow(m0, m, thing, dir, pre, c);
      var (m1, o1) := SidecarsWritten(m, thing, dir, pre, c);
      var key := keys[|keys| - 1];
      if o1.Done? && Truthy(Get(thing, key)) {
        WriteGrows(m0, m1, dir, "." + key + ".json", c.pretty(Single(key, thing.fields[key])), false);
      }
    }
  }

  lemma RootFilesGrow(m0: Entries, m: Entries, thing: Json, dir: Path, c: Codec)
    requires WellFormed(m0) ==> dir != [] && dir !in m0
    ensures Grows(m0, m, RootFiles(m, thing, dir, c).0)
  {
    SidecarsGrow(m0, m, thing, dir, TopLevelFileKeys, c);
    var (m1, o1) := SidecarsWritten(m, thing, dir, TopLevelFileKeys, c);
    if o1.Done? && Truthy(Get(thing, "event")) {
      EventFilesGrow(m0, m1, dir, thing.fields["event"], c);
    }
  }

  /** A fresh directory is not part of a well-formed tree that is still intact. */
  lemma FreshDir(m0: Entries, m: Entries, dir: Path)
    requires Mkdir(m, dir).1.Done?
    requires WellFormed(m0) && Keeps(m0, m)
    ensures dir != [] && dir !in m0
  {
  }

  lemma RequestGrows(m0: Entries, m: Entries, thing: Json, dir: Path, c: Codec)
    requires Truthy(Get(thing, "request"))
    ensures Grows(m0, m, ExportRequest(m, thing, dir, c).0)
  {
    var (m1, o1) := CreateItemDir(m, dir);
    if o1.Failed? {
      assert ExportRequest(m, thing, dir, c).0 == m;
    } else {
      var m' := ExportRequest(m, thing, dir, c).0;
      if WellFormed(m0) && Keeps(m0, m) {
        MkdirGrows(m0, m, dir);
        FreshDir(m0, m, dir);
        RequestTailGrows(m0, m, m1, thing, dir, c);
        GrowsTrans(m0, m, m1, m');
      } else {
        // only the directories matter: the empty tree stands in for m0
        MkdirGrows(map[], m, dir);
        FreshDir(map[], m, dir);
        RequestTailGrows(map[], m, m1, thing, dir, c);
        GrowsTrans(map[], m, m1, m');
        GrowsFromEmpty(m0, m, m');
      }
    }
  }

  lemma MkdirGrows(m0: Entries, m: Entries, dir: Path)
    ensures Grows(m0, m, Mkdir(m, dir).0)
  {
  }

  lemma RequestTailGrows(m0: Entries, m: Entries, m1: Entries, thing: Json, dir: Path, c: Codec)
    requires Truthy(Get(thing, "request"))
    requires CreateItemDir(m, dir) == (m1, Done)
    requires WellFormed(m0) ==> dir != [] && dir !in m0
    ensures Grows(m0, m1, ExportRequest(m, thing, dir, c).0)
  {
    match Body.FormatBody(thing.fields["request"], c)
    case Err(_) =>
    case Ok(request) =>
      WriteGrows(m0, m1, dir, "request.json", c.pretty(request), false);
      var (m2, o2) := CreateFileAt(m1, dir + ["request.json"], c.pretty(request), false);
      if o2.Done? {
        if Truthy(Get(thing, "event")) { EventFilesGrow(m0, m2, dir, thing.fields["event"], c); }
        var (m3, o3) := if Truthy(Get(thing, "event")) then CreateEventFiles(m2, dir, thing.fields["event"], c) else (m2, Done);
        if o3.Done? && Truthy(Get(thing, "response")) {
          WriteGrows(m0, m3, dir, "response.json", c.pretty(thing.fields["response"]), false);
        }
      }
  }

  lemma GrowsTrans(m0: Entries, a: Entries, b: Entries, d: Entries)
    requires Grows(m0, a, b) && Grows(m0, b, d)
    ensures Grows(m0, a, d)
  {
  }

  /** With `m0` no longer intact only the directories matter, and the empty tree (well
      formed and intact in anything) stands in for it. */
  lemma GrowsFromEmpty(m0: Entries, m: Entries, m': Entries)
    requires Grows(map[], m, m')
    requires !(WellFormed(m0) && Keeps(m0, m))
    ensures Grows(m0, m, m')
  {
  }

  lemma {:induction false} NodeGrows(m0: Entries, m: Entries, thing: Json, name: string, ancestors: seq<string>, opts: Options, c: Codec)
    ensures Grows(m0, m, ExportNode(m, thing, name, ancestors, opts, c).0)
    decreases thing, 2, 0
  {
    if !('/' in name && !opts.substituteSlashes) {
      var dir := ancestors + [Sanitize(name)];
      var (m1, o1) := if Truthy(Get(thing, "item")) then ExportFolder(m, thing, ancestors, dir, opts, c) else (m, Done);
      if Truthy(Get(thing, "item")) {
        FolderGrows(m0, m, thing, ancestors, dir, opts, c);
      }
      if o1.Done? && Truthy(Get(thing, "request")) {
        RequestGrows(m0, m1, thing, dir, c);
        GrowsTrans(m0, m, m1, ExportRequest(m1, thing, dir, c).0);
      }
    }
  }

  lemma FolderGrows(m0: Entries, m: Entries, thing: Json, ancestors: seq<string>, dir: Path, opts: Options, c: Codec)
    requires Truthy(Get(thing, "item"))
    ensures Grows(m0, m, ExportFolder(m, thing, ancestors, dir, opts, c).0)
    decreases thing, 1, 1
  {
    if WellFormed(m0) && Keeps(m0, m) {
      FolderGrowsIntact(m0, m, thing, ancestors, dir, opts, c);
    } else {
      FolderGrowsIntact(map[], m, thing, ancestors, dir, opts, c);
      GrowsFromEmpty(m0, m, ExportFolder(m, thing, ancestors, dir, opts, c).0);
    }
  }

  lemma FolderGrowsIntact(m0: Entries, m: Entries, thing: Json, ancestors: seq<string>, dir: Path, opts: Options, c: Codec)
    requires Truthy(Get(thing, "item"))
    requires WellFormed(m0) && Keeps(m0, m)
    ensures Grows(m0, m, ExportFolder(m, thing, ancestors, dir, opts, c).0)
    decreases thing, 1, 0
  {
    var (m1, o1) := CreateItemDir(m, dir);
    if o1.Done? {
      FreshDir(m0, m, dir);
      assert Grows(m0, m, m1);
      var (m2, o2) := if ancestors == [] then RootFiles(m1, thing, dir, c) else (m1, Done);
      if ancestors == [] {
        RootFilesGrow(m0, m1, thing, dir, c);
      }
      GrowsTrans(m0, m, m1, m2);
      var item := thing.fields["item"];
      if o2.Done? && item.JArr? {
        var st := ExportItems(thing, |item.elems|, m2, dir, opts, c);
        ItemsGrow(m0, m2, thing, |item.elems|, dir, opts, c);
        GrowsTrans(m0, m, m2, st.m);
        if st.outcome.Done? {
          WriteGrows(m0, st.m, dir, ".meta.json", c.pretty(FolderMeta(thing, st.order)), false);
          GrowsTrans(m0, m, st.m, CreateFileAt(st.m, dir + [".meta.json"], c.pretty(FolderMeta(thing, st.order)), false).0);
        }
      }
    }
  }

  lemma {:induction false} ItemsGrow(m0: Entries, m: Entries, thing: Json, n: nat, dir: Path, opts: Options, c: Codec)
    requires HasItems(thing) && n <= |Items(thing)|
    ensures Grows(m0, m, ExportItems(thing, n, m, dir, opts, c).m)
    decreases thing, 0, n
  {
    if n > 0 {
      ItemGrows(m0, m, thing, n, dir, opts, c);
    }
  }

  /** One step of the loop over items keeps `Grows`. */
  lemma ItemGrows(m0: Entries, m: Entries, thing: Json, n: nat, dir: Path, opts: Options, c: Codec)
    requires HasItems(thing) && 0 < n <= |Items(thing)|
    ensures Grows(m0, m, ExportItems(thing, n, m, dir, opts, c).m)
    decreases thing, 0, n, 0
  {
    ItemsGrow(m0, m, thing, n - 1, dir, opts, c);
    ItemsLastTree(thing, n, m, dir, opts, c);
    var st := ExportItems(thing, n - 1, m, dir, opts, c);
    var element := Items(thing)[n - 1];
    var name := Get(element, "name");
    var named := st.outcome.Done? && name.Some? && name.value.JStr?;
    var final := if named then NextName(st.seen, name.value.s) else "";
    var after := ExportNode(st.m, element, final, dir, opts, c).0;
    if named {
      NodeGrows(m0, st.m, element, final, dir, opts, c);
    }
    GrowsMaybe(m0, m, st.m, after, named);
  }

  /** `Grows` through a step that may or may not happen. */
  lemma GrowsMaybe(m0: Entries, m: Entries, a: Entries, b: Entries, step: bool)
    requires Grows(m0, m, a) && (step ==> Grows(m0, a, b))
    ensures Grows(m0, m, if step then b else a)
  {
  }

  /** The tree after one more item: the item's export over the tree so far, when the loop
      is still going and the item has a string name. */
  lemma ItemsLastTree(thing: Json, n: nat, m: Entries, dir: Path, opts: Options, c: Codec)
    requires HasItems(thing) && 0 < n <= |Items(thing)|
    ensures var st := ExportItems(thing, n - 1, m, dir, opts, c);
            var name := Get(Items(thing)[n - 1], "name");
            ExportItems(thing, n, m, dir, opts, c).m ==
              if st.outcome.Done? && name.Some? && name.value.JStr?
              then ExportNode(st.m, Items(thing)[n - 1], NextName(st.seen, name.value.s), dir, opts, c).0
              else st.m
  {
  }

  /** An export never changes or removes anything that was there before it: it only adds
      directories and the files inside them. */
  lemma ExportNeverOverwrites(m: Entries, thing: Json, ancestors: seq<string>, opts: Options, c: Codec)
    requires WellFormed(m)
    ensures Keeps(m, Export(m, thing, ancestors, opts, c).0)
  {
    match NodeName(thing, ancestors)
    case Err(_) =>
    case Ok(name) => NodeGrows(m, m, thing, name, ancestors, opts, c);
  }

  /** A folder exported without error has its directory. */
  lemma FolderMakesDir(m: Entries, thing: Json, ancestors: seq<string>, dir: Path, opts: Options, c: Codec)
    requires Truthy(Get(thing, "item"))
    requires ExportFolder(m, thing, ancestors, dir, opts, c).1.Done?
    ensures IsDir(ExportFolder(m, thing, ancestors, dir, opts, c).0, dir)
    ensures dir == [] || !IsDotName(dir[|dir| - 1])
  {
    var (m1, o1) := CreateItemDir(m, dir);
    FreshDir(map[], m, dir);
    var (m2, o2) := if ancestors == [] then RootFiles(m1, thing, dir, c) else (m1, Done);
    if ancestors == [] {
      RootFilesGrow(map[], m1, thing, dir, c);
    }
    var item := thing.fields["item"];
    var st := ExportItems(thing, |item.elems|, m2, dir, opts, c);
    ItemsGrow(map[], m2, thing, |item.elems|, dir, opts, c);
    WriteGrows(map[], st.m, dir, ".meta.json", c.pretty(FolderMeta(thing, st.order)), false);
  }

  /** A request exported without error has its directory. */
  lemma RequestMakesDir(m: Entries, thing: Json, dir: Path, c: Codec)
    requires Truthy(Get(thing, "request"))
    requires ExportRequest(m, thing, dir, c).1.Done?
    ensures IsDir(ExportRequest(m, thing, dir, c).0, dir)
    ensures dir == [] || !IsDotName(dir[|dir| - 1])
  {
    var (m1, o1) := CreateItemDir(m, dir);
    FreshDir(map[], m, dir);
    RequestTailGrows(map[], m, m1, thing, dir, c);
  }

  /** A node that is a folder or a request and was exported without error has its
      directory, named after the node with every '/' replaced; a name with '/' got that
      far only with `substituteSlashes`. A node that is both a folder and a request never
      gets that far: its directory is made twice. */
  lemma NodeMakesDir(m: Entries, thing: Json, name: string, ancestors: seq<string>, opts: Options, c: Codec)
    requires Truthy(Get(thing, "item")) || Truthy(Get(thing, "request"))
    requires ExportNode(m, thing, name, ancestors, opts, c).1.Done?
    ensures IsDir(ExportNode(m, thing, name, ancestors, opts, c).0, ancestors + [Sanitize(name)])
    ensures '/' !in Sanitize(name) && ('/' in name ==> opts.substituteSlashes)
    ensures !IsDotName(Sanitize(name))
    ensures !(Truthy(Get(thing, "item")) && Truthy(Get(thing, "request")))
  {
    var dir := ancestors + [Sanitize(name)];
    if Truthy(Get(thing, "item")) {
      FolderMakesDir(m, thing, ancestors, dir, opts, c);
    } else {
      RequestMakesDir(m, thing, dir, c);
    }
  }

  /** A root whose directory already exists is refused, and nothing is written. */
  lemma NoSilentOverwrite(m: Entries, thing: Json, ancestors: seq<string>, opts: Options, c: Codec)
    requires NodeName(thing, ancestors).Ok?
    requires var name := NodeName(thing, ancestors).value; !('/' in name && !opts.substituteSlashes)
    requires Truthy(Get(thing, "item")) || Truthy(Get(thing, "request"))
    requires Exists(m, ancestors + [Sanitize(NodeName(thing, ancestors).value)])
    ensures Export(m, thing, ancestors, opts, c) == (m, Failed(AlreadyExists(ancestors + [Sanitize(NodeName(thing, ancestors).value)])))
  {
    NodeRefusesExisting(m, thing, NodeName(thing, ancestors).value, ancestors, opts, c);
  }

  /** `NoSilentOverwrite` once the name is known. */
  lemma NodeRefusesExisting(m: Entries, thing: Json, name: string, ancestors: seq<string>, opts: Options, c: Codec)
    requires !('/' in name && !opts.substituteSlashes)
    requires Truthy(Get(thing, "item")) || Truthy(Get(thing, "request"))
    requires Exists(m, ancestors + [Sanitize(name)])
    ensures ExportNode(m, thing, name, ancestors, opts, c) == (m, Failed(AlreadyExists(ancestors + [Sanitize(name)])))
  {
    var dir := ancestors + [Sanitize(name)];
    assert CreateItemDir(m, dir) == (m, Failed(AlreadyExists(dir)));
    if Truthy(Get(thing, "item")) {
      assert ExportFolder(m, thing, ancestors, dir, opts, c) == (m, Failed(AlreadyExists(dir)));
    } else {
      assert ExportRequest(m, thing, dir, c) == (m, Failed(AlreadyExists(dir)));
    }
  }

  /** A folder or request named "", "." or ".." is refused: its directory path names a
      directory that is already there. Nothing is written. */
  lemma DotNameRefused(m: Entries, thing: Json, name: string, ancestors: seq<string>, opts: Options, c: Codec)
    requires Truthy(Get(thing, "item")) || Truthy(Get(thing, "request"))
    requires IsDotName(name)
    ensures ExportNode(m, thing, name, ancestors, opts, c) == (m, Failed(AlreadyExists(ancestors + [name])))
  {
    assert '/' !in name;
    var dir := ancestors + [Sanitize(name)];
    assert dir[|dir| - 1] == name;
    assert CreateItemDir(m, dir) == (m, Failed(AlreadyExists(dir)));
    if Truthy(Get(thing, "item")) {
      assert ExportFolder(m, thing, ancestors, dir, opts, c) == (m, Failed(AlreadyExists(dir)));
    } else {
      assert ExportRequest(m, thing, dir, c) == (m, Failed(AlreadyExists(dir)));
    }
  }

  /** A folder or request exported without error made its directory: nothing was at that
      path before. */
  lemma NodeDirWasFresh(m: Entries, thing: Json, name: string, ancestors: seq<string>, opts: Options, c: Codec)
    requires Truthy(Get(thing, "item")) || Truthy(Get(thing, "request"))
    requires ExportNode(m, thing, name, ancestors, opts, c).1.Done?
    ensures !Exists(m, ancestors + [Sanitize(name)])
  {
    NodeMakesDir(m, thing, name, ancestors, opts, c);
    if Exists(m, ancestors + [Sanitize(name)]) {
      NodeRefusesExisting(m, thing, name, ancestors, opts, c);
      assert false;
    }
  }

  /** A name with '/' is refused unless `substituteSlashes` is set, and nothing is
      written. */
  lemma SlashRejected(m: Entries, thing: Json, ancestors: seq<string>, opts: Options, c: Codec)
    requires NodeName(thing, ancestors).Ok? && '/' in NodeName(thing, ancestors).value
    ensures !opts.substituteSlashes ==> Export(m, thing, ancestors, opts, c) == (m, Failed(SlashInName(NodeName(thing, ancestors).value)))
    ensures opts.substituteSlashes ==> Export(m, thing, ancestors, opts, c).1 != Failed(SlashInName(NodeName(thing, ancestors).value))
  {
    if opts.substituteSlashes {
      var name := NodeName(thing, ancestors).value;
      SlashNeverReported(m, thing, name, ancestors, opts, c);
    }
  }

  /** With `substituteSlashes` no name is ever refused for its '/'. */
  lemma {:induction false} SlashNeverReported(m: Entries, thing: Json, name: string, ancestors: seq<string>, opts: Options, c: Codec)
    requires opts.substituteSlashes
    ensures !ExportNode(m, thing, name, ancestors, opts, c).1.Failed? ||
            !ExportNode(m, thing, name, ancestors, opts, c).1.error.SlashInName?
    decreases thing, 2, 0
  {
    var dir := ancestors + [Sanitize(name)];
    if Truthy(Get(thing, "item")) {
      FolderNoSlashError(m, thing, ancestors, dir, opts, c);
    }
    var (m1, o1) := if Truthy(Get(thing, "item")) then ExportFolder(m, thing, ancestors, dir, opts, c) else (m, Done);
    if o1.Done? && Truthy(Get(thing, "request")) {
      RequestNoSlashError(m1, thing, dir, c);
    }
  }

  lemma FolderNoSlashError(m: Entries, thing: Json, ancestors: seq<string>, dir: Path, opts: Options, c: Codec)
    requires opts.substituteSlashes
    requires Truthy(Get(thing, "item"))
    ensures var o := ExportFolder(m, thing, ancestors, dir, opts, c).1; !o.Failed? || !o.error.SlashInName?
    decreases thing, 1, 0
  {
    var (m1, o1) := CreateItemDir(m, dir);
    if o1.Done? {
      var (m2, o2) := if ancestors == [] then RootFiles(m1, thing, dir, c) else (m1, Done);
      if ancestors == [] {
        RootFilesNoSlashError(m1, thing, dir, c);
      }
      var item := thing.fields["item"];
      if o2.Done? && item.JArr? {
        ItemsNoSlashError(thing, |item.elems|, m2, dir, opts, c);
      }
    }
  }

  lemma {:induction false} ItemsNoSlashError(thing: Json, n: nat, m: Entries, dir: Path, opts: Options, c: Codec)
    requires opts.substituteSlashes
    requires HasItems(thing) && n <= |Items(thing)|
    ensures var o := ExportItems(thing, n, m, dir, opts, c).outcome; !o.Failed? || !o.error.SlashInName?
    decreases thing, 0, n
  {
    if n > 0 {
      ItemsNoSlashError(thing, n - 1, m, dir, opts, c);
      var st := ExportItems(thing, n - 1, m, dir, opts, c);
      var element := Items(thing)[n - 1];
      var name := Get(element, "name");
      if st.outcome.Done? && name.Some? && name.value.JStr? {
        SlashNeverReported(st.m, element, NextName(st.seen, name.value.s), dir, opts, c);
      }
    }
  }

  lemma RootFilesNoSlashError(m: Entries, thing: Json, dir: Path, c: Codec)
    ensures var o := RootFiles(m, thing, dir, c).1; !o.Failed? || !o.error.SlashInName?
  {
    SidecarsNoSlashError(m, thing, dir, TopLevelFileKeys, c);
    var (m1, o1) := SidecarsWritten(m, thing, dir, TopLevelFileKeys, c);
    if o1.Done? && Truthy(Get(thing, "event")) {
      EventFilesNoSlashError(m1, dir, thing.fields["event"], c);
    }
  }

  lemma {:induction false} SidecarsNoSlashError(m: Entries, thing: Json, dir: Path, keys: seq<string>, c: Codec)
    ensures var o := SidecarsWritten(m, thing, dir, keys, c).1; !o.Failed? || !o.error.SlashInName?
    decreases |keys|
  {
    if keys != [] {
      SidecarsNoSlashError(m, thing, dir, keys[..|keys| - 1], c);
    }
  }

  lemma {:induction false} EventsNoSlashError(m: Entries, dir: Path, events: seq<Json>)
    ensures var r := EventsWritten(m, dir, events).1; !r.Err? || !r.error.SlashInName?
    decreases |events|
  {
    if events != [] {
      EventsNoSlashError(m, dir, events[..|events| - 1]);
    }
  }

  lemma HeaderIndexError(headers: seq<Json>)
    ensures Body.JsonHeaderIndex(headers).Err? ==> Body.JsonHeaderIndex(headers).error.TypeError?
  {
  }

  lemma FormatBodyError(request: Json, c: Codec)
    ensures Body.FormatBody(request, c).Err? ==> Body.FormatBody(request, c).error.TypeError?
  {
    var header := Get(request, "header");
    if Truthy(header) && header.value.JArr? {
      HeaderIndexError(header.value.elems);
    }
  }

  lemma EventFilesNoSlashError(m: Entries, dir: Path, event: Json, c: Codec)
    ensures var o := CreateEventFiles(m, dir, event, c).1; !o.Failed? || !o.error.SlashInName?
  {
    if event.JArr? {
      EventsNoSlashError(m, dir, event.elems);
    }
  }

  lemma RequestNoSlashError(m: Entries, thing: Json, dir: Path, c: Codec)
    requires Truthy(Get(thing, "request"))
    ensures var o := ExportRequest(m, thing, dir, c).1; !o.Failed? || !o.error.SlashInName?
  {
    var (m1, o1) := CreateItemDir(m, dir);
    if o1.Done? {
      FormatBodyError(thing.fields["request"], c);
      match Body.FormatBody(thing.fields["request"], c)
      case Err(_) =>
      case Ok(request) =>
        var (m2, o2) := CreateFileAt(m1, dir + ["request.json"], c.pretty(request), false);
        if o2.Done? && Truthy(Get(thing, "event")) {
          EventFilesNoSlashError(m2, dir, thing.fields["event"], c);
        }
    }
  }

  /** An item's `name` when it is a string. */
  function NameOf(e: Json): string {
    if Get(e, "name").Some? && e.fields["name"].JStr? then e.fields["name"].s else ""
  }

  function NamesOf(items: seq<Json>): (r: seq<string>)
    ensures |r| == |items| && forall i :: 0 <= i < |items| ==> r[i] == NameOf(items[i])
  {
    if items == [] then [] else NamesOf(items[..|items| - 1]) + [NameOf(items[|items| - 1])]
  }

  /** What the loop over `items` has handed out when it got through them: every item has
      a string name, `elementMap` holds the names `FinalNames` gives the siblings, and
      `elementOrder` those names with every '/' replaced, in item order. */
  ghost predicate NamedInOrder(items: seq<Json>, st: ItemsState) {
    (forall i :: 0 <= i < |items| ==> Get(items[i], "name").Some? && items[i].fields["name"].JStr?) &&
    var names := FinalNames(NamesOf(items));
    st.seen == Elems(names) && |st.order| == |items| &&
    forall i :: 0 <= i < |items| ==> st.order[i] == Sanitize(names[i])
  }

  /** When the loop over a folder's items gets through them, they were named and ordered
      as `NamedInOrder` says. */
  lemma {:induction false} ItemsOrder(thing: Json, n: nat, m: Entries, dir: Path, opts: Options, c: Codec)
    requires HasItems(thing) && n <= |Items(thing)|
    requires ExportItems(thing, n, m, dir, opts, c).outcome.Done?
    ensures NamedInOrder(Items(thing)[..n], ExportItems(thing, n, m, dir, opts, c))
    decreases n
  {
    if n == 0 {
      assert Items(thing)[..n] == [];
    } else {
      ItemsDoneBefore(thing, n, m, dir, opts, c);
      ItemsOrder(thing, n - 1, m, dir, opts, c);
      ItemOrder(thing, n, m, dir, opts, c);
    }
  }

  /** `ItemsOrder` for the `n`th item, given it for the ones before. */
  lemma ItemOrder(thing: Json, n: nat, m: Entries, dir: Path, opts: Options, c: Codec)
    requires HasItems(thing) && 0 < n <= |Items(thing)|
    requires ExportItems(thing, n, m, dir, opts, c).outcome.Done?
    requires NamedInOrder(Items(thing)[..n - 1], ExportItems(thing, n - 1, m, dir, opts, c))
    ensures NamedInOrder(Items(thing)[..n], ExportItems(thing, n, m, dir, opts, c))
  {
    var items := Items(thing)[..n];
    var st := ExportItems(thing, n - 1, m, dir, opts, c);
    ItemsDoneBefore(thing, n, m, dir, opts, c);
    ItemsStepNames(thing, n - 1, m, dir, opts, c);
    assert items[..n - 1] == Items(thing)[..n - 1];
    NamedStep(items, st, ExportItems(thing, n, m, dir, opts, c));
  }

  /** The names `ItemsStep` hands out, without the tree. */
  lemma ItemsStepNames(thing: Json, i: nat, m: Entries, dir: Path, opts: Options, c: Codec)
    requires HasItems(thing) && i < |Items(thing)|
    requires ExportItems(thing, i, m, dir, opts, c).outcome.Done?
    requires Get(Items(thing)[i], "name").Some? && Items(thing)[i].fields["name"].JStr?
    ensures var st := ExportItems(thing, i, m, dir, opts, c);
            var final := NextName(st.seen, Items(thing)[i].fields["name"].s);
            ExportItems(thing, i + 1, m, dir, opts, c).seen == st.seen + {final} &&
            ExportItems(thing, i + 1, m, dir, opts, c).order == st.order + [Sanitize(final)]
  {
    ItemsStep(thing, i, m, dir, opts, c);
  }

  /** A loop that got through `n` items got through the first `n - 1`, and the last one
      had a string name. */
  lemma ItemsDoneBefore(thing: Json, n: nat, m: Entries, dir: Path, opts: Options, c: Codec)
    requires HasItems(thing) && 0 < n <= |Items(thing)|
    requires ExportItems(thing, n, m, dir, opts, c).outcome.Done?
    ensures ExportItems(thing, n - 1, m, dir, opts, c).outcome.Done?
    ensures Get(Items(thing)[n - 1], "name").Some? && Items(thing)[n - 1].fields["name"].JStr?
  {
  }

  lemma NamedStep(items: seq<Json>, st: ItemsState, st': ItemsState)
    requires |items| > 0 && NamedInOrder(items[..|items| - 1], st)
    requires var last := items[|items| - 1]; Get(last, "name").Some? && last.fields["name"].JStr?
    requires var final := NextName(st.seen, items[|items| - 1].fields["name"].s);
             st'.seen == st.seen + {final} && st'.order == st.order + [Sanitize(final)]
    ensures NamedInOrder(items, st')
  {
    var final := NextName(st.seen, NameOf(items[|items| - 1]));
    FinalNamesSnoc(items);
    NamedOrderSnoc(items, st, st', final);
  }

  /** The final names of `items` are those of all but the last, then the last one's. */
  lemma FinalNamesSnoc(items: seq<Json>)
    requires |items| > 0
    ensures var pre := FinalNames(NamesOf(items[..|items| - 1]));
            FinalNames(NamesOf(items)) == pre + [NextName(Elems(pre), NameOf(items[|items| - 1]))]
  {
    NamesOfPrefix(items, |items| - 1);
    FinalNamesLast(NamesOf(items));
  }

  lemma NamesOfPrefix(items: seq<Json>, k: nat)
    requires k <= |items|
    ensures NamesOf(items)[..k] == NamesOf(items[..k])
  {
    var all := NamesOf(items);
    var pre := NamesOf(items[..k]);
    forall i | 0 <= i < k ensures all[i] == pre[i] {
      assert items[..k][i] == items[i];
    }
  }

  /** `NamedInOrder` for the items so far, extended by one named item. */
  lemma NamedOrderSnoc(items: seq<Json>, st: ItemsState, st': ItemsState, final: string)
    requires |items| > 0 && NamedInOrder(items[..|items| - 1], st)
    requires Get(items[|items| - 1], "name").Some? && items[|items| - 1].fields["name"].JStr?
    requires FinalNames(NamesOf(items)) == FinalNames(NamesOf(items[..|items| - 1])) + [final]
    requires st'.seen == st.seen + {final} && st'.order == st.order + [Sanitize(final)]
    ensures NamedInOrder(items, st')
  {
    var n := |items|;
    var pre := FinalNames(NamesOf(items[..n - 1]));
    ElemsSnoc(pre, final);
    SanitizedSnoc(st.order, pre, final);
    NamedItemsSnoc(items, items[..n - 1]);
  }

  lemma ElemsSnoc(names: seq<string>, x: string)
    ensures Elems(names + [x]) == Elems(names) + {x}
  {
  }

  lemma SanitizedSnoc(order: seq<string>, names: seq<string>, x: string)
    requires |order| == |names| && forall i :: 0 <= i < |names| ==> order[i] == Sanitize(names[i])
    ensures forall i :: 0 <= i < |names| + 1 ==> (order + [Sanitize(x)])[i] == Sanitize((names + [x])[i])
  {
  }

  lemma NamedItemsSnoc(items: seq<Json>, pre: seq<Json>)
    requires |items| > 0 && pre == items[..|items| - 1]
    requires forall i :: 0 <= i < |pre| ==> Get(pre[i], "name").Some? && pre[i].fields["name"].JStr?
    requires Get(items[|items| - 1], "name").Some? && items[|items| - 1].fields["name"].JStr?
    ensures forall i :: 0 <= i < |items| ==> Get(items[i], "name").Some? && items[i].fields["name"].JStr?
  {
    forall i | 0 <= i < |items| - 1 ensures Get(items[i], "name").Some? && items[i].fields["name"].JStr? {
      assert items[i] == pre[i];
    }
  }

  /** Three sibling requests with the same name: once the first two are written, the
      third gets the same `-copy` name as the second and is refused because that
      directory exists; either way the folder's loop fails. */
  lemma ThreeSameNamedRequestsFail(thing: Json, name: string, m: Entries, dir: Path, opts: Options, c: Codec)
    requires HasItems(thing) && |Items(thing)| >= 3
    requires forall i :: 0 <= i < 3 ==> Get(Items(thing)[i], "name") == Some(JStr(name))
    requires forall i :: 0 <= i < 3 ==> !Truthy(Get(Items(thing)[i], "item")) && Truthy(Get(Items(thing)[i], "request"))
    ensures ExportItems(thing, 2, m, dir, opts, c).outcome.Done? ==>
              ExportItems(thing, 3, m, dir, opts, c).outcome == Failed(AlreadyExists(dir + [Sanitize(name + "-copy")]))
    ensures ExportItems(thing, |Items(thing)|, m, dir, opts, c).outcome.Failed?
  {
    var items := Items(thing);
    var st2 := ExportItems(thing, 2, m, dir, opts, c);
    if st2.outcome.Done? {
      var st1 := ExportItems(thing, 1, m, dir, opts, c);
      var f1 := name + "-copy";
      SecondSiblingNames(thing, name, m, dir, opts, c);
      NodeMakesDir(st1.m, items[1], f1, dir, opts, c);
      ItemsStep(thing, 2, m, dir, opts, c);
      NodeRefusesExisting(st2.m, items[2], f1, dir, opts, c);
    }
    var k := if st2.outcome.Done? then 3 else 2;
    ItemsStuck(thing, k, |items|, m, dir, opts, c);
  }

  /** The first two of three same-named siblings: the second is exported as
      `name-copy`, and the third is named `name-copy` too. */
  lemma SecondSiblingNames(thing: Json, name: string, m: Entries, dir: Path, opts: Options, c: Codec)
    requires HasItems(thing) && |Items(thing)| >= 3
    requires forall i :: 0 <= i < 3 ==> Get(Items(thing)[i], "name") == Some(JStr(name))
    requires ExportItems(thing, 2, m, dir, opts, c).outcome.Done?
    ensures var st1 := ExportItems(thing, 1, m, dir, opts, c);
            var st2 := ExportItems(thing, 2, m, dir, opts, c);
            && st1.outcome.Done?
            && (st2.m, st2.outcome) == ExportNode(st1.m, Items(thing)[1], name + "-copy", dir, opts, c)
            && NextName(st2.seen, name) == name + "-copy"
  {
    var items := Items(thing);
    var st1 := ExportItems(thing, 1, m, dir, opts, c);
    var st2 := ExportItems(thing, 2, m, dir, opts, c);
    ItemsDoneBefore(thing, 2, m, dir, opts, c);
    ItemsStepNames(thing, 0, m, dir, opts, c);
    ItemsStep(thing, 1, m, dir, opts, c);
    var f0 := NextName({}, name);
    assert st1.seen == {f0};
    assert NextName(st1.seen, name) == name + "-copy";
  }

  /** A child whose name holds '/' makes the folder's loop fail unless `substituteSlashes`
      is set. */
  lemma ChildSlashFails(thing: Json, k: nat, m: Entries, dir: Path, opts: Options, c: Codec)
    requires HasItems(thing) && k < |Items(thing)|
    requires Get(Items(thing)[k], "name").Some? && Items(thing)[k].fields["name"].JStr?
    requires '/' in Items(thing)[k].fields["name"].s && !opts.substituteSlashes
    ensures ExportItems(thing, |Items(thing)|, m, dir, opts, c).outcome.Failed?
  {
    var st := ExportItems(thing, k, m, dir, opts, c);
    if st.outcome.Done? {
      ItemsStep(thing, k, m, dir, opts, c);
      var name := Items(thing)[k].fields["name"].s;
      var final := NextName(st.seen, name);
      assert final[..|name|] == name;
      assert '/' in final;
      ItemsStuck(thing, k + 1, |Items(thing)|, m, dir, opts, c);
    } else {
      ItemsStuck(thing, k, |Items(thing)|, m, dir, opts, c);
    }
  }

  /** The directory names of a folder's children, in item order. */
  function ChildrenOrder(items: seq<Json>): (r: seq<string>)
    ensures |r| == |items|
    ensures forall i :: 0 <= i < |items| ==> r[i] == Sanitize(FinalNames(NamesOf(items))[i])
  {
    var names := FinalNames(NamesOf(items));
    seq(|items|, i requires 0 <= i < |items| => Sanitize(names[i]))
  }

  /** A folder exported without error has a `.meta.json` whose `childrenOrder` lists its
      children's directory names in item order (each child's directory exists too, as
      `NodeMakesDir` says), with the description when it is truthy. */
  lemma FolderMetaWritten(m: Entries, thing: Json, ancestors: seq<string>, dir: Path, opts: Options, c: Codec)
    requires Truthy(Get(thing, "item"))
    requires ExportFolder(m, thing, ancestors, dir, opts, c).1.Done?
    ensures HasItems(thing)
    ensures var m' := ExportFolder(m, thing, ancestors, dir, opts, c).0;
            dir + [".meta.json"] in m' &&
            m'[dir + [".meta.json"]] == File(c.pretty(FolderMeta(thing, ChildrenOrder(Items(thing)))) + "\n")
  {
    var (m1, o1) := CreateItemDir(m, dir);
    var (m2, o2) := if ancestors == [] then RootFiles(m1, thing, dir, c) else (m1, Done);
    var items := Items(thing);
    var st := ExportItems(thing, |items|, m2, dir, opts, c);
    ItemsOrder(thing, |items|, m2, dir, opts, c);
    assert items[..|items|] == items;
    assert st.order == ChildrenOrder(items);
  }

  /** `childrenOrder` and the description, as the folder's `.meta.json` holds them. */
  lemma FolderMetaFields(thing: Json, order: seq<string>)
    ensures Get(FolderMeta(thing, order), "childrenOrder") == Some(Strs(order))
    ensures Get(FolderMeta(thing, order), "description").Some? <==> Truthy(Get(thing, "description"))
    ensures Truthy(Get(thing, "description")) ==> Get(FolderMeta(thing, order), "description") == Get(thing, "description")
    ensures FolderMeta(thing, order).JObj? && FolderMeta(thing, order).fields.Keys <= {"childrenOrder", "description"}
  {
  }

  /** Events written without error leave a `.event.meta.json` whose `eventOrder` lists
      the event files in event order. */
  lemma EventMetaWritten(m: Entries, dir: Path, event: Json, c: Codec)
    requires CreateEventFiles(m, dir, event, c).1.Done?
    ensures event.JArr? && EventsWritten(m, dir, event.elems).1.Ok?
    ensures var order := EventsWritten(m, dir, event.elems).1.value;
            |order| == |event.elems| &&
            (forall i :: 0 <= i < |order| ==> EventFile(event.elems[i]).Ok? && order[i] == EventFile(event.elems[i]).value.0) &&
            var m' := CreateEventFiles(m, dir, event, c).0;
            dir + [".event.meta.json"] in m' &&
            m'[dir + [".event.meta.json"]] == File(c.pretty(Single("eventOrder", Strs(order))) + "\n")
  {
    EventsWrittenOrder(m, dir, event.elems);
  }

  /** An event whose trigger holds '/' stops the events: its file cannot be created, and
      neither is anything after it, `.event.meta.json` included. */
  lemma SlashedTriggerRefused(m: Entries, dir: Path, events: seq<Json>, k: nat, c: Codec)
    requires k < |events| && EventsWritten(m, dir, events[..k]).1.Ok?
    requires EventFile(events[k]).Ok? && '/' in EventFile(events[k]).value.0
    ensures var failed := Failed(NoSuchFile(dir + [EventFile(events[k]).value.0]));
            CreateEventFiles(m, dir, JArr(events), c) == (EventsWritten(m, dir, events[..k]).0, failed)
  {
    assert events[..k + 1][..k] == events[..k];
    assert events[..k + 1][k] == events[k];
    EventsStuck(m, dir, events, k + 1);
  }

  /** A folder or a request: a node that gets a directory of its own. */
  predicate MakesDir(e: Json) {
    Truthy(Get(e, "item")) || Truthy(Get(e, "request"))
  }

  /** Every name of `order` is a directory under `dir`, and no two are the same. */
  ghost predicate DistinctDirs(m: Entries, dir: Path, order: seq<string>) {
    (forall i :: 0 <= i < |order| ==> IsDir(m, dir + [order[i]])) &&
    (forall i, j :: 0 <= i < j < |order| ==> order[i] != order[j])
  }

  /** When the loop over items that are all folders or requests gets through them, it
      gave them pairwise different directories, all of which are there. */
  lemma {:induction false} ItemDirsDistinct(thing: Json, n: nat, m: Entries, dir: Path, opts: Options, c: Codec)
    requires HasItems(thing) && n <= |Items(thing)|
    requires ExportItems(thing, n, m, dir, opts, c).outcome.Done?
    requires forall i :: 0 <= i < n ==> MakesDir(Items(thing)[i])
    ensures var st := ExportItems(thing, n, m, dir, opts, c);
            DistinctDirs(st.m, dir, st.order)
    decreases n
  {
    if n > 0 {
      ItemsDoneBefore(thing, n, m, dir, opts, c);
      ItemDirsDistinct(thing, n - 1, m, dir, opts, c);
      var st := ExportItems(thing, n - 1, m, dir, opts, c);
      var element := Items(thing)[n - 1];
      var final := NextName(st.seen, element.fields["name"].s);
      ItemsStep(thing, n - 1, m, dir, opts, c);
      NodeMakesDir(st.m, element, final, dir, opts, c);
      NodeDirWasFresh(st.m, element, final, dir, opts, c);
      NodeGrows(st.m, st.m, element, final, dir, opts, c);
      DistinctDirsSnoc(st.m, ExportItems(thing, n, m, dir, opts, c).m, dir, st.order, Sanitize(final));
    }
  }

  lemma DistinctDirsSnoc(m: Entries, m': Entries, dir: Path, order: seq<string>, x: string)
    requires DistinctDirs(m, dir, order) && !Exists(m, dir + [x])
    requires DirsKept(m, m') && IsDir(m', dir + [x])
    ensures DistinctDirs(m', dir, order + [x])
  {
    forall i | 0 <= i < |order| ensures order[i] != x && IsDir(m', dir + [order[i]]) {
      assert IsDir(m, dir + [order[i]]);
    }
  }

  /** A folder whose items are all folders or requests and that was exported without error
      has one directory per child, each under the name `childrenOrder` gives it, no two
      alike. */
  lemma FolderChildrenDistinct(m: Entries, thing: Json, ancestors: seq<string>, dir: Path, opts: Options, c: Codec)
    requires Truthy(Get(thing, "item")) && HasItems(thing)
    requires forall i :: 0 <= i < |Items(thing)| ==> MakesDir(Items(thing)[i])
    requires ExportFolder(m, thing, ancestors, dir, opts, c).1.Done?
    ensures DistinctDirs(ExportFolder(m, thing, ancestors, dir, opts, c).0, dir, ChildrenOrder(Items(thing)))
  {
    var (m1, o1) := CreateItemDir(m, dir);
    var (m2, o2) := if ancestors == [] then RootFiles(m1, thing, dir, c) else (m1, Done);
    var items := Items(thing);
    var st := ExportItems(thing, |items|, m2, dir, opts, c);
    ItemsOrder(thing, |items|, m2, dir, opts, c);
    assert items[..|items|] == items;
    assert st.order == ChildrenOrder(items);
    ItemDirsDistinct(thing, |items|, m2, dir, opts, c);
    WriteGrows(map[], st.m, dir, ".meta.json", c.pretty(FolderMeta(thing, st.order)), false);
  }
}

=== FILE: exporter.dfy ===
/** `traverse` (lines 122-237): writes a collection document to the filesystem in pre-order.
    The functions below say what it does to the filesystem; the methods at the end of
    this module do it step by step and are proved to agree with them. */
module Exporter {
  import opened Base
  import opened Json
  import opened FileStore
  import opened Names
  import opened Events
  import opened Body

  datatype Options = Options(substituteSlashes: bool)

  /** `Object.keys(topLevelFileKeys)`, in that order. */
  const TopLevelFileKeys: seq<string> := ["variable", "info", "auth"]

  /** The name of the root: `thing.info.name`, which must be a string. */
  function RootName(thing: Json): (r: Result<string>)
    ensures r.Ok? <==> Get(thing, "info").Some? && Get(thing.fields["info"], "name").Some? &&
                       thing.fields["info"].fields["name"].JStr?
    ensures r.Ok? ==> r.value == thing.fields["info"].fields["name"].s
  {
    var info :- Prop(Some(thing), "info");
    var name :- Prop(info, "name");
    if name.None? || !name.value.JStr? then Err(TypeError("name has no includes"))
    else Ok(name.value.s)
  }

  /** The name of a node: from `info.name` at the root, from its own `name` below it. */
  function NodeName(thing: Json, ancestors: seq<string>): Result<string> {
    if ancestors == [] then RootName(thing)
    else
      var name :- Prop(Some(thing), "name");
      if name.None? || !name.value.JStr? then Err(TypeError("name has no includes"))
      else Ok(name.value.s)
  }

  /** The filesystem after `traverse(thing, ancestors, options)`, and how it ended. */
  function Export(m: Entries, thing: Json, ancestors: seq<string>, opts: Options, c: Codec): (Entries, Outcome)
  {
    match NodeName(thing, ancestors)
    case Err(e) => (m, Failed(e))
    case Ok(name) => ExportNode(m, thing, name, ancestors, opts, c)
  }

  /** One node, under the name it is exported with (for a child, possibly with `-copy`). */
  function ExportNode(m: Entries, thing: Json, name: string, ancestors: seq<string>, opts: Options, c: Codec): (Entries, Outcome)
    decreases thing, 2, 0
  {
    if '/' in name && !opts.substituteSlashes then (m, Failed(SlashInName(name)))
    else
      var dir := ancestors + [Sanitize(name)];
      var (m1, o1) := if Truthy(Get(thing, "item")) then ExportFolder(m, thing, ancestors, dir, opts, c) else (m, Done);
      if o1.Failed? then (m1, o1)
      else if Truthy(Get(thing, "request")) then ExportRequest(m1, thing, dir, c)
      else (m1, Done)
  }

  /** Names that, appended to the parent's path string, name a directory that is always
      there: "" (the parent itself, through a trailing '/'), "." and "..". */
  predicate IsDotName(name: string) {
    name == "" || name == "." || name == ".."
  }

  /** `createDir(itemDir)` for a node's directory `itemDir = parent + '/' + name`: a dot
      name makes `itemDir` an existing directory, which is refused like any other. */
  function CreateItemDir(m: Entries, dir: Path): (Entries, Outcome) {
    if dir != [] && IsDotName(dir[|dir| - 1]) then (m, Failed(AlreadyExists(dir)))
    else Mkdir(m, dir)
  }

  /** `.${key}.json` at the root, holding `{key: thing[key]}`, when `thing[key]` is truthy. */
  function Sidecar(m: Entries, thing: Json, dir: Path, key: string, c: Codec): (Entries, Outcome) {
    if Truthy(Get(thing, key)) then
      CreateFileAt(m, dir + ["." + key + ".json"], c.pretty(Single(key, thing.fields[key])), false)
    else (m, Done)
  }

  /** The sidecars for the first keys of `keys`, written one after the other. */
  function SidecarsWritten(m: Entries, thing: Json, dir: Path, keys: seq<string>, c: Codec): (Entries, Outcome)
    decreases |keys|
  {
    if keys == [] then (m, Done)
    else
      var (m1, o1) := SidecarsWritten(m, thing, dir, keys[..|keys| - 1], c);
      if o1.Failed? then (m1, o1) else Sidecar(m1, thing, dir, keys[|keys| - 1], c)
  }

  /** The root's extra files: the three sidecars, then its events. */
  function RootFiles(m: Entries, thing: Json, dir: Path, c: Codec): (Entries, Outcome) {
    var (m1, o1) := SidecarsWritten(m, thing, dir, TopLevelFileKeys, c);
    if o1.Failed? then (m1, o1)
    else if Truthy(Get(thing, "event")) then CreateEventFiles(m1, dir, thing.fields["event"], c)
    else (m1, Done)
  }

  /** The contents of a folder's `.meta.json`. */
  function FolderMeta(thing: Json, order: seq<string>): Json {
    var meta := map["childrenOrder" := Strs(order)];
    if Truthy(Get(thing, "description")) then JObj(meta["description" := thing.fields["description"]])
    else JObj(meta)
  }

  /** A node with a truthy `item`: its directory, the root files, its children, and its
      `.meta.json`. */
  function ExportFolder(m: Entries, thing: Json, ancestors: seq<string>, dir: Path, opts: Options, c: Codec): (Entries, Outcome)
    requires Truthy(Get(thing, "item"))
    decreases thing, 1, 0
  {
    var (m1, o1) := CreateItemDir(m, dir);
    if o1.Failed? then (m1, o1) else
    var (m2, o2) := if ancestors == [] then RootFiles(m1, thing, dir, c) else (m1, Done);
    if o2.Failed? then (m2, o2) else
    var item := thing.fields["item"];
    if !item.JArr? then (m2, Failed(TypeError("item has no forEach")))
    else
      var st := ExportItems(thing, |item.elems|, m2, dir, opts, c);
      if st.outcome.Failed? then (st.m, st.outcome)
      else CreateFileAt(st.m, dir + [".meta.json"], c.pretty(FolderMeta(thing, st.order)), false)
  }

  /** The state of the loop over a folder's items: the filesystem, the names handed out
      (`elementMap`), the directory names so far (`elementOrder`) and how it is going. */
  datatype ItemsState = ItemsState(m: Entries, seen: set<string>, order: seq<string>, outcome: Outcome)

  predicate HasItems(thing: Json) {
    thing.JObj? && "item" in thing.fields && thing.fields["item"].JArr?
  }

  function Items(thing: Json): seq<Json>
    requires HasItems(thing)
  {
    thing.fields["item"].elems
  }

  /** The loop over the first `n` items of a folder. */
  function ExportItems(thing: Json, n: nat, m: Entries, dir: Path, opts: Options, c: Codec): (st: ItemsState)
    requires HasItems(thing) && n <= |Items(thing)|
    decreases thing, 0, n
  {
    if n == 0 then ItemsState(m, {}, [], Done)
    else
      var st := ExportItems(thing, n - 1, m, dir, opts, c);
      if st.outcome.Failed? then st
      else
        var element := Items(thing)[n - 1];
        var name := Get(element, "name");
        if name.None? || !name.value.JStr? then st.(outcome := Failed(TypeError("name has no replace")))
        else
          var final := NextName(st.seen, name.value.s);
          var (m1, o) := ExportNode(st.m, element, final, dir, opts, c);
          ItemsState(m1, st.seen + {final}, st.order + [Sanitize(final)], o)
  }

  /** A node with a truthy `request`: its directory, `request.json`, its events and
      `response.json`. */
  function ExportRequest(m: Entries, thing: Json, dir: Path, c: Codec): (Entries, Outcome)
    requires Truthy(Get(thing, "request"))
  {
    var (m1, o1) := CreateItemDir(m, dir);
    if o1.Failed? then (m1, o1) else
    match FormatBody(thing.fields["request"], c)
    case Err(e) => (m1, Failed(e))
    case Ok(request) =>
      var (m2, o2) := CreateFileAt(m1, dir + ["request.json"], c.pretty(request), false);
      if o2.Failed? then (m2, o2) else
      var (m3, o3) := if Truthy(Get(thing, "event")) then CreateEventFiles(m2, dir, thing.fields["event"], c) else (m2, Done);
      if o3.Failed? then (m3, o3)
      else if Truthy(Get(thing, "response")) then
        CreateFileAt(m3, dir + ["response.json"], c.pretty(thing.fields["response"]), false)
      else (m3, Done)
  }

  /** A failed step ends the loop over items: later items change nothing. */
  lemma {:induction false} ItemsStuck(thing: Json, k: nat, n: nat, m: Entries, dir: Path, opts: Options, c: Codec)
    requires HasItems(thing) && k <= n <= |Items(thing)|
    requires ExportItems(thing, k, m, dir, opts, c).outcome.Failed?
    ensures ExportItems(thing, n, m, dir, opts, c) == ExportItems(thing, k, m, dir, opts, c)
    decreases n
  {
    if n > k { ItemsStuck(thing, k, n - 1, m, dir, opts, c); }
  }

  /** One more step of the loop over items, spelled out. */
  lemma ItemsStep(thing: Json, i: nat, m: Entries, dir: Path, opts: Options, c: Codec)
    requires HasItems(thing) && i < |Items(thing)|
    requires ExportItems(thing, i, m, dir, opts, c).outcome.Done?
    requires Get(Items(thing)[i], "name").Some? && Items(thing)[i].fields["name"].JStr?
    ensures var st := ExportItems(thing, i, m, dir, opts, c);
            var final := NextName(st.seen, Items(thing)[i].fields["name"].s);
            var (m1, o) := ExportNode(st.m, Items(thing)[i], final, dir, opts, c);
            ExportItems(thing, i + 1, m, dir, opts, c) == ItemsState(m1, st.seen + {final}, st.order + [Sanitize(final)], o)
  {
  }

  /** One more sidecar after the first `i` were written. */
  lemma SidecarsStep(m: Entries, thing: Json, dir: Path, keys: seq<string>, i: nat, c: Codec)
    requires i < |keys| && SidecarsWritten(m, thing, dir, keys[..i], c).1.Done?
    ensures SidecarsWritten(m, thing, dir, keys[..i + 1], c) ==
            Sidecar(SidecarsWritten(m, thing, dir, keys[..i], c).0, thing, dir, keys[i], c)
  {
    assert keys[..i + 1][..i] == keys[..i];
  }

  lemma {:induction false} SidecarsStuck(m: Entries, thing: Json, dir: Path, keys: seq<string>, k: nat, c: Codec)
    requires k <= |keys|
    requires SidecarsWritten(m, thing, dir, keys[..k], c).1.Failed?
    ensures SidecarsWritten(m, thing, dir, keys, c) == SidecarsWritten(m, thing, dir, keys[..k], c)
    decreases |keys|
  {
    if k < |keys| {
      assert keys[..|keys| - 1][..k] == keys[..k];
      SidecarsStuck(m, thing, dir, keys[..|keys| - 1], k, c);
    } else {
      assert keys[..k] == keys;
    }
  }

  lemma {:induction false} EventsStuck(m: Entries, dir: Path, events: seq<Json>, k: nat)
    requires k <= |events|
    requires EventsWritten(m, dir, events[..k]).1.Err?
    ensures EventsWritten(m, dir, events) == EventsWritten(m, dir, events[..k])
    decreases |events|
  {
    if k < |events| {
      assert events[..|events| - 1][..k] == events[..k];
      EventsStuck(m, dir, events[..|events| - 1], k);
    } else {
      assert events[..k] == events;
    }
  }

  /** `createEventFiles(itemDir, event)`. */
  method WriteEventFiles(fs: FileSystem, dir: Path, event: Json, c: Codec) returns (r: Outcome)
    requires fs.Valid()
    modifies fs
    ensures fs.Valid()
    ensures (fs.entries, r) == CreateEventFiles(old(fs.entries), dir, event, c)
  {
    if !event.JArr? {
      return Failed(TypeError("event has no forEach"));
    }
    ghost var m0 := fs.entries;
    var events := event.elems;
    var eventOrder: seq<string> := [];
    var i := 0;
    while i < |events|
      invariant 0 <= i <= |events| && fs.Valid()
      invariant EventsWritten(m0, dir, events[..i]) == (fs.entries, Ok(eventOrder))
    {
      assert events[..i + 1][..i] == events[..i];
      var file := EventFile(events[i]);
      if file.Err? {
        EventsStuck(m0, dir, events, i + 1);
        return Failed(file.error);
      }
      var (name, text) := file.value;
      if '/' in name {
        EventsStuck(m0, dir, events, i + 1);
        return Failed(NoSuchFile(dir + [name]));
      }
      eventOrder := eventOrder + [name];
      var o := fs.CreateFile(dir + [name], text, true);
      if o.Failed? {
        EventsStuck(m0, dir, events, i + 1);
        return o;
      }
      i := i + 1;
    }
    assert events[..i] == events;
    r := fs.CreateFile(dir + [".event.meta.json"], c.pretty(Single("eventOrder", Strs(eventOrder))), false);
  }

  /** The root's sidecar files and events (lines 155-170). */
  method WriteRootFiles(fs: FileSystem, thing: Json, dir: Path, c: Codec) returns (r: Outcome)
    requires fs.Valid()
    modifies fs
    ensures fs.Valid()
    ensures (fs.entries, r) == RootFiles(old(fs.entries), thing, dir, c)
  {
    ghost var m0 := fs.entries;
    var keys := TopLevelFileKeys;
    var i := 0;
    while i < |keys|
      invariant 0 <= i <= |keys| && fs.Valid()
      invariant SidecarsWritten(m0, thing, dir, keys[..i], c) == (fs.entries, Done)
    {
      SidecarsStep(m0, thing, dir, keys, i, c);
      var key := keys[i];
      if Truthy(Get(thing, key)) {
        var o := fs.CreateFile(dir + ["." + key + ".json"], c.pretty(Single(key, thing.fields[key])), false);
        if o.Failed? {
          SidecarsStuck(m0, thing, dir, keys, i + 1, c);
          return o;
        }
      }
      i := i + 1;
    }
    assert keys[..i] == keys;
    r := Done;
    if Truthy(Get(thing, "event")) {
      r := WriteEventFiles(fs, dir, thing.fields["event"], c);
    }
  }

  /** `traverse(thing, ancestors, options)`. */
  method Traverse(fs: FileSystem, thing: Json, ancestors: seq<string>, opts: Options, c: Codec) returns (r: Outcome)
    requires fs.Valid()
    modifies fs
    ensures fs.Valid()
    ensures (fs.entries, r) == Export(old(fs.entries), thing, ancestors, opts, c)
  {
    var name := NodeName(thing, ancestors);
    if name.Err? {
      return Failed(name.error);
    }
    r := TraverseNode(fs, thing, name.value, ancestors, opts, c);
  }

  /** The body of `traverse` once the node's name is known. */
  method TraverseNode(fs: FileSystem, thing: Json, name: string, ancestors: seq<string>, opts: Options, c: Codec) returns (r: Outcome)
    requires fs.Valid()
    modifies fs
    ensures fs.Valid()
    ensures (fs.entries, r) == ExportNode(old(fs.entries), thing, name, ancestors, opts, c)
    decreases thing, 2, 0
  {
    if '/' in name && !opts.substituteSlashes {
      return Failed(SlashInName(name));
    }
    var dir := ancestors + [Sanitize(name)];
    r := Done;
    if Truthy(Get(thing, "item")) {
      r := TraverseFolder(fs, thing, ancestors, dir, opts, c);
      if r.Failed? {
        return;
      }
    }
    if Truthy(Get(thing, "request")) {
      r := TraverseRequest(fs, thing, dir, c);
    }
  }

  /** A node's directory. */
  method MakeItemDir(fs: FileSystem, dir: Path) returns (r: Outcome)
    requires fs.Valid()
    modifies fs
    ensures fs.Valid()
    ensures (fs.entries, r) == CreateItemDir(old(fs.entries), dir)
  {
    if dir != [] && IsDotName(dir[|dir| - 1]) {
      return Failed(AlreadyExists(dir));
    }
    r := fs.CreateDir(dir);
  }

  /** A folder: its directory, the root files, the loop over its items, its `.meta.json`. */
  method TraverseFolder(fs: FileSystem, thing: Json, ancestors: seq<string>, dir: Path, opts: Options, c: Codec) returns (r: Outcome)
    requires Truthy(Get(thing, "item"))
    requires fs.Valid()
    modifies fs
    ensures fs.Valid()
    ensures (fs.entries, r) == ExportFolder(old(fs.entries), thing, ancestors, dir, opts, c)
    decreases thing, 1, 0
  {
    r := MakeItemDir(fs, dir);
    if r.Failed? {
      return;
    }
    if ancestors == [] {
      r := WriteRootFiles(fs, thing, dir, c);
      if r.Failed? {
        return;
      }
    }
    var item := thing.fields["item"];
    if !item.JArr? {
      return Failed(TypeError("item has no forEach"));
    }
    var elementOrder;
    elementOrder, r := TraverseItems(fs, thing, dir, opts, c);
    if r.Failed? {
      return;
    }
    r := fs.CreateFile(dir + [".meta.json"], c.pretty(FolderMeta(thing, elementOrder)), false);
  }

  /** The loop over a folder's items (lines 177-186): each gets its final name, its
      directory name joins `elementOrder`, and it is traversed. */
  method TraverseItems(fs: FileSystem, thing: Json, dir: Path, opts: Options, c: Codec) returns (elementOrder: seq<string>, r: Outcome)
    requires HasItems(thing)
    requires fs.Valid()
    modifies fs
    ensures fs.Valid()
    ensures var st := ExportItems(thing, |Items(thing)|, old(fs.entries), dir, opts, c);
            fs.entries == st.m && r == st.outcome && (r.Done? ==> elementOrder == st.order)
    decreases thing, 0, |Items(thing)| + 1
  {
    ghost var m0 := fs.entries;
    var items := thing.fields["item"].elems;
    var elementMap: set<string> := {};
    elementOrder := [];
    var i := 0;
    while i < |items|
      invariant 0 <= i <= |items| && fs.Valid()
      invariant ExportItems(thing, i, m0, dir, opts, c) == ItemsState(fs.entries, elementMap, elementOrder, Done)
    {
      var o;
      elementMap, elementOrder, o := TraverseItem(fs, thing, i, m0, elementMap, elementOrder, dir, opts, c);
      if o.Failed? {
        ItemsStuck(thing, i + 1, |items|, m0, dir, opts, c);
        return elementOrder, o;
      }
      i := i + 1;
    }
    r := Done;
  }

  /** One round of the loop over items: the `elementMap` test, the push onto
      `elementOrder` and the recursive `traverse`. */
  method TraverseItem(fs: FileSystem, thing: Json, i: nat, ghost m0: Entries, elementMap: set<string>, elementOrder: seq<string>,
                      dir: Path, opts: Options, c: Codec)
    returns (elementMap': set<string>, elementOrder': seq<string>, r: Outcome)
    requires HasItems(thing) && i < |Items(thing)|
    requires fs.Valid()
    requires ExportItems(thing, i, m0, dir, opts, c) == ItemsState(fs.entries, elementMap, elementOrder, Done)
    modifies fs
    ensures fs.Valid()
    ensures ExportItems(thing, i + 1, m0, dir, opts, c) == ItemsState(fs.entries, elementMap', elementOrder', r)
    decreases thing, 0, 0
  {
    var element := thing.fields["item"].elems[i];
    var elementName := Get(element, "name");
    if elementName.None? || !elementName.value.JStr? {
      return elementMap, elementOrder, Failed(TypeError("name has no replace"));
    }
    var final := NextName(elementMap, elementName.value.s);
    elementMap' := elementMap + {final};
    elementOrder' := elementOrder + [Sanitize(final)];
    r := TraverseNode(fs, element, final, dir, opts, c);
    ItemsStep(thing, i, m0, dir, opts, c);
  }

  /** A request: its directory, `request.json` (body transformed), events, `response.json`. */
  method TraverseRequest(fs: FileSystem, thing: Json, dir: Path, c: Codec) returns (r: Outcome)
    requires Truthy(Get(thing, "request"))
    requires fs.Valid()
    modifies fs
    ensures fs.Valid()
    ensures (fs.entries, r) == ExportRequest(old(fs.entries), thing, dir, c)
  {
    r := MakeItemDir(fs, dir);
    if r.Failed? {
      return;
    }
    var request := FormatBody(thing.fields["request"], c);
    if request.Err? {
      return Failed(request.error);
    }
    r := fs.CreateFile(dir + ["request.json"], c.pretty(request.value), false);
    if r.Failed? {
      return;
    }
    if Truthy(Get(thing, "event")) {
      r := WriteEventFiles(fs, dir, thing.fields["event"], c);
      if r.Failed? {
        return;
      }
    }
    if Truthy(Get(thing, "response")) {
      r := fs.CreateFile(dir + ["response.json"], c.pretty(thing.fields["response"]), false);
    }
  }
}

=== FILE: filestore.dfy ===
/** An in-memory filesystem: a map from paths to directories and files. The pure functions
    say what `fs.mkdirSync`, `fs.writeFileSync`, `fs.rmSync` and `fs.readFileSync` do to it;
    the class `FileSystem` holds the one mutable filesystem the codec works on. */
module FileStore {
  import opened Base

  datatype Node = Dir | File(content: string)

  type Entries = map<Path, Node>

  function Parent(p: Path): Path
    requires |p| > 0
  {
    p[..|p| - 1]
  }

  /** The working directory `[]` always exists and is a directory. */
  predicate Exists(m: Entries, p: Path) {
    p == [] || p in m
  }

  predicate IsDir(m: Entries, p: Path) {
    p == [] || (p in m && m[p].Dir?)
  }

  /** Every entry hangs below a directory: no entry without its parent directory. */
  ghost predicate WellFormed(m: Entries) {
    forall p :: p in m ==> |p| > 0 && IsDir(m, Parent(p))
  }

  /** Everything `m0` holds is still there, unchanged, in `m`. */
  ghost predicate Keeps(m0: Entries, m: Entries) {
    forall p :: p in m0 ==> p in m && m[p] == m0[p]
  }

  /** Every directory of `m` is still a directory in `m'`. */
  ghost predicate DirsKept(m: Entries, m': Entries) {
    forall p :: IsDir(m, p) ==> IsDir(m', p)
  }

  /** The growth an export step may cause: directories stay, and when `m0` (the tree
      before the whole export) is well formed and still intact, it stays intact. */
  ghost predicate Grows(m0: Entries, m: Entries, m': Entries) {
    DirsKept(m, m') && (WellFormed(m0) && Keeps(m0, m) ==> Keeps(m0, m'))
  }

  /** No proper ancestor of `p` is a file. */
  predicate NoFileAbove(m: Entries, p: Path) {
    forall k :: 0 < k < |p| ==> IsDir(m, p[..k]) || p[..k] !in m
  }

  /** `createDir`: refuses an existing path, otherwise makes it and its missing ancestors
      (`recursive: true`). */
  function Mkdir(m: Entries, p: Path): (r: (Entries, Outcome))
    ensures r.1.Done? <==> !Exists(m, p) && NoFileAbove(m, p)
    ensures r.1 == Failed(AlreadyExists(p)) <==> Exists(m, p)
    ensures r.1.Failed? ==> r.0 == m
    ensures r.1.Done? ==> IsDir(r.0, p) && Keeps(m, r.0)
    ensures r.1.Done? ==> forall q :: q in r.0 && q !in m ==> q <= p
  {
    if Exists(m, p) then (m, Failed(AlreadyExists(p)))
    else if !NoFileAbove(m, p) then (m, Failed(NotADirectory(p)))
    else
      assert p[..|p|] == p;
      (m + map k | 0 < k <= |p| && p[..k] !in m :: p[..k] := Dir, Done)
  }

  /** `fs.writeFileSync`: writes (or overwrites) a file inside an existing directory. */
  function WriteFile(m: Entries, p: Path, text: string): (r: (Entries, Outcome))
    ensures r.1.Done? <==> |p| > 0 && IsDir(m, Parent(p)) && !IsDir(m, p)
    ensures r.1.Failed? ==> r.0 == m
    ensures r.1.Done? ==> r.0 == m[p := File(text)]
  {
    if IsDir(m, p) then (m, Failed(IsADirectory(p)))
    else if !IsDir(m, Parent(p)) then (m, Failed(NoSuchFile(p)))
    else (m[p := File(text)], Done)
  }

  /** `createFile`: the content plus a newline unless `skipTrailingNewLine` is set. */
  function CreateFileAt(m: Entries, p: Path, content: string, skipTrailingNewLine: bool): (r: (Entries, Outcome))
  {
    WriteFile(m, p, content + (if skipTrailingNewLine then "" else "\n"))
  }

  /** `fs.rmSync(p, {recursive: true, force: true})`: `p` and everything below it go;
      a missing path is not an error. */
  function Remove(m: Entries, p: Path): (r: Entries)
    ensures forall q :: q in r <==> q in m && !(p <= q)
    ensures forall q :: q in r ==> r[q] == m[q]
  {
    map q | q in m && !(p <= q) :: m[q]
  }

  /** `fs.readFileSync(p).toString()`. */
  function ReadFile(m: Entries, p: Path): (r: Result<string>)
    ensures r.Ok? <==> p in m && m[p].File?
    ensures r.Ok? ==> r.value == m[p].content
  {
    if p in m && m[p].File? then Ok(m[p].content)
    else if IsDir(m, p) then Err(IsADirectory(p))
    else Err(NoSuchFile(p))
  }

  lemma MkdirKeepsWellFormed(m: Entries, p: Path)
    requires WellFormed(m)
    ensures WellFormed(Mkdir(m, p).0)
  {
    var r := Mkdir(m, p).0;
    if Mkdir(m, p).1.Done? {
      forall q | q in r ensures |q| > 0 && IsDir(r, Parent(q)) {
        if q in m {
          assert IsDir(m, Parent(q));
        } else {
          var k := |q|;
          assert q == p[..k];
          assert Parent(q) == p[..k - 1];
          if k - 1 > 0 {
            assert IsDir(m, p[..k - 1]) || p[..k - 1] !in m;
          }
        }
      }
    }
  }

  lemma WriteKeepsWellFormed(m: Entries, p: Path, text: string)
    requires WellFormed(m)
    ensures WellFormed(WriteFile(m, p, text).0)
  {
    var r := WriteFile(m, p, text).0;
    if WriteFile(m, p, text).1.Done? {
      forall q | q in r ensures |q| > 0 && IsDir(r, Parent(q)) {
        if q != p {
          assert IsDir(m, Parent(q));
          assert Parent(q) != p;
        }
      }
    }
  }

  lemma RemoveKeepsWellFormed(m: Entries, p: Path)
    requires WellFormed(m)
    ensures WellFormed(Remove(m, p))
  {
    var r := Remove(m, p);
    forall q | q in r ensures |q| > 0 && IsDir(r, Parent(q)) {
      assert IsDir(m, Parent(q));
      if Parent(q) != [] {
        assert !(p <= Parent(q));
      }
    }
  }

  /** The one filesystem the codec reads and changes. */
  class FileSystem {
    var entries: Entries

    ghost predicate Valid()
      reads this
    {
      WellFormed(entries)
    }

    constructor (initial: Entries)
      requires WellFormed(initial)
      ensures Valid() && entries == initial
    {
      entries := initial;
    }

    /** `createDir` (lines 56-64). */
    method CreateDir(p: Path) returns (r: Outcome)
      requires Valid()
      modifies this
      ensures Valid()
      ensures (entries, r) == Mkdir(old(entries), p)
    {
      MkdirKeepsWellFormed(entries, p);
      var next := Mkdir(entries, p);
      entries, r := next.0, next.1;
    }

    /** `createFile` (lines 67-70). */
    method CreateFile(p: Path, content: string, skipTrailingNewLine: bool) returns (r: Outcome)
      requires Valid()
      modifies this
      ensures Valid()
      ensures (entries, r) == CreateFileAt(old(entries), p, content, skipTrailingNewLine)
    {
      WriteKeepsWellFormed(entries, p, content + (if skipTrailingNewLine then "" else "\n"));
      var next := CreateFileAt(entries, p, content, skipTrailingNewLine);
      entries, r := next.0, next.1;
    }

    /** `fs.rmSync(p, {recursive: true, force: true})`. */
    method RemoveTree(p: Path)
      requires Valid()
      modifies this
      ensures Valid()
      ensures entries == Remove(old(entries), p)
    {
      RemoveKeepsWellFormed(entries, p);
      entries := Remove(entries, p);
    }
  }
}

=== FILE: folder_props.dfy ===
/** What `createPostmanFolder` and `removePostmanFolder` promise: the parent's
    `childrenOrder` gains the folder's name once and loses every copy of it, the rest of
    the parent's `.meta.json` is dropped, creating twice is creating once, a failure
    leaves no half-made folder, and removing what was just created gives the parent its
    `childrenOrder` back. */
module FolderProperties {
  import opened Base
  import opened Json
  import opened FileStore
  import opened Folders

  // ---- childrenOrder arithmetic ----

  /** Filtering distributes over concatenation: the elements kept keep their order. */
  lemma {:induction false} RemoveAllConcat<T(!new)>(a: seq<T>, b: seq<T>, x: T)
    ensures RemoveAll(a + b, x) == RemoveAll(a, x) + RemoveAll(b, x)
  {
    if a == [] {
      assert a + b == b;
    } else {
      assert (a + b)[1..] == a[1..] + b;
      RemoveAllConcat(a[1..], b, x);
    }
  }

  /** Filtering changes the order exactly when the name is in it. */
  lemma {:induction false} RemoveAllUnchanged<T(!new)>(s: seq<T>, x: T)
    ensures RemoveAll(s, x) == s <==> x !in s
  {
    if s != [] && x !in s {
      RemoveAllUnchanged(s[1..], x);
    }
  }

  /** Taking a name out after putting it in is the same as taking it out. */
  lemma RemoveAfterAppend<T(!new)>(s: seq<T>, x: T)
    ensures RemoveAll(AppendIfAbsent(s, x), x) == RemoveAll(s, x)
  {
    if x !in s {
      RemoveAllConcat(s, [x], x);
      assert RemoveAll([x], x) == [];
    }
  }

  /** Appending twice is appending once. */
  lemma AppendIdempotent<T(!new)>(s: seq<T>, x: T)
    ensures AppendIfAbsent(AppendIfAbsent(s, x), x) == AppendIfAbsent(s, x)
  {
  }

  /** A `childrenOrder` that `AddChild` accepted lists the name and is left as it is by a
      second `AddChild`. */
  lemma AddChildTwice(order: Option<Json>, name: string)
    requires AddChild(order, name).Ok?
    ensures AddChild(Some(AddChild(order, name).value), name) == AddChild(order, name)
  {
    if order.value.JArr? {
      AppendIdempotent(order.value.elems, JStr(name));
    }
  }

  // ---- the filesystem around a folder ----

  /** Every ancestor of a directory is a directory. */
  lemma {:induction false} AncestorsAreDirs(m: Entries, p: Path)
    requires WellFormed(m) && IsDir(m, p)
    ensures forall k :: 0 <= k <= |p| ==> IsDir(m, p[..k])
  {
    if p != [] {
      assert IsDir(m, Parent(p));
      AncestorsAreDirs(m, Parent(p));
      forall k | 0 <= k <= |p| ensures IsDir(m, p[..k]) {
        if k < |p| {
          assert p[..k] == Parent(p)[..k];
        } else {
          assert p[..k] == p;
        }
      }
    }
  }

  /** Making a missing folder inside an existing directory adds that folder and nothing
      else. */
  lemma MkdirChild(m: Entries, folder: Path)
    requires WellFormed(m) && folder != [] && IsDir(m, Parent(folder)) && folder !in m
    ensures Mkdir(m, folder) == (m[folder := Dir], Done)
  {
    AncestorsAreDirs(m, Parent(folder));
    forall k | 0 < k < |folder| ensures folder[..k] in m && m[folder[..k]].Dir? {
      assert folder[..k] == Parent(folder)[..k];
    }
    assert NoFileAbove(m, folder);
    OnlyFolderMissing(m, folder);
    assert m + map[folder := Dir] == m[folder := Dir];
  }

  /** The directories `Mkdir` adds when every proper ancestor is already there. */
  lemma OnlyFolderMissing(m: Entries, folder: Path)
    requires folder != [] && folder !in m
    requires forall k :: 0 < k < |folder| ==> folder[..k] in m
    ensures (map k | 0 < k <= |folder| && folder[..k] !in m :: folder[..k] := Dir) == map[folder := Dir]
  {
    var added := map k | 0 < k <= |folder| && folder[..k] !in m :: folder[..k] := Dir;
    assert folder[..|folder|] == folder;
    assert folder in added;
    forall q | q in added ensures q == folder {
      var k :| 0 < k <= |folder| && folder[..k] !in m && q == folder[..k];
    }
  }

  /** `ReadChildrenOrder` sees only the `.meta.json` entry. */
  lemma SameMetaSameOrder(m: Entries, m': Entries, dir: Path, c: Codec)
    requires MetaPath(dir) in m <==> MetaPath(dir) in m'
    requires MetaPath(dir) in m ==> m[MetaPath(dir)] == m'[MetaPath(dir)]
    ensures ReadChildrenOrder(m, dir, c) == ReadChildrenOrder(m', dir, c)
  {
    assert ReadFile(m, MetaPath(dir)) == ReadFile(m', MetaPath(dir));
  }

  /** The parent's `.meta.json` lies under the folder exactly when the folder is named
      `.meta.json`; the parent never does. */
  lemma MetaOutsideFolder(folder: Path)
    requires folder != []
    ensures folder <= MetaPath(Parent(folder)) <==> folder[|folder| - 1] == ".meta.json"
    ensures !(folder <= Parent(folder))
  {
    if folder[|folder| - 1] == ".meta.json" {
      assert folder == Parent(folder) + [folder[|folder| - 1]];
    }
  }

  // ---- createPostmanFolder ----

  /** A successful listing writes the parent's grown `.meta.json` and the folder's
      empty one, and changes nothing else. */
  lemma ListFolderEffect(m: Entries, folder: Path, c: Codec)
    requires folder != [] && ListFolder(m, folder, c).1.Done?
    ensures var parent := Parent(folder);
            var meta := GrownMeta(m, parent, folder[|folder| - 1], c);
            && meta.Ok?
            && ListFolder(m, folder, c).0 ==
                 m[MetaPath(parent) := File(c.pretty(meta.value) + "\n")]
                  [MetaPath(folder) := File(c.pretty(OrderMeta(JArr([]))) + "\n")]
  {
  }

  /** What a successful `createPostmanFolder` did: the parent was a collection directory,
      and the new filesystem is the old one with the folder cleared and made again, the
      parent's `.meta.json` rewritten and an empty `.meta.json` in the folder. */
  lemma CreateFolderEffect(m: Entries, folder: Path, c: Codec)
    requires WellFormed(m) && folder != []
    requires CreateFolder(m, folder, c).1.Done?
    ensures var parent := Parent(folder);
            var name := folder[|folder| - 1];
            && AssertCollectionDir(m, parent).Done? && name != ".meta.json"
            && GrownMeta(m, parent, name, c).Ok?
            && CreateFolder(m, folder, c).0 ==
                 Remove(m, folder)[folder := Dir]
                   [MetaPath(parent) := File(c.pretty(GrownMeta(m, parent, name, c).value) + "\n")]
                   [MetaPath(folder) := File(c.pretty(OrderMeta(JArr([]))) + "\n")]
  {
    var parent := Parent(folder);
    var m1 := Remove(m, folder);
    assert AssertCollectionDir(m1, parent).Done?;
    assert CreateFolder(m, folder, c) == MakeFolder(m1, folder, c);
    assert MetaPath(parent) in m1;
    MetaOutsideFolder(folder);
    RemoveKeepsWellFormed(m, folder);
    MkdirChild(m1, folder);
    var m2 := m1[folder := Dir];
    assert MakeFolder(m1, folder, c) == ListFolder(m2, folder, c);
    ListFolderEffect(m2, folder, c);
    SameMetaSameOrder(m2, m, parent, c);
  }

  /** The two `.meta.json` files a successful `createPostmanFolder` leaves. */
  lemma CreatedMetaFiles(m: Entries, folder: Path, c: Codec)
    requires WellFormed(m) && folder != []
    requires CreateFolder(m, folder, c).1.Done?
    ensures var r := CreateFolder(m, folder, c).0;
            var parent := Parent(folder);
            var meta := GrownMeta(m, parent, folder[|folder| - 1], c);
            && meta.Ok?
            && MetaPath(parent) in r && r[MetaPath(parent)] == File(c.pretty(meta.value) + "\n")
            && MetaPath(folder) in r && r[MetaPath(folder)] == File(c.pretty(OrderMeta(JArr([]))) + "\n")
  {
    CreateFolderEffect(m, folder, c);
    assert |MetaPath(Parent(folder))| != |MetaPath(folder)|;
  }

  /** A `childrenOrder` array gains the name unless it lists it already. */
  lemma GrownFromArray(m: Entries, dir: Path, name: string, order: seq<Json>, c: Codec)
    requires ReadChildrenOrder(m, dir, c) == Ok(Some(JArr(order)))
    ensures GrownMeta(m, dir, name, c) == Ok(OrderMeta(JArr(AppendIfAbsent(order, JStr(name)))))
  {
  }

  /** With a lawful JSON codec and a `childrenOrder` array, the parent's `.meta.json`
      reads back as `{childrenOrder}` alone — every other key, `description` included, is
      gone — with the folder's name appended unless it was already listed. */
  lemma CreatedParentMeta(m: Entries, folder: Path, order: seq<Json>, c: Codec)
    requires Lawful(c) && WellFormed(m) && folder != []
    requires CreateFolder(m, folder, c).1.Done?
    requires ReadChildrenOrder(m, Parent(folder), c) == Ok(Some(JArr(order)))
    ensures ReadMeta(CreateFolder(m, folder, c).0, Parent(folder), c) ==
              Ok(OrderMeta(JArr(AppendIfAbsent(order, JStr(folder[|folder| - 1])))))
  {
    CreatedMetaFiles(m, folder, c);
    GrownFromArray(m, Parent(folder), folder[|folder| - 1], order, c);
    MetaReadsBack(CreateFolder(m, folder, c).0, Parent(folder),
      OrderMeta(JArr(AppendIfAbsent(order, JStr(folder[|folder| - 1])))), c);
  }

  /** With a lawful JSON codec, the new folder's own `.meta.json` reads back as
      `{childrenOrder: []}`. */
  lemma CreatedFolderMeta(m: Entries, folder: Path, c: Codec)
    requires Lawful(c) && WellFormed(m) && folder != []
    requires CreateFolder(m, folder, c).1.Done?
    ensures ReadMeta(CreateFolder(m, folder, c).0, folder, c) == Ok(OrderMeta(JArr([])))
  {
    CreatedMetaFiles(m, folder, c);
    MetaReadsBack(CreateFolder(m, folder, c).0, folder, OrderMeta(JArr([])), c);
  }

  /** A `.meta.json` written by `createFile` with `JSON.stringify(v, null, 2)` reads back
      as `v`. */
  lemma MetaReadsBack(m: Entries, dir: Path, v: Json, c: Codec)
    requires Lawful(c) && MetaPath(dir) in m && m[MetaPath(dir)] == File(c.pretty(v) + "\n")
    ensures ReadMeta(m, dir, c) == Ok(v)
  {
    assert ReadFile(m, MetaPath(dir)) == Ok(m[MetaPath(dir)].content);
  }

  /** Creating a folder twice is creating it once. */
  lemma CreateFolderIdempotent(m: Entries, folder: Path, c: Codec)
    requires Lawful(c) && WellFormed(m) && folder != []
    requires CreateFolder(m, folder, c).1.Done?
    ensures CreateFolder(CreateFolder(m, folder, c).0, folder, c) == CreateFolder(m, folder, c)
  {
    var parent := Parent(folder);
    var name := folder[|folder| - 1];
    CreateFolderEffect(m, folder, c);
    RecreateClears(m, folder, c);
    var r := CreateFolder(m, folder, c).0;
    var n1 := Remove(r, folder);
    assert CreateFolder(r, folder, c) == MakeFolder(n1, folder, c);
    MkdirChild(n1, folder);
    var n2 := n1[folder := Dir];
    assert MakeFolder(n1, folder, c) == ListFolder(n2, folder, c);
    GrownAgain(m, n2, parent, name, c);
    ListFolderSucceeds(n2, folder, c);
    var text := c.pretty(GrownMeta(m, parent, name, c).value) + "\n";
    Rewritten(Remove(m, folder), MetaPath(parent), File(text), folder, Dir);
  }

  /** Writing a file again after other changes is writing it once, last. */
  lemma Rewritten(m: Entries, p: Path, f: Node, q: Path, g: Node)
    requires p != q
    ensures m[p := f][q := g][p := f] == m[q := g][p := f]
  {
  }

  /** Listing succeeds in a fresh, empty folder whose parent has a readable
      `.meta.json` that `AddChild` accepts. */
  lemma ListFolderSucceeds(m: Entries, folder: Path, c: Codec)
    requires folder != [] && GrownMeta(m, Parent(folder), folder[|folder| - 1], c).Ok?
    requires IsDir(m, Parent(folder)) && IsDir(m, folder) && MetaPath(folder) !in m
    ensures ListFolder(m, folder, c) ==
              (m[MetaPath(Parent(folder)) := File(c.pretty(GrownMeta(m, Parent(folder), folder[|folder| - 1], c).value) + "\n")]
                [MetaPath(folder) := File(c.pretty(OrderMeta(JArr([]))) + "\n")], Done)
  {
    assert |MetaPath(Parent(folder))| != |MetaPath(folder)|;
  }

  /** Clearing the folder's path after a successful creation leaves the old filesystem
      with the folder cleared and the parent's `.meta.json` rewritten, in which the
      folder can be made again. */
  lemma RecreateClears(m: Entries, folder: Path, c: Codec)
    requires WellFormed(m) && folder != []
    requires CreateFolder(m, folder, c).1.Done?
    ensures var parent := Parent(folder);
            var n := Remove(CreateFolder(m, folder, c).0, folder);
            && GrownMeta(m, parent, folder[|folder| - 1], c).Ok?
            && n == Remove(m, folder)[MetaPath(parent) := File(c.pretty(GrownMeta(m, parent, folder[|folder| - 1], c).value) + "\n")]
            && WellFormed(n) && IsDir(n, parent) && folder !in n
            && AssertCollectionDir(n, parent).Done?
  {
    var parent := Parent(folder);
    CreateFolderEffect(m, folder, c);
    MetaOutsideFolder(folder);
    var m1 := Remove(m, folder);
    var text := c.pretty(GrownMeta(m, parent, folder[|folder| - 1], c).value) + "\n";
    var n := Remove(CreateFolder(m, folder, c).0, folder);
    ClearAgain(m1, folder, MetaPath(parent), File(text), File(c.pretty(OrderMeta(JArr([]))) + "\n"));
    RemoveKeepsWellFormed(m, folder);
    WriteKeepsWellFormed(m1, MetaPath(parent), text);
    assert m1[MetaPath(parent)].File?;
    assert WriteFile(m1, MetaPath(parent), text).0 == n;
  }

  /** Clearing a path that was cleared and then filled again gives back the cleared
      map, plus whatever was written outside the path. */
  lemma ClearAgain(m: Entries, folder: Path, outside: Path, f1: Node, f2: Node)
    requires folder != [] && !(folder <= outside)
    requires forall q :: q in m ==> !(folder <= q)
    ensures Remove(m[folder := Dir][outside := f1][MetaPath(folder) := f2], folder) == m[outside := f1]
  {
    var e := m[folder := Dir][outside := f1][MetaPath(folder) := f2];
    assert folder <= MetaPath(folder);
    forall q ensures q in Remove(e, folder) <==> q in m[outside := f1] {
    }
  }

  /** A parent `.meta.json` already rewritten by a creation is rewritten to the same
      value by the next one. */
  lemma GrownAgain(m: Entries, n: Entries, dir: Path, name: string, c: Codec)
    requires Lawful(c) && GrownMeta(m, dir, name, c).Ok?
    requires MetaPath(dir) in n && n[MetaPath(dir)] == File(c.pretty(GrownMeta(m, dir, name, c).value) + "\n")
    ensures GrownMeta(n, dir, name, c) == GrownMeta(m, dir, name, c)
  {
    var order := ReadChildrenOrder(m, dir, c).value;
    var grown := AddChild(order, name).value;
    MetaReadsBack(n, dir, OrderMeta(grown), c);
    assert ReadChildrenOrder(n, dir, c) == Ok(Some(grown));
    AddChildTwice(order, name);
  }

  /** A failed `createPostmanFolder` leaves nothing at or under the folder's path. */
  lemma CreateFailureLeavesNoFolder(m: Entries, folder: Path, c: Codec)
    requires folder != [] && CreateFolder(m, folder, c).1.Failed?
    ensures forall q :: q in CreateFolder(m, folder, c).0 ==> !(folder <= q)
  {
  }

  // ---- removePostmanFolder ----

  /** Whatever else happens, once the parent passed the guard nothing is left at or
      under the folder's path; on success the only other change is the parent's
      `.meta.json`. */
  lemma RemoveFolderEffect(m: Entries, folder: Path, c: Codec)
    requires folder != [] && AssertCollectionDir(m, Parent(folder)).Done?
    ensures forall q :: q in RemoveFolder(m, folder, c).0 ==> !(folder <= q)
    ensures RemoveFolder(m, folder, c).1.Done? ==>
              var parent := Parent(folder);
              && ShrunkMeta(Remove(m, folder), parent, folder[|folder| - 1], c).Ok?
              && RemoveFolder(m, folder, c).0 ==
                   Remove(m, folder)[MetaPath(parent) :=
                     File(c.pretty(ShrunkMeta(Remove(m, folder), parent, folder[|folder| - 1], c).value) + "\n")]
  {
  }

  /** With a lawful codec, a `childrenOrder` array and a folder not named `.meta.json`,
      removal succeeds and the parent's `childrenOrder` reads back with every copy of the
      folder's name filtered out and nothing else. */
  lemma RemovedMetaContents(m: Entries, folder: Path, order: seq<Json>, c: Codec)
    requires Lawful(c) && folder != [] && folder[|folder| - 1] != ".meta.json"
    requires AssertCollectionDir(m, Parent(folder)).Done?
    requires ReadChildrenOrder(m, Parent(folder), c) == Ok(Some(JArr(order)))
    ensures RemoveFolder(m, folder, c).1.Done?
    ensures ReadMeta(RemoveFolder(m, folder, c).0, Parent(folder), c) ==
              Ok(OrderMeta(JArr(RemoveAll(order, JStr(folder[|folder| - 1])))))
  {
    var parent := Parent(folder);
    var shrunk := OrderMeta(JArr(RemoveAll(order, JStr(folder[|folder| - 1]))));
    MetaOutsideFolder(folder);
    SameMetaSameOrder(Remove(m, folder), m, parent, c);
    assert ShrunkMeta(Remove(m, folder), parent, folder[|folder| - 1], c) == Ok(shrunk);
    RemoveFolderSteps(m, folder, c);
    MetaReadsBack(RemoveFolder(m, folder, c).0, parent, shrunk, c);
  }

  /** Both commands refuse a parent that is not a collection directory before touching
      its `.meta.json`; creation has already cleared the folder's path by then. */
  lemma NotCollectionDirRefused(m: Entries, folder: Path, c: Codec)
    requires folder != [] && folder[|folder| - 1] != ".meta.json"
    requires AssertCollectionDir(m, Parent(folder)).Failed?
    ensures CreateFolder(m, folder, c) == (Remove(m, folder), AssertCollectionDir(m, Parent(folder)))
    ensures RemoveFolder(m, folder, c) == (m, AssertCollectionDir(m, Parent(folder)))
  {
    MetaOutsideFolder(folder);
    var parent := Parent(folder);
    var m1 := Remove(m, folder);
    assert IsDir(m1, parent) == IsDir(m, parent);
    assert (MetaPath(parent) in m1) == (MetaPath(parent) in m);
    assert AssertDirectoryExistence(m1, parent) == AssertDirectoryExistence(m, parent);
  }

  // ---- the two together ----

  /** Removing a folder just created succeeds and leaves the filesystem as it was before
      the creation, except that nothing is left at or under the folder's path and the
      parent's `.meta.json` holds `{childrenOrder}` with every copy of the folder's name
      filtered out. */
  lemma CreateThenRemove(m: Entries, folder: Path, order: seq<Json>, c: Codec)
    requires Lawful(c) && WellFormed(m) && folder != []
    requires CreateFolder(m, folder, c).1.Done?
    requires ReadChildrenOrder(m, Parent(folder), c) == Ok(Some(JArr(order)))
    ensures RemoveFolder(CreateFolder(m, folder, c).0, folder, c) ==
              (Remove(m, folder)[MetaPath(Parent(folder)) :=
                 File(c.pretty(OrderMeta(JArr(RemoveAll(order, JStr(folder[|folder| - 1]))))) + "\n")], Done)
  {
    var parent := Parent(folder);
    var name := folder[|folder| - 1];
    CreatedMetaFiles(m, folder, c);
    RecreateClears(m, folder, c);
    var grown := OrderMeta(JArr(AppendIfAbsent(order, JStr(name))));
    GrownFromArray(m, parent, name, order, c);
    var r := CreateFolder(m, folder, c).0;
    var n := Remove(r, folder);
    assert AssertCollectionDir(r, parent).Done?;
    ShrunkAfterGrown(n, parent, name, order, c);
    RemoveFolderSteps(r, folder, c);
    var text := c.pretty(grown) + "\n";
    Overwritten(Remove(m, folder), MetaPath(parent), File(text),
      File(c.pretty(OrderMeta(JArr(RemoveAll(order, JStr(name))))) + "\n"));
  }

  /** Create-then-remove restores `childrenOrder`: a folder not listed before is not
      listed after, and the parent's `childrenOrder` reads back exactly as it was. */
  lemma CreateThenRemoveRestoresOrder(m: Entries, folder: Path, order: seq<Json>, c: Codec)
    requires Lawful(c) && WellFormed(m) && folder != []
    requires CreateFolder(m, folder, c).1.Done?
    requires ReadChildrenOrder(m, Parent(folder), c) == Ok(Some(JArr(order)))
    requires JStr(folder[|folder| - 1]) !in order
    ensures RemoveFolder(CreateFolder(m, folder, c).0, folder, c).1.Done?
    ensures ReadChildrenOrder(RemoveFolder(CreateFolder(m, folder, c).0, folder, c).0, Parent(folder), c) ==
              Ok(Some(JArr(order)))
    ensures ReadMeta(RemoveFolder(CreateFolder(m, folder, c).0, folder, c).0, Parent(folder), c) ==
              Ok(OrderMeta(JArr(order)))
  {
    var parent := Parent(folder);
    CreateThenRemove(m, folder, order, c);
    RemoveAllUnchanged(order, JStr(folder[|folder| - 1]));
    var after := Remove(m, folder)[MetaPath(parent) := File(c.pretty(OrderMeta(JArr(order))) + "\n")];
    MetaReadsBack(after, parent, OrderMeta(JArr(order)), c);
  }

  /** Overwriting a file is writing it once. */
  lemma Overwritten(m: Entries, p: Path, f: Node, g: Node)
    ensures m[p := f][p := g] == m[p := g]
  {
  }

  /** A parent `.meta.json` that lists the folder after `AddChild` loses the folder's
      name, and only that, through `DropChild`. */
  lemma ShrunkAfterGrown(n: Entries, dir: Path, name: string, order: seq<Json>, c: Codec)
    requires Lawful(c) && MetaPath(dir) in n
    requires n[MetaPath(dir)] == File(c.pretty(OrderMeta(JArr(AppendIfAbsent(order, JStr(name))))) + "\n")
    ensures ShrunkMeta(n, dir, name, c) == Ok(OrderMeta(JArr(RemoveAll(order, JStr(name)))))
  {
    var grown := JArr(AppendIfAbsent(order, JStr(name)));
    MetaReadsBack(n, dir, OrderMeta(grown), c);
    assert ReadChildrenOrder(n, dir, c) == Ok(Some(grown));
    RemoveAfterAppend(order, JStr(name));
  }

  /** Removal of a folder under a collection directory whose `.meta.json` survives the
      clearing and accepts `DropChild`: the folder goes and the `.meta.json` is
      rewritten. */
  lemma RemoveFolderSteps(m: Entries, folder: Path, c: Codec)
    requires folder != [] && AssertCollectionDir(m, Parent(folder)).Done?
    requires ShrunkMeta(Remove(m, folder), Parent(folder), folder[|folder| - 1], c).Ok?
    ensures RemoveFolder(m, folder, c) ==
              (Remove(m, folder)[MetaPath(Parent(folder)) :=
                 File(c.pretty(ShrunkMeta(Remove(m, folder), Parent(folder), folder[|folder| - 1], c).value) + "\n")], Done)
  {
    MetaOutsideFolder(folder);
  }
}

=== FILE: folders.dfy ===
/** The guards (lines 6-53) and the two commands that add a folder to, or take one out
    of, a collection directory on disk (lines 386-480). The functions say what each does
    to the filesystem, stopping where the source calls `process.exit(-1)`; the methods
    `CreatePostmanFolder` and `RemovePostmanFolder` do it step by step on a
    `FileSystem` and are proved to agree with them. */
module Folders {
  import opened Base
  import opened Json
  import opened FileStore

  /** `assertDirectoryExistence`: `readdirSync` succeeds on a directory only. */
  function AssertDirectoryExistence(m: Entries, dir: Path): (r: Outcome)
    ensures r.Done? <==> IsDir(m, dir)
    ensures r.Failed? ==> r.error.NotADirectory? || r.error.NoSuchFile?
  {
    if IsDir(m, dir) then Done
    else if dir in m then Failed(NotADirectory(dir))
    else Failed(NoSuchFile(dir))
  }

  /** `assertDirectoryAbsence`: stops when `readdirSync` succeeds; a file in the way
      makes `readdirSync` throw and so passes the guard. */
  function AssertDirectoryAbsence(m: Entries, dir: Path): (r: Outcome)
    ensures r.Done? <==> !IsDir(m, dir)
    ensures dir != [] && dir in m && m[dir].File? ==> r.Done?
  {
    if IsDir(m, dir) then Failed(AlreadyExists(dir)) else Done
  }

  /** `assertFileExistence`: `accessSync(file, R_OK)` succeeds on anything that exists,
      a directory included. */
  function AssertFileExistence(m: Entries, file: Path): (r: Outcome)
    ensures r.Done? <==> Exists(m, file)
    ensures r.Failed? ==> r == Failed(NoSuchFile(file))
  {
    if Exists(m, file) then Done else Failed(NoSuchFile(file))
  }

  /** `assertCollectionDir`: a directory holding a `.meta.json`. Both inner guards exit
      the process themselves, so their own failure is the outcome. */
  function AssertCollectionDir(m: Entries, dir: Path): (r: Outcome)
    ensures r.Done? <==> IsDir(m, dir) && dir + [".meta.json"] in m
  {
    var d := AssertDirectoryExistence(m, dir);
    if d.Failed? then d else AssertFileExistence(m, dir + [".meta.json"])
  }

  /** Appends `x` unless it is already there (`includes` then `push`). */
  function AppendIfAbsent<T(==,!new)>(s: seq<T>, x: T): (r: seq<T>)
    ensures x in r
    ensures forall y :: y in r <==> y in s || y == x
    ensures |s| <= |r| <= |s| + 1 && r[..|s|] == s
  {
    if x in s then s else s + [x]
  }

  /** Keeps every element other than `x`, in order (`filter(item => item !== x)`). */
  function RemoveAll<T(==,!new)>(s: seq<T>, x: T): (r: seq<T>)
    ensures x !in r
    ensures forall y :: y != x ==> (y in r <==> y in s)
    ensures |r| <= |s|
  {
    if s == [] then []
    else (if s[0] == x then [] else [s[0]]) + RemoveAll(s[1..], x)
  }

  /** String `includes`: `sub` occurs somewhere in `s`. */
  predicate Contains(s: string, sub: string) {
    exists i, j :: 0 <= i <= j <= |s| && s[i..j] == sub
  }

  /** The folder's name in `childrenOrder` after `includes`/`push` (lines 413-416). An
      array gains the name when it lacks it; a string has `includes` but no `push`;
      anything else, `undefined` included, has no `includes`. */
  function AddChild(order: Option<Json>, name: string): (r: Result<Json>)
    ensures r.Ok? && order.Some? && order.value.JArr? ==>
              r.value == JArr(AppendIfAbsent(order.value.elems, JStr(name)))
    ensures r.Ok? <==> order.Some? && (order.value.JArr? || (order.value.JStr? && Contains(order.value.s, name)))
  {
    match order
    case Some(JArr(elems)) => Ok(JArr(AppendIfAbsent(elems, JStr(name))))
    case Some(JStr(s)) =>
      if Contains(s, name) then Ok(JStr(s)) else Err(TypeError("childrenOrder has no push"))
    case _ => Err(TypeError("childrenOrder has no includes"))
  }

  /** The folder's name dropped from `childrenOrder` (line 467): only an array has
      `filter`. */
  function DropChild(order: Option<Json>, name: string): (r: Result<Json>)
    ensures r.Ok? <==> order.Some? && order.value.JArr?
    ensures r.Ok? ==> r.value.JArr? && JStr(name) !in r.value.elems
    ensures r.Ok? ==> forall y :: y != JStr(name) ==> (y in r.value.elems <==> y in order.value.elems)
  {
    if order.Some? && order.value.JArr? then Ok(JArr(RemoveAll(order.value.elems, JStr(name))))
    else Err(TypeError("childrenOrder has no filter"))
  }

  /** The rewritten `.meta.json`: `{childrenOrder}` and nothing else. */
  function OrderMeta(order: Json): (r: Json)
    ensures r.JObj? && r.fields.Keys == {"childrenOrder"} && r.fields["childrenOrder"] == order
  {
    JObj(map["childrenOrder" := order])
  }

  function MetaPath(dir: Path): Path {
    dir + [".meta.json"]
  }

  /** `JSON.parse(fs.readFileSync(dir/.meta.json))`. */
  function ReadMeta(m: Entries, dir: Path, c: Codec): (r: Result<Json>)
    ensures r.Ok? <==> MetaPath(dir) in m && m[MetaPath(dir)].File? && c.parse(m[MetaPath(dir)].content).Some?
    ensures r.Ok? ==> c.parse(m[MetaPath(dir)].content) == Some(r.value)
  {
    var text :- ReadFile(m, MetaPath(dir));
    ParseText(c, text, MetaPath(dir))
  }

  /** `JSON.parse(fs.readFileSync(dir/.meta.json)).childrenOrder`. */
  function ReadChildrenOrder(m: Entries, dir: Path, c: Codec): (r: Result<Option<Json>>)
    ensures r.Ok? ==> ReadMeta(m, dir, c).Ok? && r.value == Get(ReadMeta(m, dir, c).value, "childrenOrder")
  {
    var meta :- ReadMeta(m, dir, c);
    Prop(Some(meta), "childrenOrder")
  }

  /** The parent's `.meta.json` once the new folder is listed in it. */
  function GrownMeta(m: Entries, dir: Path, name: string, c: Codec): (r: Result<Json>)
  {
    var order :- ReadChildrenOrder(m, dir, c);
    var grown :- AddChild(order, name);
    Ok(OrderMeta(grown))
  }

  /** The parent's `.meta.json` once the removed folder is no longer listed in it. */
  function ShrunkMeta(m: Entries, dir: Path, name: string, c: Codec): (r: Result<Json>)
  {
    var order :- ReadChildrenOrder(m, dir, c);
    var shrunk :- DropChild(order, name);
    Ok(OrderMeta(shrunk))
  }

  /** `createPostmanFolder(folder)`: clears the path, checks that the parent is a
      collection directory, then makes and lists the folder. */
  function CreateFolder(m: Entries, folder: Path, c: Codec): (r: (Entries, Outcome))
  {
    if folder == [] then (m, Failed(EmptyPath))
    else
      var m1 := Remove(m, folder);
      var guard := AssertCollectionDir(m1, Parent(folder));
      if guard.Failed? then (m1, guard) else MakeFolder(m1, folder, c)
  }

  /** `createDir(folder)`; a failure exits with the filesystem as it is. */
  function MakeFolder(m: Entries, folder: Path, c: Codec): (r: (Entries, Outcome))
    requires folder != []
  {
    var (m1, made) := Mkdir(m, folder);
    if made.Failed? then (m1, made) else ListFolder(m1, folder, c)
  }

  /** Lists the new folder in the parent's `.meta.json` and gives it an empty one of its
      own. A failure removes the folder again; a parent `.meta.json` already rewritten
      stays rewritten. */
  function ListFolder(m: Entries, folder: Path, c: Codec): (r: (Entries, Outcome))
    requires folder != []
  {
    var parent := Parent(folder);
    var meta := GrownMeta(m, parent, folder[|folder| - 1], c);
    if meta.Err? then (Remove(m, folder), Failed(meta.error))
    else
      var (m1, wrote) := CreateFileAt(m, MetaPath(parent), c.pretty(meta.value), false);
      if wrote.Failed? then (Remove(m1, folder), wrote)
      else
        var (m2, wrote2) := CreateFileAt(m1, MetaPath(folder), c.pretty(OrderMeta(JArr([]))), false);
        if wrote2.Failed? then (Remove(m2, folder), wrote2)
        else (m2, Done)
  }

  /** `removePostmanFolder(folder)`: checks that the parent is a collection directory,
      removes the folder and drops its name from the parent's `.meta.json`. */
  function RemoveFolder(m: Entries, folder: Path, c: Codec): (r: (Entries, Outcome))
  {
    if folder == [] then (m, Failed(EmptyPath))
    else
      var parent := Parent(folder);
      var name := folder[|folder| - 1];
      var guard := AssertCollectionDir(m, parent);
      if guard.Failed? then (m, guard)
      else
        var m1 := Remove(m, folder);
        var meta := ShrunkMeta(m1, parent, name, c);
        if meta.Err? then (Remove(m1, folder), Failed(meta.error))
        else
          var (m2, wrote) := CreateFileAt(m1, MetaPath(parent), c.pretty(meta.value), false);
          if wrote.Failed? then (Remove(m2, folder), wrote)
          else (m2, Done)
  }

  /** `createPostmanFolder` (lines 386-442), step by step. */
  method CreatePostmanFolder(fs: FileSystem, folder: Path, c: Codec) returns (r: Outcome)
    requires fs.Valid()
    modifies fs
    ensures fs.Valid()
    ensures (fs.entries, r) == CreateFolder(old(fs.entries), folder, c)
  {
    if folder == [] {
      return Failed(EmptyPath);
    }
    var parent := folder[..|folder| - 1];
    var name := folder[|folder| - 1];
    fs.RemoveTree(folder);
    r := AssertCollectionDir(fs.entries, parent);
    if r.Failed? {
      return;
    }
    r := fs.CreateDir(folder);
    if r.Failed? {
      return;
    }
    var meta := GrownMeta(fs.entries, parent, name, c);
    if meta.Err? {
      fs.RemoveTree(folder);
      return Failed(meta.error);
    }
    r := fs.CreateFile(MetaPath(parent), c.pretty(meta.value), false);
    if r.Failed? {
      fs.RemoveTree(folder);
      return;
    }
    r := fs.CreateFile(MetaPath(folder), c.pretty(OrderMeta(JArr([]))), false);
    if r.Failed? {
      fs.RemoveTree(folder);
    }
  }

  /** `removePostmanFolder` (lines 444-480), step by step. */
  method RemovePostmanFolder(fs: FileSystem, folder: Path, c: Codec) returns (r: Outcome)
    requires fs.Valid()
    modifies fs
    ensures fs.Valid()
    ensures (fs.entries, r) == RemoveFolder(old(fs.entries), folder, c)
  {
    if folder == [] {
      return Failed(EmptyPath);
    }
    var parent := folder[..|folder| - 1];
    var name := folder[|folder| - 1];
    r := AssertCollectionDir(fs.entries, parent);
    if r.Failed? {
      return;
    }
    fs.RemoveTree(folder);
    var meta := ShrunkMeta(fs.entries, parent, name, c);
    if meta.Err? {
      fs.RemoveTree(folder);
      return Failed(meta.error);
    }
    r := fs.CreateFile(MetaPath(parent), c.pretty(meta.value), false);
    if r.Failed? {
      fs.RemoveTree(folder);
    }
  }
}

=== FILE: import_props.dfy ===
/** What `walkDirTree` recovers of what `traverse` wrote: sidecars, `request.json` (body
    restored), events, and the order of children and events. */
module ImportProperties {
  import opened Base
  import opened Json
  import opened FileStore
  import opened Events
  import opened Body
  import opened Ordering
  import opened Importer
  import opened Names
  import Exporter

  /** `findIndex` in a list of JSON strings is `findIndex` in the strings. */
  lemma {:induction false} IndexOfStrs(order: seq<string>, s: string)
    ensures IndexOf(Strs(order).elems, JStr(s)) == IndexOf(order, s)
    decreases |order|
  {
    if order != [] {
      assert Strs(order).elems[1..] == Strs(order[1..]).elems;
      IndexOfStrs(order[1..], s);
    }
  }

  /** A sidecar `.<key>.json` written at the root reads back, at depth 1, as `{key: v}`. */
  lemma SidecarRoundTrip(m: Entries, dir: Path, key: string, v: Json, c: Codec)
    requires Lawful(c)
    requires key in Exporter.TopLevelFileKeys
    requires var p := dir + ["." + key + ".json"]; p in m && m[p] == File(c.pretty(Single(key, v)) + "\n")
    ensures Walk(m, TFile(dir + ["." + key + ".json"], "." + key + ".json"), 1, c) == Ok(Single(key, v))
  {
    var name := "." + key + ".json";
    var p := dir + [name];
    SidecarName(key);
    assert Walk(m, TFile(p, name), 1, c) == TopLevelFile(m, p, key, c);
    assert ReadFile(m, p) == Ok(c.pretty(Single(key, v)) + "\n");
    assert c.parse(c.pretty(Single(key, v)) + "\n") == Some(Single(key, v));
  }

  /** The sidecar of a key is taken for that key. */
  lemma SidecarName(key: string)
    requires key in Exporter.TopLevelFileKeys
    ensures TopLevelKey("." + key + ".json") == Some(key)
  {
    if key == "variable" {
      assert "." + key + ".json" == ".variable.json";
    } else if key == "info" {
      assert "." + key + ".json" == ".info.json";
      assert !EndsWith(".info.json", ".variable.json");
    } else {
      assert "." + key + ".json" == ".auth.json";
      assert !EndsWith(".auth.json", ".variable.json");
      assert !EndsWith(".auth.json", ".info.json") by { assert ".auth.json"[1] != ".info.json"[1]; }
    }
  }

  /** No name ending in `.js` is taken for a sidecar. */
  lemma ScriptIsNoSidecar(name: string)
    requires EndsWith(name, ".js")
    ensures TopLevelKey(name) == None
  {
    assert name[|name| - 1] == 's';
    assert !EndsWith(name, ".variable.json") by { assert ".variable.json"[13] == 'n'; }
    assert !EndsWith(name, ".info.json") by { assert ".info.json"[9] == 'n'; }
    assert !EndsWith(name, ".auth.json") by { assert ".auth.json"[9] == 'n'; }
  }

  /** `request.json` as export wrote it reads back, at any depth, as the original
      request, the raw body compared by parsed value. */
  lemma RequestFileRoundTrip(m: Entries, p: Path, request: Json, level: nat, c: Codec)
    requires Lawful(c)
    requires !request.JNull? && FormatBody(request, c).Ok?
    requires !(Truthy(Get(request, "body")) && request.fields["body"].JObj? &&
               "raw_json_formatted" in request.fields["body"].fields)
    requires !HoldsFalsyFormatted(FormatBody(request, c).value)
    requires p in m && m[p] == File(c.pretty(FormatBody(request, c).value) + "\n")
    ensures var r := Walk(m, TFile(p, "request.json"), level, c);
            r.Ok? && "request" in r.value.fields && r.value.fields.Keys == {"request"} &&
            SameUpToRawText(request, r.value.fields["request"], c)
  {
    RequestIsNoSidecar();
    BodyRoundTripAsWritten(request, c);
    var formatted := FormatBody(request, c).value;
    assert c.parse(c.pretty(formatted) + "\n") == Some(formatted);
  }

  /** A request whose raw JSON body parses to a falsy value comes back from `request.json`
      still holding `raw_json_formatted` and no `raw`: the body text is lost. */
  lemma RequestFileKeepsFalsyBody(m: Entries, p: Path, request: Json, level: nat, c: Codec)
    requires Lawful(c)
    requires FormatBody(request, c).Ok? && FormatBody(request, c).value != request
    requires !Truthy(c.parse(RawText(request)))
    requires p in m && m[p] == File(c.pretty(FormatBody(request, c).value) + "\n")
    ensures var r := Walk(m, TFile(p, "request.json"), level, c);
            r == Ok(Single("request", FormatBody(request, c).value)) &&
            var b := r.value.fields["request"].fields["body"].fields;
            "raw" !in b && "raw_json_formatted" in b
  {
    RequestIsNoSidecar();
    FalsyBodyLosesRaw(request, c);
    var formatted := FormatBody(request, c).value;
    assert c.parse(c.pretty(formatted) + "\n") == Some(formatted);
  }

  /** `request.json` is not taken for a sidecar. */
  lemma RequestIsNoSidecar()
    ensures TopLevelKey("request.json") == None
  {
    assert !EndsWith("request.json", ".variable.json");
    assert !EndsWith("request.json", ".info.json") by { assert "request.json"[2] != ".info.json"[0]; }
    assert !EndsWith("request.json", ".auth.json") by { assert "request.json"[2] != ".auth.json"[0]; }
  }

  /** An event file as export wrote it reads back, at any depth, as an event with the same
      trigger and script lines, which export would write to the same file again; its name
      mentions "event", so the directory puts it among the events. */
  lemma EventFileRoundTrip(m: Entries, p: Path, listen: string, lines: seq<string>, level: nat, c: Codec)
    requires listen != "" && '.' !in listen
    requires |lines| >= 1 && forall i :: 0 <= i < |lines| ==> '\n' !in lines[i]
    requires p in m && m[p] == File(Join(lines))
    ensures Walk(m, TFile(p, EventFileName(listen)), level, c) == Ok(EventEntry(listen, Join(lines)))
    ensures Get(EventEntry(listen, Join(lines)), "script").Some? &&
            Get(EventEntry(listen, Join(lines)).fields["script"], "exec") == Some(Strs(lines))
    ensures EventFile(EventEntry(listen, Join(lines))) == Ok((EventFileName(listen), Join(lines)))
    ensures EventKeyName(EventEntry(listen, Join(lines))) == EventFileName(listen)
    ensures MentionsEvent(EventFileName(listen))
  {
    EventFileWalk(m, p, listen, lines, level, c);
    EventNamesMentionEvent(EventFileName(listen));
    SplitJoin(lines);
    EventRoundTrip(EventEntry(listen, Join(lines)), listen, lines);
  }

  /** The first half of the round trip: the file is read back as the event. */
  lemma EventFileWalk(m: Entries, p: Path, listen: string, lines: seq<string>, level: nat, c: Codec)
    requires listen != "" && '.' !in listen
    requires p in m && m[p] == File(Join(lines))
    ensures Walk(m, TFile(p, EventFileName(listen)), level, c) == Ok(EventEntry(listen, Join(lines)))
  {
    var name := EventFileName(listen);
    assert EndsWith(name, ".js") by { assert name[|name| - 3..] == ".js"; }
    ScriptIsNoSidecar(name);
    MatchEventNameIff(name, listen);
  }

  /** A folder without children reads back as its name alone: the description and the
      empty `item` list in its `.meta.json` are not read. */
  lemma EmptyFolderKeepsOnlyName(m: Entries, p: Path, name: string, level: nat, c: Codec)
    requires level >= 1 && (level == 1 ==> TopLevelKey(name).None?)
    ensures Walk(m, TDir(p, name, []), level, c) == Ok(JObj(map["name" := JStr(name)]))
  {
  }

  /** The keys a file can add to `others`. */
  const OtherKeys: set<string> := {"request", "response", "variable", "info", "auth"}

  lemma FileOutputKeys(m: Entries, child: Tree, level: nat, c: Codec)
    requires child.TFile? && !MentionsEvent(child.name)
    requires Walk(m, child, level, c).Ok?
    ensures Walk(m, child, level, c).value.fields.Keys <= OtherKeys
  {
    if MatchEventName(child.name).Some? {
      EventNamesMentionEvent(child.name);
    }
  }

  /** Only `request`, `response` and the sidecar keys reach `others`. */
  lemma {:induction false} OthersKeys(m: Entries, t: Tree, cs: seq<Tree>, level: nat, c: Codec)
    requires t.TDir? && forall x :: x in cs ==> x in t.children
    requires Gather(m, t, cs, level, c).Ok?
    ensures Gather(m, t, cs, level, c).value.others.Keys <= OtherKeys
    decreases |cs|
  {
    if cs != [] {
      OthersKeys(m, t, cs[..|cs| - 1], level, c);
      var child := cs[|cs| - 1];
      if child.TFile? && !MentionsEvent(child.name) {
        FileOutputKeys(m, child, level + 1, c);
      }
    }
  }

  /** A directory below the root reads back with its own name. */
  lemma DirNameKept(m: Entries, t: Tree, level: nat, c: Codec)
    requires t.TDir? && level >= 1 && (level == 1 ==> TopLevelKey(t.name).None?)
    requires Walk(m, t, level, c).Ok?
    ensures Get(Walk(m, t, level, c).value, "name") == Some(JStr(t.name))
  {
    assert Walk(m, t, level, c) == WalkDir(m, t, level, c);
    if t.children != [] {
      WalkDirUnfold(m, t, level, c);
      var (cs, description) := ChildOrder(m, t.path, t.children, c);
      OthersKeys(m, t, cs, level, c);
    }
  }

  /** A directory with children, spelled out: its children sorted, gathered, the events
      sorted, and the pieces assembled. */
  lemma WalkDirUnfold(m: Entries, t: Tree, level: nat, c: Codec)
    requires t.TDir? && t.children != [] && WalkDir(m, t, level, c).Ok?
    ensures var (cs, description) := ChildOrder(m, t.path, t.children, c);
            (forall x :: x in cs ==> x in t.children) &&
            Gather(m, t, cs, level, c).Ok? &&
            var g := Gather(m, t, cs, level, c).value;
            SortEvents(m, t.path, g.events, c).Ok? &&
            WalkDir(m, t, level, c).value ==
              JObj(Assemble(DirBase(t, level), description, SortEvents(m, t.path, g.events, c).value, g.items) + g.others)
  {
    var (cs, description) := ChildOrder(m, t.path, t.children, c);
    assert forall x :: x in cs ==> x in multiset(t.children);
  }

  /** The loop over children that are all directories: no events, nothing in `others`,
      and one item per child, in the order walked. */
  lemma {:induction false} GatherDirs(m: Entries, t: Tree, cs: seq<Tree>, level: nat, c: Codec)
    requires t.TDir? && forall x :: x in cs ==> x in t.children
    requires forall i :: 0 <= i < |cs| ==> cs[i].TDir?
    requires Gather(m, t, cs, level, c).Ok?
    ensures var g := Gather(m, t, cs, level, c).value;
            g.events.None? && g.others == map[] && |g.items| == |cs| &&
            forall i :: 0 <= i < |cs| ==> Walk(m, cs[i], level + 1, c) == Ok(g.items[i])
    decreases |cs|
  {
    if cs != [] {
      GatherDirs(m, t, cs[..|cs| - 1], level, c);
    }
  }

  /** After a directory's children are sorted by a `childrenOrder` list, a child comes
      before another only if its index is not larger; in particular children missing from
      the list come before every listed one. */
  lemma ChildOrderSorted(m: Entries, path: Path, children: seq<Tree>, meta: Json, order: seq<Json>, c: Codec)
    requires path + [".meta.json"] in m && m[path + [".meta.json"]].File?
    requires c.parse(m[path + [".meta.json"]].content) == Some(meta)
    requires Get(meta, "childrenOrder") == Some(JArr(order))
    ensures var cs := ChildOrder(m, path, children, c).0;
            forall i, j :: 0 <= i < j < |cs| ==> IndexOf(order, JStr(cs[i].name)) <= IndexOf(order, JStr(cs[j].name))
    ensures var cs := ChildOrder(m, path, children, c).0;
            forall i, j :: 0 <= i < j < |cs| && IndexOf(order, JStr(cs[j].name)) == -1 ==> IndexOf(order, JStr(cs[i].name)) == -1
  {
    SortBySorted(children, ChildKey(order));
  }

  /** A sub-directory entry of a listing. */
  predicate IsDirEntry(x: Tree) {
    x.TDir?
  }

  /** A listing whose entries have pairwise different names, whose sub-directories are
      exactly the names of `order`, and whose files are named otherwise. */
  ghost predicate ListsExactly(children: seq<Tree>, order: seq<string>) {
    (forall a, b :: 0 <= a < b < |children| ==> children[a].name != children[b].name) &&
    (forall x :: x in children ==> (x.TDir? <==> x.name in order)) &&
    (forall o :: o in order ==> exists x :: x in children && x.name == o)
  }

  /** Import order recovery: a directory whose sub-directories are listed exactly once
      each in its `.meta.json`'s `childrenOrder` reads back with an `item` list in
      `childrenOrder`'s order, whatever order the listing gave. That the walk succeeds is
      a hypothesis, not a conclusion: it fails when a listed file is missing, or when a
      file whose name mentions "event" sits in a directory without `.event.meta.json`.
      On a walk that succeeds, files beside the sub-directories give no item. */
  lemma ChildrenOrderRecovered(m: Entries, t: Tree, level: nat, meta: Json, order: seq<string>, c: Codec)
    requires t.TDir? && |order| >= 1
    requires level != 1 || TopLevelKey(t.name).None?
    requires ListsExactly(t.children, order)
    requires forall a, b :: 0 <= a < b < |order| ==> order[a] != order[b]
    requires level == 0 ==> forall x :: x in t.children && x.TDir? ==> TopLevelKey(x.name).None?
    requires t.path + [".meta.json"] in m && m[t.path + [".meta.json"]].File?
    requires c.parse(m[t.path + [".meta.json"]].content) == Some(meta)
    requires Get(meta, "childrenOrder") == Some(Strs(order))
    requires Walk(m, t, level, c).Ok?
    ensures var r := Walk(m, t, level, c).value;
            Get(r, "item").Some? && r.fields["item"].JArr? &&
            var items := r.fields["item"].elems;
            |items| == |order| && forall i :: 0 <= i < |items| ==> Get(items[i], "name") == Some(JStr(order[i]))
  {
    ChildrenSortedByMeta(m, t.path, t.children, meta, Strs(order).elems, c);
    SortedDirNames(t.children, order);
    WalkIsWalkDir(m, t, level, c);
    ItemsNamedAfterDirs(m, t, level, c);
  }

  lemma WalkIsWalkDir(m: Entries, t: Tree, level: nat, c: Codec)
    requires t.TDir? && (level != 1 || TopLevelKey(t.name).None?)
    ensures Walk(m, t, level, c) == WalkDir(m, t, level, c)
  {
  }

  /** A directory with sub-directories: its `item` list holds one entry per
      sub-directory, in the order the children were sorted into, each with its name. */
  lemma ItemsNamedAfterDirs(m: Entries, t: Tree, level: nat, c: Codec)
    requires t.TDir? && t.children != [] && WalkDir(m, t, level, c).Ok?
    requires level == 0 ==> forall x :: x in t.children && x.TDir? ==> TopLevelKey(x.name).None?
    requires |Filter(IsDirEntry, ChildOrder(m, t.path, t.children, c).0)| > 0
    ensures var ds := Filter(IsDirEntry, ChildOrder(m, t.path, t.children, c).0);
            var r := WalkDir(m, t, level, c).value;
            Get(r, "item").Some? && r.fields["item"].JArr? &&
            var items := r.fields["item"].elems;
            |items| == |ds| && forall i :: 0 <= i < |items| ==> Get(items[i], "name") == Some(JStr(ds[i].name))
  {
    WalkDirUnfold(m, t, level, c);
    var (cs, description) := ChildOrder(m, t.path, t.children, c);
    var g := Gather(m, t, cs, level, c).value;
    ItemNamesFromDirs(m, t, cs, level, c);
    OthersKeys(m, t, cs, level, c);
    AssembledItems(DirBase(t, level), description, SortEvents(m, t.path, g.events, c).value, g.items, g.others);
  }

  /** A directory's `item` list is the items gathered: `others` never holds `item`. */
  lemma AssembledItems(base: map<string, Json>, description: Option<Json>, events: Option<seq<Json>>,
                       items: seq<Json>, others: map<string, Json>)
    requires |items| > 0 && others.Keys <= OtherKeys
    ensures var r := Assemble(base, description, events, items) + others;
            "item" in r && r["item"] == JArr(items)
  {
  }

  /** Sorted by `childrenOrder`, the sub-directories of a listing that `ListsExactly` it
      carry its names in its order. */
  lemma SortedDirNames(children: seq<Tree>, order: seq<string>)
    requires ListsExactly(children, order)
    requires forall a, b :: 0 <= a < b < |order| ==> order[a] != order[b]
    ensures var ds := Filter(IsDirEntry, SortBy(children, ChildKey(Strs(order).elems)));
            |ds| == |order| && forall i :: 0 <= i < |ds| ==> ds[i].name == order[i]
    ensures |order| <= |children|
  {
    var sorted := SortBy(children, ChildKey(Strs(order).elems));
    assert |sorted| == |children| by { assert |multiset(sorted)| == |multiset(children)|; }
    FilterSortBy(IsDirEntry, children, ChildKey(Strs(order).elems));
    DirsMatchOrder(children, order);
    SortedByExactOrder(Filter(IsDirEntry, children), order);
  }

  /** The loop over the children gives one item per sub-directory, in the order walked. */
  lemma {:induction false} GatherItems(m: Entries, t: Tree, cs: seq<Tree>, level: nat, c: Codec)
    requires t.TDir? && forall x :: x in cs ==> x in t.children
    requires Gather(m, t, cs, level, c).Ok?
    ensures var g := Gather(m, t, cs, level, c).value;
            var ds := Filter(IsDirEntry, cs);
            |g.items| == |ds| && forall i :: 0 <= i < |ds| ==> Walk(m, ds[i], level + 1, c) == Ok(g.items[i])
    decreases |cs|
  {
    if cs != [] {
      var pre := cs[..|cs| - 1];
      var last := cs[|cs| - 1];
      GatherItems(m, t, pre, level, c);
      assert cs == pre + [last];
      FilterAppend(IsDirEntry, pre, [last]);
      assert [last] == [last] + [];
      FilterCons(IsDirEntry, last, []);
    }
  }

  /** Each item the loop gives carries the name of its sub-directory. */
  lemma ItemNamesFromDirs(m: Entries, t: Tree, cs: seq<Tree>, level: nat, c: Codec)
    requires t.TDir? && forall x :: x in cs ==> x in t.children
    requires level == 0 ==> forall x :: x in t.children && x.TDir? ==> TopLevelKey(x.name).None?
    requires Gather(m, t, cs, level, c).Ok?
    ensures var g := Gather(m, t, cs, level, c).value;
            var ds := Filter(IsDirEntry, cs);
            |g.items| == |ds| && forall i :: 0 <= i < |ds| ==> Get(g.items[i], "name") == Some(JStr(ds[i].name))
  {
    GatherItems(m, t, cs, level, c);
    var g := Gather(m, t, cs, level, c).value;
    var ds := Filter(IsDirEntry, cs);
    forall i | 0 <= i < |ds| ensures Get(g.items[i], "name") == Some(JStr(ds[i].name)) {
      FilterMembers(IsDirEntry, cs, ds[i]);
      ItemNameFromDir(m, t, ds[i], g.items[i], level, c);
    }
  }

  lemma ItemNameFromDir(m: Entries, t: Tree, d: Tree, item: Json, level: nat, c: Codec)
    requires t.TDir? && d in t.children && d.TDir?
    requires level == 0 ==> forall x :: x in t.children && x.TDir? ==> TopLevelKey(x.name).None?
    requires Walk(m, d, level + 1, c) == Ok(item)
    ensures Get(item, "name") == Some(JStr(d.name))
  {
    DirNameKept(m, d, level + 1, c);
  }

  /** The sub-directories of a listing that `ListsExactly` an `order` without repeats
      are as many as `order`'s entries, with pairwise different names, all in `order`. */
  lemma DirsMatchOrder(children: seq<Tree>, order: seq<string>)
    requires ListsExactly(children, order)
    requires forall a, b :: 0 <= a < b < |order| ==> order[a] != order[b]
    ensures var ds := Filter(IsDirEntry, children);
            |ds| == |order| &&
            (forall a, b :: 0 <= a < b < |ds| ==> ds[a].name != ds[b].name) &&
            (forall a :: 0 <= a < |ds| ==> ds[a].name in order)
  {
    var ds := Filter(IsDirEntry, children);
    FilterKeepsDistinct(IsDirEntry, children, (x: Tree) => x.name);
    forall a | 0 <= a < |ds| ensures ds[a].name in order {
      FilterMembers(IsDirEntry, children, ds[a]);
    }
    forall o | o in order ensures exists a :: 0 <= a < |ds| && ds[a].name == o {
      var x :| x in children && x.name == o;
      FilterMembers(IsDirEntry, children, x);
      var a :| 0 <= a < |ds| && ds[a] == x;
    }
    SameNamesSameLength(ds, order);
  }

  /** Entries with pairwise different names that are exactly the entries of a list
      without repeats are as many as that list's entries. */
  lemma SameNamesSameLength(ds: seq<Tree>, order: seq<string>)
    requires forall a, b :: 0 <= a < b < |ds| ==> ds[a].name != ds[b].name
    requires forall a, b :: 0 <= a < b < |order| ==> order[a] != order[b]
    requires forall a :: 0 <= a < |ds| ==> ds[a].name in order
    requires forall o :: o in order ==> exists a :: 0 <= a < |ds| && ds[a].name == o
    ensures |ds| == |order|
  {
    var names := seq(|ds|, i requires 0 <= i < |ds| => ds[i].name);
    DistinctCount(names);
    DistinctCount(order);
    assert Elems(names) == Elems(order) by {
      forall o | o in order ensures o in names {
        var a :| 0 <= a < |ds| && ds[a].name == o;
        assert names[a] == o;
      }
    }
  }

  /** A list without repeats has as many elements as entries. */
  lemma {:induction false} DistinctCount(q: seq<string>)
    requires forall a, b :: 0 <= a < b < |q| ==> q[a] != q[b]
    ensures |Elems(q)| == |q|
    decreases |q|
  {
    if q != [] {
      DistinctCount(q[1..]);
      assert Elems(q) == {q[0]} + Elems(q[1..]);
      assert q[0] !in Elems(q[1..]);
    }
  }

  /** A sub-directory whose name is not a top-level sidecar key. */
  predicate PlainDir(x: Tree) {
    x.TDir? && TopLevelKey(x.name).None?
  }

  lemma SortedByExactOrder(children: seq<Tree>, order: seq<string>)
    requires forall a, b :: 0 <= a < b < |children| ==> children[a].name != children[b].name
    requires |order| == |children| && forall a, b :: 0 <= a < b < |order| ==> order[a] != order[b]
    requires forall a :: 0 <= a < |children| ==> children[a].name in order
    ensures var cs := SortBy(children, ChildKey(Strs(order).elems));
            |cs| == |order| && forall i :: 0 <= i < |cs| ==> cs[i].name == order[i]
  {
    var name := (x: Tree) => x.name;
    var key := ChildKey(Strs(order).elems);
    forall x ensures key(x) == IndexOf(order, name(x)) {
      IndexOfStrs(order, x.name);
    }
    SortRecoversOrder(children, name, key, order);
  }

  /** A directory whose sorted children are all directories: its `item` list holds one
      entry per child, in sorted order, each with the child's name. */
  lemma ItemsNamedAfterChildren(m: Entries, t: Tree, level: nat, c: Codec)
    requires t.TDir? && t.children != [] && WalkDir(m, t, level, c).Ok?
    requires var cs := ChildOrder(m, t.path, t.children, c).0;
             forall i :: 0 <= i < |cs| ==> PlainDir(cs[i])
    ensures var cs := ChildOrder(m, t.path, t.children, c).0;
            var r := WalkDir(m, t, level, c).value;
            Get(r, "item").Some? && r.fields["item"].JArr? &&
            var items := r.fields["item"].elems;
            |items| == |cs| && forall i :: 0 <= i < |items| ==> Get(items[i], "name") == Some(JStr(cs[i].name))
  {
    WalkDirUnfold(m, t, level, c);
    var (cs, description) := ChildOrder(m, t.path, t.children, c);
    GatherDirs(m, t, cs, level, c);
    var g := Gather(m, t, cs, level, c).value;
    forall i | 0 <= i < |cs| ensures Get(g.items[i], "name") == Some(JStr(cs[i].name)) {
      ChildSmaller(t, cs[i]);
      DirNameKept(m, cs[i], level + 1, c);
    }
    assert Assemble(DirBase(t, level), description, None, g.items)["item"] == JArr(g.items);
  }

  /** With a readable `.meta.json` whose `childrenOrder` is an array, the children are
      sorted by their index in it. */
  lemma ChildrenSortedByMeta(m: Entries, path: Path, children: seq<Tree>, meta: Json, order: seq<Json>, c: Codec)
    requires path + [".meta.json"] in m && m[path + [".meta.json"]].File?
    requires c.parse(m[path + [".meta.json"]].content) == Some(meta)
    requires Get(meta, "childrenOrder") == Some(JArr(order))
    ensures ChildOrder(m, path, children, c).0 == SortBy(children, ChildKey(order))
  {
    assert ReadFile(m, path + [".meta.json"]) == Ok(m[path + [".meta.json"]].content);
  }

  /** With a readable `.event.meta.json` whose `eventOrder` is an array, the events are
      sorted by their index in it. */
  lemma EventsSortedByMeta(m: Entries, path: Path, events: seq<Json>, meta: Json, order: seq<Json>, c: Codec)
    requires path + [".event.meta.json"] in m && m[path + [".event.meta.json"]].File?
    requires c.parse(m[path + [".event.meta.json"]].content) == Some(meta)
    requires Get(meta, "eventOrder") == Some(JArr(order))
    ensures SortEvents(m, path, Some(events), c) == Ok(Some(SortBy(events, EventKey(order))))
  {
    EventOrderRead(m, path, meta, c);
  }

  /** `eventOrder` as read from a readable `.event.meta.json`. */
  lemma EventOrderRead(m: Entries, path: Path, meta: Json, c: Codec)
    requires path + [".event.meta.json"] in m && m[path + [".event.meta.json"]].File?
    requires c.parse(m[path + [".event.meta.json"]].content) == Some(meta)
    requires meta.JObj?
    ensures EventOrder(m, path, c) == Ok(Get(meta, "eventOrder"))
  {
    var p := path + [".event.meta.json"];
    assert ReadFile(m, p) == Ok(m[p].content);
    assert ParseText(c, m[p].content, p) == Ok(meta);
  }

  /** Event order recovery: events whose file names are distinct and listed exactly once
      each in `eventOrder` come out in `eventOrder`'s order. */
  lemma EventOrderRecovered(m: Entries, path: Path, events: seq<Json>, meta: Json, order: seq<string>, c: Codec)
    requires path + [".event.meta.json"] in m && m[path + [".event.meta.json"]].File?
    requires c.parse(m[path + [".event.meta.json"]].content) == Some(meta)
    requires Get(meta, "eventOrder") == Some(Strs(order))
    requires |order| == |events| && forall a, b :: 0 <= a < b < |order| ==> order[a] != order[b]
    requires forall a, b :: 0 <= a < b < |events| ==> EventKeyName(events[a]) != EventKeyName(events[b])
    requires forall a :: 0 <= a < |events| ==> EventKeyName(events[a]) in order
    ensures var r := SortEvents(m, path, Some(events), c);
            r.Ok? && r.value.Some? && |r.value.value| == |order| &&
            forall i :: 0 <= i < |order| ==> EventKeyName(r.value.value[i]) == order[i]
  {
    var key := EventKey(Strs(order).elems);
    forall x ensures key(x) == IndexOf(order, EventKeyName(x)) {
      IndexOfStrs(order, EventKeyName(x));
    }
    SortRecoversOrder(events, EventKeyName, key, order);
    EventsSortedByMeta(m, path, events, meta, Strs(order).elems, c);
  }
}

=== FILE: importer.dfy ===
/** `walkDirTree` (lines 239-375): rebuilds a collection document from a typed directory
    listing. The functions say what it returns; the methods `WalkDirTree` and
    `WalkDirectory` do it the source's way, with the loop over the children, and are
    proved to agree with them. Nothing is written: the filesystem is only read. */
module Importer {
  import opened Base
  import opened Json
  import opened FileStore
  import opened Events
  import opened Body
  import opened Ordering
  import Exporter

  /** The listing `directory-tree` produces: a file, or a directory with its children, each
      with its path and its base name. */
  datatype Tree =
    | TFile(path: Path, name: string)
    | TDir(path: Path, name: string, children: seq<Tree>)

  predicate EndsWith(s: string, suffix: string) {
    |suffix| <= |s| && s[|s| - |suffix|..] == suffix
  }

  /** `name.match(/\.([^./]*)\.json$/)` with a captured group that is a key of
      `topLevelFileKeys`. The group is the segment between the last two dots before the
      final `.json`, so the match names a key exactly when the name ends with
      `.<key>.json`. */
  function TopLevelKey(name: string): (r: Option<string>)
    ensures r.Some? ==> r.value in Exporter.TopLevelFileKeys && EndsWith(name, "." + r.value + ".json")
    ensures r.None? ==> forall k :: k in Exporter.TopLevelFileKeys ==> !EndsWith(name, "." + k + ".json")
  {
    SuffixSpelling();
    if EndsWith(name, ".variable.json") then Some("variable")
    else if EndsWith(name, ".info.json") then Some("info")
    else if EndsWith(name, ".auth.json") then Some("auth")
    else None
  }

  /** The three sidecar suffixes, spelled out. */
  lemma SuffixSpelling()
    ensures "." + "variable" + ".json" == ".variable.json"
    ensures "." + "info" + ".json" == ".info.json"
    ensures "." + "auth" + ".json" == ".auth.json"
  {
  }

  /** A top-level sidecar at depth 1: `{key: JSON.parse(text)[key]}`. A parsed `null`
      throws; a parsed value without the key gives `{}` (the `undefined` property is
      dropped). */
  function TopLevelFile(m: Entries, path: Path, key: string, c: Codec): (r: Result<Json>)
    ensures r.Ok? ==> r.value.JObj? && r.value.fields.Keys <= {key}
  {
    var text :- ReadFile(m, path);
    var parsed :- ParseText(c, text, path);
    var v :- Prop(Some(parsed), key);
    if v.None? then Ok(JObj(map[])) else Ok(Single(key, v.value))
  }

  /** A file below the depth-1 test: `.meta.json` gives `{}`, `request.json` the request
      with its body restored (by the truthiness test of line 276), `response.json` the response, anything else what
      `checkAndCreateEventEntry` makes of it. */
  function WalkFile(m: Entries, path: Path, name: string, c: Codec): (r: Result<Json>)
    ensures r.Ok? ==> r.value.JObj?
  {
    if name == ".meta.json" then Ok(JObj(map[]))
    else if name == "request.json" then
      var text :- ReadFile(m, path);
      var request :- ParseText(c, text, path);
      var restored :- RestoreBodyAsWritten(request, c);
      Ok(Single("request", restored))
    else if name == "response.json" then
      var text :- ReadFile(m, path);
      var response :- ParseText(c, text, path);
      Ok(Single("response", response))
    else CheckAndCreateEventEntry(m, name, path)
  }

  /** `walkDirTree(t, level)`. */
  function Walk(m: Entries, t: Tree, level: nat, c: Codec): (r: Result<Json>)
    ensures r.Ok? ==> r.value.JObj?
    decreases t, 2, 0
  {
    var key := if level == 1 then TopLevelKey(t.name) else None;
    if key.Some? then TopLevelFile(m, t.path, key.value, c)
    else
      match t
      case TFile(path, name) => WalkFile(m, path, name, c)
      case TDir(_, _, _) => WalkDir(m, t, level, c)
  }

  /** The sort key of a child: the index of its name in `childrenOrder`, -1 if absent. */
  function ChildKey(order: seq<Json>): Tree -> int {
    (t: Tree) => IndexOf(order, JStr(t.name))
  }

  /** The `try` block of a directory: the children sorted by the `.meta.json`'s
      `childrenOrder`, and the description to copy. Every failure inside it (no file, no
      JSON, a `null` meta, a `childrenOrder` without `findIndex` once there are two
      children to compare) is swallowed: the listing order stays and there is no
      description. */
  function ChildOrder(m: Entries, path: Path, children: seq<Tree>, c: Codec): (r: (seq<Tree>, Option<Json>))
    ensures multiset(r.0) == multiset(children)
    ensures ReadFile(m, path + [".meta.json"]).Err? ==> r == (children, None)
  {
    match ReadFile(m, path + [".meta.json"])
    case Err(_) => (children, None)
    case Ok(text) =>
      match c.parse(text)
      case None => (children, None)
      case Some(meta) =>
        if meta.JNull? then (children, None)
        else
          var order := Get(meta, "childrenOrder");
          var sortable := order.Some? && order.value.JArr?;
          if |children| >= 2 && !sortable then (children, None)
          else
            var sorted := if sortable then SortBy(children, ChildKey(order.value.elems)) else children;
            (sorted, if Truthy(Get(meta, "description")) then Some(meta.fields["description"]) else None)
  }

  /** What the loop over the children accumulates: `result.event`, `items` and `others`. */
  datatype Gathered = Gathered(events: Option<seq<Json>>, items: seq<Json>, others: map<string, Json>)

  /** One child's output put where it belongs: a file mentioning "event" joins the
      events, another file is merged into `others`, a directory joins the items. */
  function Collect(g: Gathered, child: Tree, output: Json): (r: Gathered)
  {
    if child.TFile? then
      if MentionsEvent(child.name) then
        g.(events := Some(if g.events.Some? then g.events.value + [output] else [output]))
      else g.(others := g.others + (if output.JObj? then output.fields else map[]))
    else g.(items := g.items + [output])
  }

  /** The loop over the (sorted) children `cs` of directory `t`. */
  function Gather(m: Entries, t: Tree, cs: seq<Tree>, level: nat, c: Codec): (r: Result<Gathered>)
    requires t.TDir? && forall x :: x in cs ==> x in t.children
    decreases t, 0, |cs|
  {
    if cs == [] then Ok(Gathered(None, [], map[]))
    else
      var g :- Gather(m, t, cs[..|cs| - 1], level, c);
      var child := cs[|cs| - 1];
      ChildSmaller(t, child);
      var output :- Walk(m, child, level + 1, c);
      Ok(Collect(g, child, output))
  }

  /** One more child after the first `i` were gathered. */
  lemma GatherStep(m: Entries, t: Tree, cs: seq<Tree>, i: nat, level: nat, c: Codec)
    requires t.TDir? && (forall x :: x in cs ==> x in t.children) && i < |cs|
    requires Gather(m, t, cs[..i], level, c).Ok?
    ensures var out := Walk(m, cs[i], level + 1, c);
            Gather(m, t, cs[..i + 1], level, c) ==
              if out.Err? then Err(out.error) else Ok(Collect(Gather(m, t, cs[..i], level, c).value, cs[i], out.value))
  {
    assert cs[..i + 1][..i] == cs[..i];
  }

  lemma ChildSmaller(t: Tree, x: Tree)
    requires t.TDir? && x in t.children
    ensures x < t
  {
    var j :| 0 <= j < |t.children| && t.children[j] == x;
  }

  /** `event.${a.listen}.js` of an event entry; an entry without `listen` (a `{}` from a
      file that only mentions "event") gives `event.undefined.js`. */
  function EventKeyName(e: Json): string {
    var listen := Get(e, "listen");
    "event." + (if listen.Some? && listen.value.JStr? then listen.value.s else "undefined") + ".js"
  }

  /** The sort key of an event: the index of its file name in `eventOrder`. */
  function EventKey(order: seq<Json>): Json -> int {
    (e: Json) => IndexOf(order, JStr(EventKeyName(e)))
  }

  /** `JSON.parse(fs.readFileSync(path/.event.meta.json)).eventOrder`. */
  function EventOrder(m: Entries, path: Path, c: Codec): (r: Result<Option<Json>>)
    ensures r.Ok? ==> path + [".event.meta.json"] in m && m[path + [".event.meta.json"]].File?
  {
    var p := path + [".event.meta.json"];
    var text :- ReadFile(m, p);
    var meta :- ParseText(c, text, p);
    Prop(Some(meta), "eventOrder")
  }

  /** Sorting `result.event` by `.event.meta.json`'s `eventOrder`. Unlike `.meta.json`,
      nothing here is swallowed: a missing or unreadable file, bad JSON, a `null` meta, or
      an `eventOrder` without `findIndex` once two events are compared, is an error. */
  function SortEvents(m: Entries, path: Path, events: Option<seq<Json>>, c: Codec): (r: Result<Option<seq<Json>>>)
    ensures events.None? ==> r == Ok(None)
    ensures events.Some? && !(path + [".event.meta.json"] in m && m[path + [".event.meta.json"]].File?) ==> r.Err?
    ensures r.Ok? && events.Some? ==> r.value.Some? && multiset(r.value.value) == multiset(events.value)
  {
    if events.None? then Ok(None)
    else
      var order :- EventOrder(m, path, c);
      var sortable := order.Some? && order.value.JArr?;
      if |events.value| >= 2 && !sortable then Err(TypeError("eventOrder has no findIndex"))
      else if sortable then Ok(Some(SortBy(events.value, EventKey(order.value.elems))))
      else Ok(events)
  }

  /** The directory's own entries: its name below the root. */
  function DirBase(t: Tree, level: nat): map<string, Json> {
    if level != 0 then map["name" := JStr(t.name)] else map[]
  }

  /** A directory: its name (below the root), the description, the sorted events, the
      items, then `others` merged over all of them (`Object.assign`). A directory without
      children gives only its name. */
  function WalkDir(m: Entries, t: Tree, level: nat, c: Codec): (r: Result<Json>)
    requires t.TDir?
    ensures r.Ok? ==> r.value.JObj?
    decreases t, 1, 0
  {
    var base := DirBase(t, level);
    if t.children == [] then Ok(JObj(base))
    else
      var (cs, description) := ChildOrder(m, t.path, t.children, c);
      assert forall x :: x in cs ==> x in multiset(t.children);
      var g :- Gather(m, t, cs, level, c);
      var events :- SortEvents(m, t.path, g.events, c);
      Ok(JObj(Assemble(base, description, events, g.items) + g.others))
  }

  /** `result` before `Object.assign(result, others)`. */
  function Assemble(base: map<string, Json>, description: Option<Json>, events: Option<seq<Json>>, items: seq<Json>): (r: map<string, Json>)
  {
    var withDescription := if description.Some? then base["description" := description.value] else base;
    var withEvents := if events.Some? then withDescription["event" := JArr(events.value)] else withDescription;
    if |items| > 0 then withEvents["item" := JArr(items)] else withEvents
  }

  /** A failed child ends the loop: the later children are not walked. */
  lemma {:induction false} GatherStuck(m: Entries, t: Tree, cs: seq<Tree>, k: nat, level: nat, c: Codec)
    requires t.TDir? && forall x :: x in cs ==> x in t.children
    requires k <= |cs| && Gather(m, t, cs[..k], level, c).Err?
    ensures Gather(m, t, cs, level, c) == Gather(m, t, cs[..k], level, c)
    decreases |cs|
  {
    if k < |cs| {
      assert cs[..|cs| - 1][..k] == cs[..k];
      GatherStuck(m, t, cs[..|cs| - 1], k, level, c);
    } else {
      assert cs[..k] == cs;
    }
  }

  /** `walkDirTree(t, level)`, reading the files of `fs`. */
  method WalkDirTree(fs: FileSystem, t: Tree, level: nat, c: Codec) returns (r: Result<Json>)
    ensures r == Walk(fs.entries, t, level, c)
    decreases t, 2, 0
  {
    if level == 1 {
      var key := TopLevelKey(t.name);
      if key.Some? {
        return TopLevelFile(fs.entries, t.path, key.value, c);
      }
    }
    match t
    case TFile(path, name) =>
      r := WalkFile(fs.entries, path, name, c);
    case TDir(_, _, _) =>
      r := WalkDirectory(fs, t, level, c);
  }

  /** A directory: the `try` block over `.meta.json`, the `forEach` over the children,
      the event sort, and the final `Object.assign`. */
  method WalkDirectory(fs: FileSystem, t: Tree, level: nat, c: Codec) returns (r: Result<Json>)
    requires t.TDir?
    ensures r == WalkDir(fs.entries, t, level, c)
    decreases t, 1, 0
  {
    var result := DirBase(t, level);
    if t.children == [] {
      return Ok(JObj(result));
    }
    var (children, description) := ChildOrder(fs.entries, t.path, t.children, c);
    assert forall x :: x in children ==> x in multiset(t.children);
    assert forall x :: x in children ==> x in t.children;
    var events: Option<seq<Json>> := None;
    var items: seq<Json> := [];
    var others: map<string, Json> := map[];
    var i := 0;
    while i < |children|
      invariant 0 <= i <= |children|
      invariant Gather(fs.entries, t, children[..i], level, c) == Ok(Gathered(events, items, others))
    {
      var child := children[i];
      ChildSmaller(t, child);
      var output := WalkDirTree(fs, child, level + 1, c);
      GatherStep(fs.entries, t, children, i, level, c);
      if output.Err? {
        GatherStuck(fs.entries, t, children, i + 1, level, c);
        return Err(output.error);
      }
      if child.TFile? {
        if MentionsEvent(child.name) {
          events := Some(if events.Some? then events.value + [output.value] else [output.value]);
        } else {
          others := others + output.value.fields;
        }
      } else {
        items := items + [output.value];
      }
      i := i + 1;
    }
    assert children[..i] == children;
    var sorted := SortEvents(fs.entries, t.path, events, c);
    if sorted.Err? {
      return Err(sorted.error);
    }
    r := Ok(JObj(Assemble(result, description, sorted.value, items) + others));
  }
}

=== FILE: json.dfy ===
/** JSON values as JavaScript sees them after `JSON.parse`, and the three text codecs the
    source uses, taken as uninterpreted functions. */
module Json {
  import opened Base

  datatype Json =
    | JNull
    | JBool(b: bool)
    | JNum(n: int)
    | JStr(s: string)
    | JArr(elems: seq<Json>)
    | JObj(fields: map<string, Json>)

  /** The property read `j[key]`; `None` stands for `undefined`. Reading a property of a
      value that is not an object (a string, an array, a number) gives `undefined` too. */
  function Get(j: Json, key: string): (r: Option<Json>)
    ensures r.Some? <==> j.JObj? && key in j.fields
    ensures r.Some? ==> r.value == j.fields[key]
  {
    if j.JObj? && key in j.fields then Some(j.fields[key]) else None
  }

  /** The property read `v[key]` where `v` may be `undefined` or `null`: those throw. */
  function Prop(v: Option<Json>, key: string): (r: Result<Option<Json>>)
    ensures r.Err? <==> v.None? || v.value.JNull?
    ensures r.Ok? ==> r.value == Get(v.value, key)
  {
    if v.None? || v.value.JNull? then Err(TypeError("property " + key + " of null or undefined"))
    else Ok(Get(v.value, key))
  }

  /** JavaScript truthiness of a possibly-undefined value (numbers are integers here). */
  predicate Truthy(v: Option<Json>) {
    match v
    case None => false
    case Some(JNull) => false
    case Some(JBool(b)) => b
    case Some(JNum(n)) => n != 0
    case Some(JStr(s)) => s != ""
    case Some(_) => true
  }

  /** A one-key object `{key: v}`. */
  function Single(key: string, v: Json): Json {
    JObj(map[key := v])
  }

  /** An array of JSON strings. */
  function Strs(ss: seq<string>): (r: Json)
    ensures r.JArr? && |r.elems| == |ss|
    ensures forall i :: 0 <= i < |ss| ==> r.elems[i] == JStr(ss[i])
  {
    if ss == [] then JArr([]) else JArr([JStr(ss[0])] + Strs(ss[1..]).elems)
  }

  /** `String(v)`: the text `JSON.parse` reads when it is handed a value that is not a
      string. Array entries are joined with ',' (a `null` entry gives nothing), an object
      gives "[object Object]". */
  function ToText(v: Json): string
    decreases v, 1
  {
    match v
    case JNull => "null"
    case JBool(b) => if b then "true" else "false"
    case JNum(n) => if n < 0 then "-" + Digits(-n) else Digits(n)
    case JStr(s) => s
    case JArr(elems) => JoinTexts(v, |elems|)
    case JObj(_) => "[object Object]"
  }

  /** `String` of the first `n` entries of an array, joined with ','. */
  function JoinTexts(v: Json, n: nat): string
    requires v.JArr? && n <= |v.elems|
    decreases v, 0, n
  {
    if n == 0 then ""
    else
      var e := v.elems[n - 1];
      var last := if e.JNull? then "" else ToText(e);
      if n == 1 then last else JoinTexts(v, n - 1) + "," + last
  }

  /** The decimal digits of a natural number. */
  function Digits(n: nat): (r: string)
    ensures |r| >= 1 && forall i :: 0 <= i < |r| ==> '0' <= r[i] <= '9'
  {
    var d := ['0' + (n % 10) as char];
    if n < 10 then d else Digits(n / 10) + d
  }

  /** `JSON.parse`, `JSON.stringify(v, null, 2)` and `JSON.stringify(v)`: their text syntax
      is not modelled, only the laws below. */
  datatype Codec = Codec(parse: string -> Option<Json>, pretty: Json -> string, compact: Json -> string)

  /** Parsing what was stringified gives the value back, with or without the newline
      `createFile` appends. */
  ghost predicate Lawful(c: Codec) {
    && (forall v :: c.parse(c.pretty(v) + "\n") == Some(v))
    && (forall v :: c.parse(c.compact(v)) == Some(v))
  }

  /** `JSON.parse` of a file's text, as a result. */
  function ParseText(c: Codec, text: string, path: Path): (r: Result<Json>)
    ensures r.Ok? <==> c.parse(text).Some?
    ensures r.Ok? ==> r.value == c.parse(text).value
  {
    match c.parse(text)
    case Some(v) => Ok(v)
    case None => Err(ParseError(path))
  }
}

=== FILE: names.dfy ===
/** Turning item names into directory names: `sanitizePathName` (lines 73-75) and the
    single `-copy` disambiguation of sibling names inside `traverse` (lines 177-184). */
module Names {

  /** `sanitizePathName`: every '/' becomes "_slash_". */
  function Sanitize(name: string): (r: string)
    ensures '/' !in r
    ensures '/' !in name ==> r == name
    ensures |r| >= |name|
  {
    if name == [] then []
    else (if name[0] == '/' then "_slash_" else [name[0]]) + Sanitize(name[1..])
  }

  /** Sanitizing a sanitized name changes nothing. */
  lemma SanitizeIdempotent(name: string)
    ensures Sanitize(Sanitize(name)) == Sanitize(name)
  {
  }

  /** Sanitizing works segment by segment; in particular the `-copy` suffix survives it. */
  lemma {:induction false} SanitizeAppend(a: string, b: string)
    ensures Sanitize(a + b) == Sanitize(a) + Sanitize(b)
  {
    if a == [] {
      assert a + b == b;
    } else {
      var ab := a + b;
      assert ab != [] && ab[0] == a[0] && ab[1..] == a[1..] + b;
      SanitizeAppend(a[1..], b);
    }
  }

  /** Two distinct names can share a directory name: the escape is not reversible. */
  lemma SanitizeNotInjective()
    ensures "a/b" != "a_slash_b" && Sanitize("a/b") == Sanitize("a_slash_b")
  {
    assert Sanitize(['b']) == ['b'] by { assert ['b'][1..] == []; }
    assert Sanitize(['/', 'b']) == "_slash_b" by { assert ['/', 'b'][1..] == ['b']; }
    assert Sanitize(['a', '/', 'b']) == "a_slash_b" by { assert ['a', '/', 'b'][1..] == ['/', 'b']; }
  }

  function Elems(s: seq<string>): set<string> {
    set x | x in s
  }

  /** The properties every plain object `{}` inherits: `elementMap[name]` is truthy for
      them before any sibling has been seen. */
  const InheritedKeys: set<string> :=
    {"constructor", "__defineGetter__", "__defineSetter__", "hasOwnProperty",
     "__lookupGetter__", "__lookupSetter__", "isPrototypeOf", "propertyIsEnumerable",
     "toString", "valueOf", "__proto__", "toLocaleString"}

  /** One step of the `elementMap` test: a name already used by an earlier sibling (or an
      inherited property name) gets `-copy` appended, once. */
  function NextName(seen: set<string>, name: string): string {
    if name in seen || name in InheritedKeys then name + "-copy" else name
  }

  /** The names siblings end up with, in item order; `elementMap` holds the names already
      handed out, which are the earlier entries of this sequence. */
  function FinalNames(names: seq<string>): (r: seq<string>)
    ensures |r| == |names|
    decreases |names|
  {
    if names == [] then []
    else
      var pre := FinalNames(names[..|names| - 1]);
      pre + [NextName(Elems(pre), names[|names| - 1])]
  }

  /** The last sibling's name is chosen against the names handed out before it. */
  lemma FinalNamesLast(names: seq<string>)
    requires names != []
    ensures var pre := FinalNames(names[..|names| - 1]);
            FinalNames(names) == pre + [NextName(Elems(pre), names[|names| - 1])]
  {
  }

  /** The names of the first `i` siblings do not depend on the later ones. */
  lemma {:induction false} FinalNamesPrefix(names: seq<string>, i: nat)
    requires i <= |names|
    ensures FinalNames(names)[..i] == FinalNames(names[..i])
    decreases |names|
  {
    if i < |names| {
      var n := |names|;
      assert names[..n - 1][..i] == names[..i];
      FinalNamesPrefix(names[..n - 1], i);
    } else {
      assert names[..i] == names;
    }
  }

  /** Sibling `i` keeps its name exactly when no earlier sibling ended up with it and it is
      not an inherited property name, and otherwise gets `-copy` once. */
  lemma FinalNameAt(names: seq<string>, i: nat)
    requires i < |names|
    ensures FinalNames(names)[i] == names[i] <==> names[i] !in FinalNames(names)[..i] && names[i] !in InheritedKeys
    ensures FinalNames(names)[i] == names[i] || FinalNames(names)[i] == names[i] + "-copy"
  {
    var r := FinalNames(names);
    FinalNamesPrefix(names, i + 1);
    FinalNamesPrefix(names, i);
    assert names[..i + 1][..i] == names[..i];
    assert r[..i + 1] == FinalNames(names[..i + 1]);
    assert r[i] == r[..i + 1][i];
    assert |names[..i + 1]| == i + 1;
    assert names[..i + 1][i] == names[i];
  }

  /** Siblings with pairwise distinct names, none an inherited property name, keep their
      names. */
  lemma {:induction false} DistinctNamesKept(names: seq<string>)
    requires forall i, j :: 0 <= i < j < |names| ==> names[i] != names[j]
    requires forall i :: 0 <= i < |names| ==> names[i] !in InheritedKeys
    ensures FinalNames(names) == names
    decreases |names|
  {
    if names != [] {
      var n := |names|;
      DistinctNamesKept(names[..n - 1]);
      assert names[n - 1] !in Elems(names[..n - 1]);
      assert names[..n - 1] + [names[n - 1]] == names;
    }
  }

  /** A third sibling with the same name gets the same `-copy` name as the second. */
  lemma ThirdSiblingCollides(name: string)
    ensures var r := FinalNames([name, name, name]);
            r[1] == r[2] == name + "-copy" && (name !in InheritedKeys ==> r[0] == name)
  {
    var one := FinalNames([name]);
    assert [name][..0] == [];
    assert Elems([]) == {};
    assert one == [NextName({}, name)];
    var two := FinalNames([name, name]);
    assert [name, name][..1] == [name];
    assert two == one + [NextName(Elems(one), name)];
    assert NextName(Elems(one), name) == name + "-copy";
    assert [name, name, name][..2] == [name, name];
    assert name in Elems(two) || name in InheritedKeys;
  }

  /** A first sibling named like an inherited property is renamed although nothing
      precedes it. */
  lemma InheritedNameRenamed()
    ensures FinalNames(["constructor"]) == ["constructor-copy"]
  {
    assert ["constructor"][..0] == [];
    assert Elems([]) == {};
    assert "constructor" in InheritedKeys;
    assert FinalNames(["constructor"]) == [NextName({}, "constructor")];
    assert "constructor" + "-copy" == "constructor-copy";
  }
}

=== FILE: ordering.dfy ===
/** Re-ordering directory children and events by an order list read from a sidecar file
    (`walkDirTree`, lines 303-317 and 346-362). The key of an entry is its position in the
    list as `findIndex` gives it, -1 when absent; entries are sorted by a stable insertion
    sort on that key. */
module Ordering {

  /** `list.findIndex(e => e === x)`. */
  function IndexOf<T(==)>(list: seq<T>, x: T): (r: int)
    ensures -1 <= r < |list|
    ensures r >= 0 ==> list[r] == x && x !in list[..r]
    ensures r == -1 <==> x !in list
  {
    if list == [] then -1
    else if list[0] == x then 0
    else
      var k := IndexOf(list[1..], x);
      assert list[1..][..if k < 0 then 0 else k] == list[1..1 + (if k < 0 then 0 else k)];
      if k < 0 then -1 else k + 1
  }

  function Keys<T>(s: seq<T>, key: T -> int): (r: seq<int>)
    ensures |r| == |s|
    ensures forall i :: 0 <= i < |s| ==> r[i] == key(s[i])
  {
    if s == [] then [] else [key(s[0])] + Keys(s[1..], key)
  }

  ghost predicate Sorted<T>(s: seq<T>, key: T -> int) {
    forall i, j :: 0 <= i < j < |s| ==> key(s[i]) <= key(s[j])
  }

  /** Puts `x` before the first entry whose key is not smaller. */
  function Insert<T>(x: T, s: seq<T>, key: T -> int): (r: seq<T>)
    ensures multiset(r) == multiset(s) + multiset{x}
  {
    if s == [] || key(x) <= key(s[0]) then [x] + s
    else
      assert s == [s[0]] + s[1..];
      [s[0]] + Insert(x, s[1..], key)
  }

  lemma {:induction false} InsertKeys<T>(x: T, s: seq<T>, key: T -> int)
    ensures multiset(Keys(Insert(x, s, key), key)) == multiset(Keys(s, key)) + multiset{key(x)}
  {
    if s == [] || key(x) <= key(s[0]) {
      assert Keys([x] + s, key) == [key(x)] + Keys(s, key);
    } else {
      var rest := Insert(x, s[1..], key);
      InsertKeys(x, s[1..], key);
      assert Keys([s[0]] + rest, key) == [key(s[0])] + Keys(rest, key);
      assert Keys(s, key) == [key(s[0])] + Keys(s[1..], key);
    }
  }

  lemma {:induction false} InsertSorted<T>(x: T, s: seq<T>, key: T -> int)
    requires Sorted(s, key)
    ensures Sorted(Insert(x, s, key), key)
    decreases |s|
  {
    if s == [] || key(x) <= key(s[0]) {
      forall z | z in s ensures key(x) <= key(z) {
        var j :| 0 <= j < |s| && s[j] == z;
        assert j == 0 || key(s[0]) <= key(s[j]);
      }
      SortedCons(x, s, key);
    } else {
      var y, r := s[0], s[1..];
      assert Insert(x, s, key) == [y] + Insert(x, r, key);
      InsertSorted(x, r, key);
      forall z | z in r ensures key(y) <= key(z) {
        var j :| 0 <= j < |r| && r[j] == z;
        assert r[j] == s[j + 1];
      }
      InsertLowerBound(x, r, key, key(y));
      SortedCons(y, Insert(x, r, key), key);
    }
  }

  /** An entry no larger than any of a sorted list goes in front of it. */
  lemma SortedCons<T>(y: T, rest: seq<T>, key: T -> int)
    requires Sorted(rest, key) && forall z :: z in rest ==> key(y) <= key(z)
    ensures Sorted([y] + rest, key)
  {
    var r := [y] + rest;
    forall i, j | 0 <= i < j < |r| ensures key(r[i]) <= key(r[j]) {
      assert r[j] == rest[j - 1] && rest[j - 1] in rest;
      if i > 0 {
        assert r[i] == rest[i - 1];
      }
    }
  }

  /** A bound below every entry and the new one is a bound below every entry after the
      insertion. */
  lemma InsertLowerBound<T>(x: T, s: seq<T>, key: T -> int, lo: int)
    requires lo <= key(x) && forall z :: z in s ==> lo <= key(z)
    ensures forall z :: z in Insert(x, s, key) ==> lo <= key(z)
  {
    forall z | z in Insert(x, s, key) ensures lo <= key(z) {
      assert z in multiset(Insert(x, s, key));
      if z != x {
        assert z in multiset(s);
      }
    }
  }

  /** The stable sort by key that stands for `Array.prototype.sort` with the index
      comparator. */
  function SortBy<T>(s: seq<T>, key: T -> int): (r: seq<T>)
    ensures multiset(r) == multiset(s)
  {
    if s == [] then []
    else
      assert s == [s[0]] + s[1..];
      Insert(s[0], SortBy(s[1..], key), key)
  }

  /** The sort puts smaller keys first. */
  lemma {:induction false} SortBySorted<T>(s: seq<T>, key: T -> int)
    ensures Sorted(SortBy(s, key), key)
  {
    if s != [] {
      SortBySorted(s[1..], key);
      InsertSorted(s[0], SortBy(s[1..], key), key);
    }
  }

  /** The sort keeps the keys of the entries. */
  lemma {:induction false} SortByKeys<T>(s: seq<T>, key: T -> int)
    ensures multiset(Keys(SortBy(s, key), key)) == multiset(Keys(s, key))
  {
    if s != [] {
      var tail := SortBy(s[1..], key);
      SortByKeys(s[1..], key);
      InsertKeys(s[0], tail, key);
      assert SortBy(s, key) == Insert(s[0], tail, key);
      var ks := Keys(s, key);
      assert ks == [key(s[0])] + Keys(s[1..], key);
      assert multiset(ks) == multiset{key(s[0])} + multiset(Keys(s[1..], key));
    }
  }

  lemma {:induction false} DistinctCountsAtMostOne(q: seq<int>, v: int)
    requires forall i, j :: 0 <= i < j < |q| ==> q[i] != q[j]
    ensures multiset(q)[v] <= 1
  {
    if q != [] {
      assert q == [q[0]] + q[1..];
      DistinctCountsAtMostOne(q[1..], v);
      if q[0] == v {
        assert v !in q[1..];
      }
    }
  }

  lemma RepeatCountsTwo(q: seq<int>, i: nat, j: nat)
    requires i < j < |q| && q[i] == q[j]
    ensures multiset(q)[q[i]] >= 2
  {
    assert q == q[..j] + [q[j]] + q[j + 1..];
    assert q[i] in q[..j];
  }

  /** Strictly increasing keys inside `[0, n)` on `n` entries are exactly `0, 1, ..., n-1`. */
  lemma {:induction false} IncreasingKeysAreIdentity(q: seq<int>, n: nat, i: nat)
    requires |q| == n && i < n
    requires forall a, b :: 0 <= a < b < n ==> q[a] < q[b]
    requires forall a :: 0 <= a < n ==> 0 <= q[a] < n
    ensures q[i] == i
  {
    BoundBelow(q, n, i);
    BoundAbove(q, n, i);
  }

  lemma {:induction false} BoundBelow(q: seq<int>, n: nat, i: nat)
    requires |q| == n && i < n
    requires forall a, b :: 0 <= a < b < n ==> q[a] < q[b]
    requires forall a :: 0 <= a < n ==> 0 <= q[a] < n
    ensures q[i] >= i
  {
    if i > 0 { BoundBelow(q, n, i - 1); }
  }

  lemma {:induction false} BoundAbove(q: seq<int>, n: nat, i: nat)
    requires |q| == n && i < n
    requires forall a, b :: 0 <= a < b < n ==> q[a] < q[b]
    requires forall a :: 0 <= a < n ==> 0 <= q[a] < n
    ensures q[i] <= i
    decreases n - i
  {
    if i < n - 1 {
      BoundAbove(q, n, i + 1);
    }
  }

  /** Sorted keys that are pairwise distinct before the sort increase strictly after it. */
  lemma SortedKeysIncrease<T>(s: seq<T>, key: T -> int, a: nat, b: nat)
    requires forall i, j :: 0 <= i < j < |s| ==> key(s[i]) != key(s[j])
    requires a < b < |SortBy(s, key)|
    ensures key(SortBy(s, key)[a]) < key(SortBy(s, key)[b])
  {
    var r := SortBy(s, key);
    SortBySorted(s, key);
    SortByKeys(s, key);
    var kr, ks := Keys(r, key), Keys(s, key);
    if key(r[a]) == key(r[b]) {
      RepeatCountsTwo(kr, a, b);
      DistinctCountsAtMostOne(ks, kr[a]);
      assert false;
    }
  }

  /** When the keys of the entries are pairwise distinct and all lie in `[0, n)` for `n`
      entries, the sort puts the entry with key `i` at position `i`. */
  lemma SortPlacesByKey<T>(s: seq<T>, key: T -> int, i: nat)
    requires i < |s|
    requires forall a, b :: 0 <= a < b < |s| ==> key(s[a]) != key(s[b])
    requires forall a :: 0 <= a < |s| ==> 0 <= key(s[a]) < |s|
    ensures |SortBy(s, key)| == |s| && key(SortBy(s, key)[i]) == i
  {
    var r := SortBy(s, key);
    var kr := Keys(r, key);
    assert |r| == |s| by { assert |multiset(r)| == |multiset(s)|; }
    forall a | 0 <= a < |r| ensures 0 <= kr[a] < |s| {
      assert r[a] in multiset(s);
    }
    forall a, b | 0 <= a < b < |r| ensures kr[a] < kr[b] {
      SortedKeysIncrease(s, key, a, b);
    }
    IncreasingKeysAreIdentity(kr, |s|, i);
  }

  /** Order recovery: entries whose names are pairwise distinct and which are exactly the
      `|order|` names of a duplicate-free `order` list come out in the order of that list,
      whatever order they came in. */
  lemma SortRecoversOrder<T>(s: seq<T>, name: T -> string, key: T -> int, order: seq<string>)
    requires forall x :: key(x) == IndexOf(order, name(x))
    requires |s| == |order|
    requires forall a, b :: 0 <= a < b < |order| ==> order[a] != order[b]
    requires forall a, b :: 0 <= a < b < |s| ==> name(s[a]) != name(s[b])
    requires forall a :: 0 <= a < |s| ==> name(s[a]) in order
    ensures var r := SortBy(s, key);
            |r| == |order| && forall i :: 0 <= i < |r| ==> name(r[i]) == order[i]
  {
    var r := SortBy(s, key);
    assert |r| == |s| by { assert |multiset(r)| == |multiset(s)|; }
    forall a, b | 0 <= a < b < |s| ensures key(s[a]) != key(s[b]) {
      assert order[key(s[a])] == name(s[a]);
    }
    forall i | 0 <= i < |r| ensures name(r[i]) == order[i] {
      SortPlacesByKey(s, key, i);
      assert r[i] in multiset(s);
    }
  }

  /** The entries of `s` that satisfy `p`, in their order. */
  function Filter<T>(p: T -> bool, s: seq<T>): (r: seq<T>)
    ensures |r| <= |s|
  {
    if s == [] then [] else (if p(s[0]) then [s[0]] else []) + Filter(p, s[1..])
  }

  /** What `Filter` keeps: exactly the entries that satisfy `p`. */
  lemma {:induction false} FilterMembers<T>(p: T -> bool, s: seq<T>, x: T)
    ensures x in Filter(p, s) <==> x in s && p(x)
    decreases |s|
  {
    if s != [] {
      assert s == [s[0]] + s[1..];
      FilterMembers(p, s[1..], x);
    }
  }

  lemma FilterCons<T>(p: T -> bool, x: T, s: seq<T>)
    ensures p(x) ==> Filter(p, [x] + s) == [x] + Filter(p, s)
    ensures !p(x) ==> Filter(p, [x] + s) == Filter(p, s)
  {
    assert ([x] + s)[0] == x && ([x] + s)[1..] == s;
    assert [] + Filter(p, s) == Filter(p, s);
  }

  lemma {:induction false} FilterAppend<T>(p: T -> bool, a: seq<T>, b: seq<T>)
    ensures Filter(p, a + b) == Filter(p, a) + Filter(p, b)
    decreases |a|
  {
    if a == [] {
      assert a + b == b;
    } else {
      var x, r := a[0], a[1..];
      assert a == [x] + r;
      assert a + b == [x] + (r + b);
      FilterAppend(p, r, b);
      FilterCons(p, x, r + b);
      FilterCons(p, x, r);
    }
  }

  /** Inserting into a sorted list and then filtering is filtering and then inserting. */
  lemma {:induction false} FilterInsert<T>(p: T -> bool, x: T, t: seq<T>, key: T -> int)
    requires Sorted(t, key)
    ensures Filter(p, Insert(x, t, key)) == if p(x) then Insert(x, Filter(p, t), key) else Filter(p, t)
    decreases |t|
  {
    if t == [] || key(x) <= key(t[0]) {
      FilterInsertFront(p, x, t, key);
    } else {
      var rest := Insert(x, t[1..], key);
      assert Insert(x, t, key) == [t[0]] + rest;
      assert Sorted(t[1..], key);
      FilterInsert(p, x, t[1..], key);
      FilterInsertAfter(p, x, t, key);
    }
  }

  /** `FilterInsert` when `x` goes in front. */
  lemma FilterInsertFront<T>(p: T -> bool, x: T, t: seq<T>, key: T -> int)
    requires Sorted(t, key)
    requires t == [] || key(x) <= key(t[0])
    ensures Filter(p, Insert(x, t, key)) == if p(x) then Insert(x, Filter(p, t), key) else Filter(p, t)
  {
    assert Insert(x, t, key) == [x] + t;
    FilterCons(p, x, t);
    var ft := Filter(p, t);
    if p(x) && ft != [] {
      FilterMembers(p, t, ft[0]);
      var j :| 0 <= j < |t| && t[j] == ft[0];
      assert j == 0 || key(t[0]) <= key(t[j]);
      assert Insert(x, ft, key) == [x] + ft;
    }
  }

  /** `FilterInsert` when `x` goes after the first entry, given that it holds behind it. */
  lemma FilterInsertAfter<T>(p: T -> bool, x: T, t: seq<T>, key: T -> int)
    requires t != [] && key(t[0]) < key(x)
    requires var f := Filter(p, Insert(x, t[1..], key));
             f == if p(x) then Insert(x, Filter(p, t[1..]), key) else Filter(p, t[1..])
    ensures Filter(p, Insert(x, t, key)) == if p(x) then Insert(x, Filter(p, t), key) else Filter(p, t)
  {
    var y, r := t[0], t[1..];
    assert t == [y] + r;
    InsertAfter(x, y, r, key);
    FilterCons(p, y, Insert(x, r, key));
    FilterCons(p, y, r);
    if p(x) && p(y) {
      InsertAfter(x, y, Filter(p, r), key);
    }
  }

  lemma InsertAfter<T>(x: T, y: T, f: seq<T>, key: T -> int)
    requires key(y) < key(x)
    ensures Insert(x, [y] + f, key) == [y] + Insert(x, f, key)
  {
    assert ([y] + f)[0] == y && ([y] + f)[1..] == f;
  }

  /** Sorting commutes with filtering: the sort is stable, so the entries that satisfy
      `p` keep the relative order the sort gives them on their own. */
  lemma {:induction false} FilterSortBy<T>(p: T -> bool, s: seq<T>, key: T -> int)
    ensures Filter(p, SortBy(s, key)) == SortBy(Filter(p, s), key)
    decreases |s|
  {
    if s != [] {
      var x, r := s[0], s[1..];
      assert s == [x] + r;
      FilterSortBy(p, r, key);
      FilterSortByStep(p, x, r, key);
    }
  }

  lemma FilterSortByStep<T>(p: T -> bool, x: T, r: seq<T>, key: T -> int)
    requires Filter(p, SortBy(r, key)) == SortBy(Filter(p, r), key)
    ensures Filter(p, SortBy([x] + r, key)) == SortBy(Filter(p, [x] + r), key)
  {
    SortByCons(x, r, key);
    SortBySorted(r, key);
    FilterInsert(p, x, SortBy(r, key), key);
    FilterCons(p, x, r);
    if p(x) {
      SortByCons(x, Filter(p, r), key);
    }
  }

  lemma SortByCons<T>(x: T, f: seq<T>, key: T -> int)
    ensures SortBy([x] + f, key) == Insert(x, SortBy(f, key), key)
  {
    assert ([x] + f)[0] == x && ([x] + f)[1..] == f;
  }

  /** Entries with pairwise different names still have them after filtering. */
  lemma {:induction false} FilterKeepsDistinct<T>(p: T -> bool, s: seq<T>, name: T -> string)
    requires forall a, b :: 0 <= a < b < |s| ==> name(s[a]) != name(s[b])
    ensures var r := Filter(p, s);
            forall a, b :: 0 <= a < b < |r| ==> name(r[a]) != name(r[b])
    decreases |s|
  {
    if s != [] {
      var tail := s[1..];
      assert s == [s[0]] + tail;
      FilterCons(p, s[0], tail);
      FilterKeepsDistinct(p, tail, name);
      var f := Filter(p, tail);
      if p(s[0]) {
        var r := [s[0]] + f;
        assert Filter(p, s) == r;
        forall a, b | 0 <= a < b < |r| ensures name(r[a]) != name(r[b]) {
          if a == 0 {
            FilterMembers(p, tail, f[b - 1]);
            assert r[b] == f[b - 1] && f[b - 1] in tail;
            var j :| 0 <= j < |tail| && tail[j] == f[b - 1];
            assert tail[j] == s[j + 1];
            assert name(s[0]) != name(s[j + 1]);
          } else {
            assert r[a] == f[a - 1] && r[b] == f[b - 1];
          }
        }
      }
    }
  }
}

=== FILE: roundtrip.dfy ===
/** Export followed by import: the order of a folder's children survives the trip
    through the filesystem. What export wrote (`ExportProperties`) meets what import reads
    back (`ImportProperties`). */
module RoundTrip {
  import opened Base
  import opened Json
  import opened FileStore
  import opened Names
  import opened Exporter
  import opened ExportProperties
  import opened Importer
  import opened ImportProperties

  /** A folder exported without error, whose items are all folders or requests: when
      the walk of a listing of it succeeds, its `item` list holds one entry per item, in
      item order, each named as its directory. The listing's sub-directories must be the
      children's directories, in whatever order the listing gives them; files may sit
      beside them. That the walk succeeds is a hypothesis, not a conclusion: a listed file
      that is missing from the filesystem, or a file whose name mentions "event" in a
      folder without `.event.meta.json`, makes it fail. */
  lemma FolderOrderRoundTrip(m: Entries, thing: Json, ancestors: seq<string>, dir: Path, opts: Options,
                             c: Codec, t: Tree, level: nat)
    requires Lawful(c)
    requires Truthy(Get(thing, "item")) && HasItems(thing) && |Items(thing)| >= 1
    requires forall i :: 0 <= i < |Items(thing)| ==> MakesDir(Items(thing)[i])
    requires ExportFolder(m, thing, ancestors, dir, opts, c).1.Done?
    requires t.TDir? && t.path == dir
    requires level != 1 || TopLevelKey(t.name).None?
    requires ListsExactly(t.children, ChildrenOrder(Items(thing)))
    requires level == 0 ==> forall x :: x in t.children && x.TDir? ==> TopLevelKey(x.name).None?
    requires Walk(ExportFolder(m, thing, ancestors, dir, opts, c).0, t, level, c).Ok?
    ensures var r := Walk(ExportFolder(m, thing, ancestors, dir, opts, c).0, t, level, c).value;
            Get(r, "item").Some? && r.fields["item"].JArr? &&
            var items := r.fields["item"].elems;
            var order := ChildrenOrder(Items(thing));
            |items| == |Items(thing)| &&
            forall i :: 0 <= i < |items| ==> Get(items[i], "name") == Some(JStr(order[i]))
  {
    var m' := ExportFolder(m, thing, ancestors, dir, opts, c).0;
    var order := ChildrenOrder(Items(thing));
    var meta := FolderMeta(thing, order);
    FolderMetaWritten(m, thing, ancestors, dir, opts, c);
    assert c.parse(c.pretty(meta) + "\n") == Some(meta);
    FolderMetaFields(thing, order);
    FolderChildrenDistinct(m, thing, ancestors, dir, opts, c);
    ChildrenOrderRecovered(m', t, level, meta, order, c);
  }

  /** When the siblings' names are pairwise different, hold no '/' and are none of the
      names a plain object inherits, export keeps them as they are, and a successful walk
      of the folder gives back its items' names in item order. */
  lemma FolderNamesRoundTrip(m: Entries, thing: Json, ancestors: seq<string>, dir: Path, opts: Options,
                             c: Codec, t: Tree, level: nat)
    requires Lawful(c)
    requires Truthy(Get(thing, "item")) && HasItems(thing) && |Items(thing)| >= 1
    requires forall i :: 0 <= i < |Items(thing)| ==> MakesDir(Items(thing)[i])
    requires forall i :: 0 <= i < |Items(thing)| ==> Get(Items(thing)[i], "name").Some? && Items(thing)[i].fields["name"].JStr?
    requires PlainNames(NamesOf(Items(thing)))
    requires ExportFolder(m, thing, ancestors, dir, opts, c).1.Done?
    requires t.TDir? && t.path == dir
    requires level != 1 || TopLevelKey(t.name).None?
    requires ListsExactly(t.children, NamesOf(Items(thing)))
    requires level == 0 ==> forall x :: x in t.children && x.TDir? ==> TopLevelKey(x.name).None?
    requires Walk(ExportFolder(m, thing, ancestors, dir, opts, c).0, t, level, c).Ok?
    ensures var r := Walk(ExportFolder(m, thing, ancestors, dir, opts, c).0, t, level, c).value;
            Get(r, "item").Some? && r.fields["item"].JArr? &&
            var items := r.fields["item"].elems;
            |items| == |Items(thing)| &&
            forall i :: 0 <= i < |items| ==> Get(items[i], "name") == Get(Items(thing)[i], "name")
  {
    NamesKept(Items(thing));
    StringNames(Items(thing));
    FolderOrderRoundTrip(m, thing, ancestors, dir, opts, c, t, level);
  }

  /** Sibling names export keeps as they are: pairwise different, none a name a plain
      object inherits, none holding '/'. */
  predicate PlainNames(names: seq<string>) {
    (forall i, j :: 0 <= i < j < |names| ==> names[i] != names[j]) &&
    (forall i :: 0 <= i < |names| ==> names[i] !in InheritedKeys && '/' !in names[i])
  }

  /** Siblings with such names get directories named exactly as they are. */
  lemma NamesKept(items: seq<Json>)
    requires PlainNames(NamesOf(items))
    ensures ChildrenOrder(items) == NamesOf(items)
  {
    var names := NamesOf(items);
    DistinctNamesKept(names);
    var order := ChildrenOrder(items);
    forall i | 0 <= i < |items| ensures order[i] == names[i] {
      assert '/' !in names[i];
    }
  }

  lemma StringNames(items: seq<Json>)
    requires forall i :: 0 <= i < |items| ==> Get(items[i], "name").Some? && items[i].fields["name"].JStr?
    ensures forall i :: 0 <= i < |items| ==> Get(items[i], "name") == Some(JStr(NamesOf(items)[i]))
  {
  }
}
